=== FILE: README.md ===
# Wappalyzer technology detection, modelled in Dafny

This project models the core of the Ruby `wappalyzer` gem: the part that identifies the
technologies a web page uses. The rules come from a technology document. Each technology
carries regex signatures for the page's URL, HTML, CSS, script sources, cookies, meta tags,
response headers, script globals, robots file and certificate issuer. It can also imply or
exclude other technologies.

The modelled pipeline has these stages:

1. **Compiling the rules** (`Builder`, `Builder::RuleParser`). Every signature string
   `source\;name:value\;…` becomes a pattern with `value`, `regex`, `confidence` (default
   100) and `version` (default blank), plus extra attributes such as `key_regex`. Keyed
   signatures have their keys down-cased, except for `js`. Later definitions replace
   earlier ones of the same name. Category ids are read with `to_i`.
2. **Shaping the page snapshot** (the pure helpers of `WebpageScraper`). Header names are
   down-cased and header values split into lines. Cookie lines are split at the first `=`.
   Meta tags and cookies are grouped by name. Script globals are sanitised and wrapped into
   one-element lists.
3. **Detection** (`Analysis::Processor`). Every pattern of every technology is matched
   against the snapshot in `MAPPING` order. Each hit yields one piece of evidence, with a
   version resolved from the pattern's template.
4. **Grouping** (`Analysis::Formatter`). The evidence is grouped into one entry per
   technology, with the plain sum of confidences and the non-blank versions.
5. **Cross-references** (`Analysis::ImplicationResolver`). Implications and exclusions
   append synthetic records to detected technologies. Implications also create entries for
   technologies that were not detected.
6. **Scoring and ranking** (`Analysis::PostFormatter`). Zero-confidence matches get a boost.
   The referrer's share is added for implied records and subtracted for excluded ones. A
   best version is chosen, and the result is sorted by confidence, with implied entries
   discounted by 1.5.

`Analysis#run` is an older version of stages 3–6. It is modelled separately in
`LegacyAnalysis`, together with what distinguishes it from the class pipeline:

- its version loop accumulates substitutions;
- it boosts differently;
- it stores exclusions negated and adds them;
- its best version can be the blank one.

Modelling conventions:

- A Ruby Hash is an ordered association list (`OrderedHash.Assoc`).
  - `hash[k] = v` keeps an existing key's position and appends a new key.
  - `to_h` and `merge` let the last value win.
- The regex engine is a parameter (`Regex.Engine`). It says which sources compile and what
  a match captures.
- Every place where the Ruby code raises becomes a `Failure`:
  - `Regexp.new` on a bad source;
  - `nil.to_sym` on an attribute segment made only of `:`;
  - `Regexp#match(true)`;
  - iterating a keyed field as a list;
  - a snapshot without `js`;
  - `nil.fetch` on an implied entry without a technology;
  - reading the confidence of a referrer that is missing.
- Ruby integers are unbounded, like Dafny's.
  - `(a * b / 100.0).to_i` is computed exactly as truncation toward zero of `a*b/100`.
  - The sort key `c / 1.5` is compared as `2c` against `3c`.

## Model

| member | source | states |
|---|---|---|
| RuleParser.Attribute | lib/wappalyzer/builder/rule_parser.rb:50 | an attribute segment splits into the name before its first `:` and the text after it (nil without a `:`); it raises exactly when the segment is nothing but colons |
| RuleParser.AttributeAgreesWithSplit | lib/wappalyzer/builder/rule_parser.rb:50 | the name is Ruby's `split(':')[0]` and the value is `split(':', 2)[1]`, including the case where `split` returns no field at all |
| RuleParser.NormaliseSkipsSlash | lib/wappalyzer/builder/rule_parser.rb:55 | the `\/` rewrite replaces the text with itself, since `/` after a backslash is no escape in a replacement; only the `[^]` and `[\s\S]*` rewrites change a source |
| RuleParser.NormaliseKeepsPlainSource | lib/wappalyzer/builder/rule_parser.rb:55 | a regex source without either idiom is stored verbatim |
| RuleParser.ParsePatternFails | lib/wappalyzer/builder/rule_parser.rb:46-61 | a signature is rejected exactly when one of its attribute segments is made only of colons |
| RuleParser.ParseRendered | lib/wappalyzer/builder/rule_parser.rb:46-61 | round trip: parsing a signature written as `source\;name:value…` gives back the normalised source as value and regex unless overridden, the `to_i` of the last `confidence` or 100, the last `version` or blank, and `key_regex` exactly when it was written |
| RuleParser.AssignRendered | lib/wappalyzer/builder/rule_parser.rb:48-58 | assigning attributes left to right leaves each written name with its last value and every other name as it was |
| RuleParser.KeyRegexIffAttr | lib/wappalyzer/builder/rule_parser.rb:60 | `key_regex` survives the removal of nil attributes exactly when it was assigned a string |
| RuleParser.Extras | lib/wappalyzer/builder/rule_parser.rb:60 | the extra attributes are exactly the non-nil assigned ones outside the four defaults |
| RuleParser.ParseKeyed | lib/wappalyzer/builder/rule_parser.rb:39-42 | the map form succeeds exactly when every entry's patterns parse; its keys are the stored keys without repeats, in first-seen order; a failure is the failure of some entry |
| RuleParser.ParseKeyedLast | lib/wappalyzer/builder/rule_parser.rb:39-42 | a stored key reads as the parsed patterns of the last entry stored under it |
| RuleParser.KeyedKeysDowncased | lib/wappalyzer/builder/rule_parser.rb:41 | outside `js` every stored key is already lower case |
| RuleParser.Transform | lib/wappalyzer/builder/rule_parser.rb:34-44 | nil or empty input gives the empty list; a string is a one-pattern list; a list keeps its length and order, pattern by pattern; a non-empty map becomes a keyed matcher |
| RuleParser.EachField | lib/wappalyzer/builder/rule_parser.rb:22-27 | the twelve fields are compiled in `REQUIRE_PARSING` order; the result succeeds exactly when every field does, and otherwise carries the error of some field |
| RuleParser.Process | lib/wappalyzer/builder/rule_parser.rb:21-30 | every field is `transform` of its raw value, case-sensitive for `js` only; it fails exactly when one field fails, with that field's error |
| Builder.CategoryTable | lib/wappalyzer/builder.rb:36 | the table has one entry for each integer value of an id (`k.to_i`), and no other entries |
| RubyString.ToIOfNumeral | lib/wappalyzer/builder.rb:36 | round trip: `to_i` reads back the decimal numeral of a number, with or without a minus sign |
| Builder.CategoryTableLastWins | lib/wappalyzer/builder.rb:36 | among ids with the same integer value, the category of the last one is stored |
| Builder.ParseEach | lib/wappalyzer/builder.rb:67-77 | a compiled technology has the compiled fields, its name, its cpe, website and description, `default.svg` when there is no icon, and one category lookup per id; it fails exactly when compiling fails |
| Builder.UnknownCategoryKept | lib/wappalyzer/builder.rb:75 | an id missing from the table stays in place as nil and is not dropped |
| Builder.Parse | lib/wappalyzer/builder.rb:57-65 | merging a document keeps every earlier key in place, adds the document's names, and leaves the other names untouched; it succeeds exactly when every technology compiles |
| Builder.ParseOverrides | lib/wappalyzer/builder.rb:57-65 | a name the document defines reads as the compiled form of its last definition there |
| Builder.Run | lib/wappalyzer/builder.rb:24-48 | without a local document, or with a blank one, the result is the remote document alone; every result has unique names |
| Builder.RunLocalWins | lib/wappalyzer/builder.rb:41-48 | a name the local document defines reads as its local definition, compiled against the remote category table |
| Builder.RunKeepsRemote | lib/wappalyzer/builder.rb:33-48 | a remote definition that the local document does not mention survives the run unchanged |
| VersionTemplate.FindTernary | lib/wappalyzer/analysis/processor.rb:91-92 | the ternary `\i?a:b` for group `i` is found at the leftmost position where it matches, or it is absent exactly when it matches nowhere |
| VersionTemplate.TernaryAtShape | lib/wappalyzer/analysis/processor.rb:91 | a ternary found is `\i?`, then a non-empty run without `:`, then `:`, then the rest of the line |
| RubyString.SubFirst | lib/wappalyzer/analysis/processor.rb:94 | `sub` replaces the leftmost occurrence of the matched text by the replacement expanded against it, and keeps the text before and after |
| RubyString.ExpandPlain | lib/wappalyzer/analysis/processor.rb:94-96 | a replacement in which no backslash starts an escape is inserted as written |
| RubyString.ExpandEscape | lib/wappalyzer/analysis/processor.rb:94-96 | round trip: a text with every backslash doubled is inserted as that text |
| RubyString.GsubPlain | lib/wappalyzer/analysis/processor.rb:96 | with a replacement without escapes, `gsub` replaces every non-overlapping occurrence, left to right, by the replacement as written |
| RubyString.GsubAbsent | lib/wappalyzer/analysis/processor.rb:96 | `gsub` changes nothing when the text does not occur |
| VersionTemplate.ExampleEscapedBranch | lib/wappalyzer/analysis/processor.rb:91-96 | the branch chosen by a ternary is a replacement string: for `\1?\1:x` with group 1 set to `5` the version is empty, because `\1` in the branch names a group the ternary's own match lacks |
| VersionTemplate.ResolvePlain | lib/wappalyzer/analysis/processor.rb:90-97 | a template without a ternary or a back-reference for the group is only stripped |
| VersionTemplate.ClassVersionIsLastGroup | lib/wappalyzer/analysis/processor.rb:83-87 | the processor loop returns the raw template when there are no groups, and otherwise the template resolved against the last group alone |
| VersionTemplate.LegacyTernaryRestarts | lib/wappalyzer/analysis.rb:180-185 | in the legacy loop, a group whose ternary is found discards whatever the earlier groups substituted |
| VersionTemplate.VersionsAgreeOnOneGroup | lib/wappalyzer/analysis.rb:172-188 | the legacy loop and the processor loop give the same version when the match has at most one group |
| VersionTemplate.VersionsDivergeOnTwoGroups | lib/wappalyzer/analysis.rb:178-187 | for the template `\1.\2` and groups `5`, `3`, the legacy loop gives `5.3` and the processor loop gives `\1.3` |
| Processor.VersionFor | lib/wappalyzer/analysis/processor.rb:77-88 | a blank template gives no version; otherwise a string value has a version exactly when the regex matches it, that version being the template resolved against the match's groups; a boolean or number raises |
| Processor.AddIfMatch | lib/wappalyzer/analysis/processor.rb:59-66 | it raises exactly when the regex does not compile, or when the value is `true` and the template is not blank; otherwise it reports once exactly when the value is `true` or a matching string, and the evidence records the tech, the field, the pattern and the key |
| Processor.ForValueSelectsHits | lib/wappalyzer/analysis/processor.rb:32-36 | the patterns that report for a value are exactly the listed patterns that hit it, in order |
| Processor.ForValues | lib/wappalyzer/analysis/processor.rb:38-44 | every script source is matched against every pattern; it succeeds exactly when each source does, and a missing list gives nothing; apart from versions, the evidence is exactly one record per (source, listed pattern) pair that hits, sources outer and patterns inner, in list order |
| Processor.SelectItems | lib/wappalyzer/analysis/processor.rb:68-75 | without `key_regex` the items are those stored under the key itself; with it, the values of every key that the key regex matches; the key regex raises only when there is a key to test |
| Processor.ValuesUnder | lib/wappalyzer/analysis/processor.rb:72-74 | a value is selected exactly when it is stored under some key that matches |
| Processor.ForKeyed | lib/wappalyzer/analysis/processor.rb:46-75 | a missing part gives nothing; a listed field read as keyed raises when it has patterns; every piece of evidence names a key and a pattern that the technology lists under that key, and some value selected under that key hits the pattern; apart from versions, the evidence is exactly one record per (key, pattern, selected value) that hits, in the order of keys, then patterns, then values |
| Processor.JsPart | lib/wappalyzer/analysis/processor.rb:23 | reading a technology's globals raises exactly when the snapshot has no `js` part |
| Processor.ForField | lib/wappalyzer/analysis/processor.rb:21-26 | each field is handled by the method `MAPPING` gives it; a `js` field without `js` data raises; all evidence names the field and the tech |
| Processor.Detect | lib/wappalyzer/analysis/processor.rb:19-75 | detection succeeds exactly when every technology does; each piece of evidence belongs to a known technology and is sound: its pattern is one the technology lists for that field (and key), and some value the page holds there hits it: the field's own value, one of the script sources, or a value selected under the key, read from the technology's own globals for `js`; with any technology and no `js` part it raises; apart from versions, the evidence is exactly every hit of the page, technology by technology in the document's order and field by field in `MAPPING` order |
| Processor.DetectIgnoresVersion | lib/wappalyzer/analysis/processor.rb:19-28 | whether detection raises, and which evidence it reports apart from versions, does not depend on how versions are resolved |
| Formatter.CollectVersions | lib/wappalyzer/analysis/formatter.rb:31-33 | a version is collected exactly when some record resolved it and it is not blank; there are never more versions than records |
| Formatter.CollectVersionsAppend | lib/wappalyzer/analysis/formatter.rb:31-33 | versions keep record order: collecting two runs of records one after the other gives their two collections one after the other |
| Formatter.CollectVersionsCounts | lib/wappalyzer/analysis/formatter.rb:31-33 | duplicates are kept: each version is collected as many times as records resolved it |
| Formatter.SumOfConfidenceAppend | lib/wappalyzer/analysis/formatter.rb:27-29 | the confidence sum of concatenated records is the sum of their sums |
| Formatter.Format | lib/wappalyzer/analysis/formatter.rb:13-23 | one entry per technology name, in first-appearance order; each entry's records are that name's evidence in order |
| Formatter.FormatEntry | lib/wappalyzer/analysis/formatter.rb:13-23 | the entry for a detected name is named by it, takes its technology from the name's first evidence, sums its confidences and collects its versions |
| Formatter.FormatAbsent | lib/wappalyzer/analysis/formatter.rb:14 | a name with no evidence has no entry |
| Formatter.FormatKeepsAllEvidence | lib/wappalyzer/analysis/formatter.rb:14 | every piece of evidence lands in exactly one entry: the record counts add up to the number of pieces of evidence |
| ImplicationResolver.Targets | lib/wappalyzer/analysis/implication_resolver.rb:22-28 | an entry's implied or excluded patterns are those of its technology; an entry without a technology, or a keyed field, raises |
| ImplicationResolver.LinksOf | lib/wappalyzer/analysis/implication_resolver.rb:22-28 | one entry's references all name the entry as referrer and are its implications in list order, then its exclusions in list order; reading them fails exactly when either list cannot be read |
| ImplicationResolver.Links | lib/wappalyzer/analysis/implication_resolver.rb:21-29 | it succeeds exactly when every entry's references can be read; the references then come from the detected entries only and are exactly the entries' references laid end to end in data order, each entry's implications in list order before its exclusions in list order (`FlatMap` of `RefsOf`) |
| ImplicationResolver.Resolve | lib/wappalyzer/analysis/implication_resolver.rb:18-32 | without any technology that refers, the data is returned unchanged; otherwise it succeeds exactly when the references can be read, keeping every detected name in place ahead of the new ones |
| ImplicationResolver.ApplyAllData | lib/wappalyzer/analysis/implication_resolver.rb:36-59 | walking the references appends to each detected entry exactly the synthetic records aimed at it, in order, and changes nothing else |
| ImplicationResolver.ApplyAllImplies | lib/wappalyzer/analysis/implication_resolver.rb:47-59 | for each undetected name, the walk records the entry its last implication creates, and nothing for a detected name |
| ImplicationResolver.ResolveGrowsDetected | lib/wappalyzer/analysis/implication_resolver.rb:18-32 | a detected technology keeps everything it had; only the records aimed at it are appended |
| ImplicationResolver.ResolveAddsImplied | lib/wappalyzer/analysis/implication_resolver.rb:18-32 | an undetected technology appears exactly when something detected implies it, with the entry its last implication creates; exclusions never create entries |
| ImplicationResolver.LastImplicationWins | lib/wappalyzer/analysis/implication_resolver.rb:55-58 | when several detected technologies imply the same undetected one, the last of them decides its entry |
| ImplicationResolver.UnimpliedAbsent | lib/wappalyzer/analysis/implication_resolver.rb:47-59 | a name nothing implies gets no entry |
| PostFormatter.Flatten | lib/wappalyzer/analysis/post_formatter.rb:26-28 | a flattened record keeps the confidence and the resolved version, which replaces the template |
| PostFormatter.FlattenMergesPattern | lib/wappalyzer/analysis/post_formatter.rb:27 | the pattern's attributes are merged over the record: a signature's `field` attribute becomes the record's field and its `key` attribute the record's key; without them the record keeps its own; synthetic records pass unchanged |
| PostFormatter.OriginOfName | lib/wappalyzer/analysis/post_formatter.rb:27 | reading a field name back gives the field, `implied` or `excluded` it was written from |
| PostFormatter.RelabelledAsImplied | lib/wappalyzer/analysis/post_formatter.rb:27 | a match whose signature says `field:implied` is flattened into an implied record |
| PostFormatter.RelabelledImplicationRaises | lib/wappalyzer/analysis/post_formatter.rb:37-43 | a match relabelled as implied without a `key` attribute is read as an implication of a missing technology, and the adjustment pass raises |
| PostFormatter.BoostedIgnoresSynthetic | lib/wappalyzer/analysis/post_formatter.rb:57-75 | synthetic records never change the boosted confidence |
| PostFormatter.ZeroMatchAddsBoost | lib/wappalyzer/analysis/post_formatter.rb:70-75 | once some match is positive, each further zero-confidence match adds exactly 25 |
| PostFormatter.FirstPositiveReleasesBoost | lib/wappalyzer/analysis/post_formatter.rb:70-75 | without a positive match, zero-confidence matches earn nothing; the first positive match releases 25 for each of them at once |
| PostFormatter.BoostedByClass | lib/wappalyzer/analysis/post_formatter.rb:57-75 | the boost depends only on which records are synthetic and on their confidences |
| PostFormatter.BoostedIsFormatterSum | lib/wappalyzer/analysis/post_formatter.rb:70-75 | on detection records without zero confidences, none relabelled as synthetic by its signature, the boosted confidence is the formatter's plain sum |
| PostFormatter.FlatVersionsKept | lib/wappalyzer/analysis/post_formatter.rb:31-33 | flattening keeps the versions the formatter collected |
| PostFormatter.UniqueMax | lib/wappalyzer/analysis/post_formatter.rb:94-101 | grouping picks a version exactly when one group's tally is strictly above all others, and then it picks that group |
| PostFormatter.DominatorIsPick | lib/wappalyzer/analysis/post_formatter.rb:94-101 | the group that strictly dominates is the one picked |
| PostFormatter.Candidates | lib/wappalyzer/analysis/post_formatter.rb:85 | the candidates are exactly the records with a version, and of the given field if there is one |
| PostFormatter.ViaFieldPicksCandidate | lib/wappalyzer/analysis/post_formatter.rb:84-92 | whatever the grouping picks is a version some record has |
| PostFormatter.BestVersionIsAVersion | lib/wappalyzer/analysis/post_formatter.rb:45-53 | there is a best version exactly when some record has a version, and it is one of theirs |
| PostFormatter.HeaviestVersionWins | lib/wappalyzer/analysis/post_formatter.rb:45-53 | a version whose records' confidences add up to more than any other version's is the best version |
| PostFormatter.FirstOf | lib/wappalyzer/analysis/post_formatter.rb:78 | a record of the kind asked for, present exactly when one exists |
| PostFormatter.FirstOfIsFirst | lib/wappalyzer/analysis/post_formatter.rb:78 | the record found is the first of its kind: no earlier record has that origin |
| PostFormatter.Multiplier | lib/wappalyzer/analysis/post_formatter.rb:77-82 | the implied share is 0 without an implied record; it raises exactly when the first implied record's referrer is missing; otherwise it is the referrer's share |
| PostFormatter.CheckedMultiplier | lib/wappalyzer/analysis/post_formatter.rb:77-82 | the excluded share is 0 without an excluded record or with a missing referrer, and the referrer's share otherwise |
| PostFormatter.Settled | lib/wappalyzer/analysis/post_formatter.rb:39-40 | the settled confidence is the old one plus the implied share, and nothing more without an excluded record or when its referrer is missing; otherwise the first excluded record's share is taken off (added in the legacy pass), read from any other referrer as it stands and, when the entry excludes itself (keys being unique, as in any Hash), from its own already raised confidence |
| PostFormatter.AdjustAt | lib/wappalyzer/analysis/post_formatter.rb:37-43 | adjusting one entry raises exactly when its implied referrer is missing; it changes only that entry's confidence, which becomes the old one plus the implied share and then plus or minus the excluded share, the excluded share read after the implied one has been added |
| PostFormatter.AdjustFailsOnDangling | lib/wappalyzer/analysis/post_formatter.rb:37-43 | the adjustment pass raises exactly when some entry's first implied record names a technology that is not in the data |
| PostFormatter.AdjustKeepsUnreferenced | lib/wappalyzer/analysis/post_formatter.rb:37-43 | an entry with no synthetic records keeps its confidence |
| PostFormatter.AdjustReadsLive | lib/wappalyzer/analysis/post_formatter.rb:37-43 | after the pass, an entry's confidence is its original one plus the implied share and then plus (or, for the class pass, minus) the excluded share; both shares are read from the data as it stands at that point, and the excluded share sees the entry's own confidence already raised by the implied share |
| PostFormatter.LiveShareOf | lib/wappalyzer/analysis/post_formatter.rb:37-43 | the share read there is that of the referrer as it stands: already adjusted when it comes earlier, being adjusted when it is the entry itself, and still original when it comes later |
| PostFormatter.AdjustSeenBefore | lib/wappalyzer/analysis/post_formatter.rb:37-43 | before entry `i` is adjusted, the entries ahead of it hold their final values and the rest their original ones |
| PostFormatter.RankScalesSortKey | lib/wappalyzer/analysis/post_formatter.rb:17-19 | the integer rank orders entries exactly as `confidence / (implied ? 1.5 : 1)` does |
| PostFormatter.Rankings | lib/wappalyzer/analysis/post_formatter.rb:17-19 | the ranking is a permutation of the entries, in non-increasing order of the sort key |
| PostFormatter.Transform | lib/wappalyzer/analysis/post_formatter.rb:24-35 | a transformed entry keeps its name, technology and implied flag; every record is flattened in place; the versions are the formatter's; there is a best version exactly when some record resolved one, and it is one of theirs; without synthetic or zero-confidence matches the confidence is the formatter's plain sum |
| PostFormatter.PostProcess | lib/wappalyzer/analysis/post_formatter.rb:13-20 | every entry is reported once, ranked; it raises exactly when some entry's first implied record names a technology that is not in the data |
| LegacyAnalysis.LegacyFlatten | lib/wappalyzer/analysis.rb:252 | the legacy flattening merges the pattern over the record as the class one does, and gives a record without a resolved version the blank version |
| LegacyAnalysis.RelabelScoredOnlyInLegacy | lib/wappalyzer/analysis.rb:245-249 | a positive match that its signature relabels as implied is scored by the legacy boost, which reads the field before the merge, and scores nothing in the class boost |
| LegacyAnalysis.FlattenAgreesOnVersioned | lib/wappalyzer/analysis.rb:252 | where every record resolved a version, the two flattenings agree |
| LegacyAnalysis.BoostsAgreeOnMatches | lib/wappalyzer/analysis.rb:245-249 | on matches alone, none negative, the legacy boost equals the class boost |
| LegacyAnalysis.ImplicationReleasesLegacyBoost | lib/wappalyzer/analysis.rb:246-248 | a positive implication releases the legacy boost of a zero-confidence match, where the class boost gives nothing |
| LegacyAnalysis.Specific | lib/wappalyzer/analysis.rb:282 | the field-specific records are exactly those of that field with a non-blank version |
| LegacyAnalysis.FirstNonBlank | lib/wappalyzer/analysis.rb:288-289 | the fallback is the first non-blank version, present exactly when one exists |
| LegacyAnalysis.LegacyBestIsAVersion | lib/wappalyzer/analysis.rb:266-290 | the legacy best version exists exactly when there are records, and it is one of their versions, possibly the blank one |
| LegacyAnalysis.LegacyHeaviestWins | lib/wappalyzer/analysis.rb:266-273 | a version whose records outweigh every other version's is the legacy best version, blank or not |
| LegacyAnalysis.BlankVersionWinsOnlyInLegacy | lib/wappalyzer/analysis.rb:266-273 | when a record without a resolved version outweighs a versioned one, the class chain picks the version and the legacy chain picks the blank version |
| LegacyAnalysis.BestVersionsAgreeWhenDecided | lib/wappalyzer/analysis.rb:266-273 | when every record resolved a version and the class chain's first step decides, the legacy chain decides the same way |
| LegacyAnalysis.TransformsAgree | lib/wappalyzer/analysis.rb:244-254 | on an entry of detection records that all resolved a version, none with negative confidence and none relabelled as synthetic by its signature, whose best version is decided by confidence, the legacy and class transforms report the entry identically |
| LegacyAnalysis.LegacyPost | lib/wappalyzer/analysis.rb:243-264 | every entry is reported once, ranked; it raises exactly when some entry's first implied record names a technology that is not in the data |
| LegacyAnalysis.AdjustSignAgrees | lib/wappalyzer/analysis.rb:256-261 | storing exclusions negated and adding them, as the legacy pass does, adjusts every entry exactly as storing them as they are and subtracting them |
| LegacyAnalysis.AdjustAtNegated | lib/wappalyzer/analysis.rb:258-260 | one legacy adjustment step on negated data is the class step with its outcome negated |
| LegacyAnalysis.AimedNegated | lib/wappalyzer/analysis.rb:209-238 | what the legacy resolver appends to a detected technology is what the class resolver appends, in the same order, with every exclusion negated |
| LegacyAnalysis.ResolveSignOnly | lib/wappalyzer/analysis.rb:205-241 | on a detected technology whose records all come from detection, the legacy resolution gives the class result with every exclusion record negated |
| LegacyAnalysis.LegacyRun | lib/wappalyzer/analysis.rb:24-32 | the run raises in detection exactly when the class detection raises, and with the same error; a report it returns is ranked and names every technology the class detection finds |
| LegacyAnalysis.LegacyStages | lib/wappalyzer/analysis.rb:28-31 | after detection the run only raises in resolution or scoring; its report is ranked and covers every detected technology |
| LegacyAnalysis.LegacyDetect | lib/wappalyzer/analysis.rb:81-96 | the accumulating detection raises exactly when, and with the same error as, the class detection, and otherwise names the same technologies in the same order |
| LegacyAnalysis.LegacyDetectsSameNames | lib/wappalyzer/analysis.rb:81-96 | both detections name the same technologies in the same order |
| WebpageScraper.GroupArr | lib/wappalyzer/analysis/webpage_scraper.rb:127-131 | the names are the down-cased first elements, without repeats, in first-seen order |
| WebpageScraper.GroupArrCollects | lib/wappalyzer/analysis.rb:292-296 | when no two spellings of a name differ only in case, a name holds the last elements of exactly its rows, in order |
| WebpageScraper.GroupArrCaseCollision | lib/wappalyzer/analysis/webpage_scraper.rb:127-131 | two rows whose first elements differ only in case form two groups under one name, and only the later row's value survives |
| WebpageScraper.ExtractHeaders | lib/wappalyzer/analysis/webpage_scraper.rb:58-62 | no response gives no headers; otherwise the names are the down-cased header names without repeats, all in lower case |
| WebpageScraper.HeaderValueRestored | lib/wappalyzer/analysis/webpage_scraper.rb:61 | round trip: joining a header's stored lines with newlines gives its value back, unless the value ends with a newline |
| WebpageScraper.ExtractCookies | lib/wappalyzer/analysis/webpage_scraper.rb:70-73 | no `set-cookie` header gives no cookies; names are unique, and there are no more cookies than cookie lines |
| WebpageScraper.CookieSplit | lib/wappalyzer/analysis/webpage_scraper.rb:71 | a line `name=value` whose name holds no `=` splits into exactly its name and its value, which may hold further `=` signs |
| WebpageScraper.SingleCookie | lib/wappalyzer/analysis/webpage_scraper.rb:70-73 | a single `set-cookie` line `name=value` gives one cookie under the down-cased name, holding the value |
| WebpageScraper.SanitizeValue | lib/wappalyzer/analysis/webpage_scraper.rb:148-150 | strings and numbers are kept as they are; anything else becomes whether it is non-nil |
| WebpageScraper.AddJsVariable | lib/wappalyzer/analysis/webpage_scraper.rb:133-140 | a falsy or failed evaluation leaves the globals unchanged; a truthy one is stored sanitised under its technology and key; the technology's other keys keep their values and other technologies are untouched |
| WebpageScraper.StoredValuesAreTrue | lib/wappalyzer/analysis/webpage_scraper.rb:133-150 | a stored value that is neither string nor number is stored as `true` |
| WebpageScraper.FormatJs | lib/wappalyzer/analysis/webpage_scraper.rb:152-157 | every technology keeps its name and its keys |
| WebpageScraper.FormatJsRoundTrip | lib/wappalyzer/analysis/webpage_scraper.rb:152-157 | round trip: unwrapping every one-element list gives the globals back |
| WebpageScraper.FormatJsRead | lib/wappalyzer/analysis/webpage_scraper.rb:152-157 | detection reads a technology's globals from the formatted data exactly as stored, each wrapped in a one-element list |
| WebpageScraper.ChangeUrlScheme | lib/wappalyzer/analysis/webpage_scraper.rb:159-161 | `http` becomes `https`, and every other scheme becomes `http` |
| WebpageScraper.ChangeUrlSchemeToggles | lib/wappalyzer/analysis/webpage_scraper.rb:159-161 | changing the scheme twice returns to it exactly for `http` and `https` |

## Left out

- Network, file and browser I/O is not modelled: `HTTParty`, `File`, `JSON.parse`, Ferrum, `fetch_page`, `fetch_browser`, `fetch_page_data`, `save_json` and `read_techs`. Their results are the inputs of the model: the rule documents, a `load` function for the local document, the response headers, and the evaluated script globals.
- Extracting the page's HTML, CSS, script sources and meta tags with Nokogiri is not modelled, and neither is `safe_extract`. The legacy `fetch_page_data` groups meta tags by attribute objects rather than by their names. That grouping is left out with the rest of the extraction.
- Evaluating a script global in the browser is not modelled. `AddJsVariable` is given the outcome, with `None` for an evaluation that raised.
- The rewriting of bracketed global names (`a[b]` to `a.b`) in `extract_js_variables` and `js_data` is not modelled. This is a regex `gsub` with a back-reference.
- `extract_js_variables`'s loop over the technologies is modelled one call at a time: `AddJsVariable` models each step, not the whole loop.
- `group_arr`'s `downcase: false` option is not modelled, because no caller uses it.
- `slug` (`parameterize`) and the optional user block of `Builder#parse` are not modelled. The block is caller-supplied code that rewrites an item.
- The `regex:` keyword branch of `parse_pattern` (rule_parser.rb:51-53) is not modelled. No caller passes it, so the string branch is the one modelled.
- `RubyString.Expand`: a replacement holding `\k<name>` is kept as written. Ruby raises there (`undefined group name reference`), because the patterns of `sub` and `gsub` in the core have no named groups. The other escapes of a replacement string are modelled.
- `downcase` and `strip` are modelled on ASCII only.
- `to_i` is modelled on decimal numerals with optional sign, leading blanks and underscores. Radix prefixes such as `0d` are not modelled.
- Floating point is not modelled. `(a * b / 100.0).to_i` is computed exactly as truncation toward zero. That result differs from Ruby's only when the product is so large that a double loses precision.
- `Processor.Detect`: numbers taken from script globals never match a regex. This is what `Object#=~` does in the Ruby versions the gem targets; the model does not follow a Ruby version in which `Integer#=~` raises.
- `Processor.Process` has no contract of its own. It is `Detect` with the processor's version loop, and the properties above are stated about `Detect`.
- `PostFormatter.Rankings`: Ruby's `sort_by` is not stable, so the order among equal keys is not part of the contract. The model sorts by insertion.
- `LegacyAnalysis.TransformsAgree`: stated only for entries of detection records whose versions all resolved, with no negative confidence, none relabelled as synthetic by a `field` attribute, and a best version decided by confidence. The legacy boost reads each record's field before the pattern is merged, so a relabelled match scores there and not in the class boost (`RelabelScoredOnlyInLegacy`). Outside these conditions the legacy and class transforms differ, as `BlankVersionWinsOnlyInLegacy` and `ImplicationReleasesLegacyBoost` show.
- `LegacyAnalysis.FlattenNegated`: stated for every record except a match whose signature relabels it as `excluded`. The legacy resolver negates only the exclusions it creates (analysis.rb:230-234), so such a match keeps its sign there and flattening does not commute with the negation.
- `LegacyAnalysis.ResolveSignOnly`: stated for detected technologies whose records all come from detection, which is what grouping produces. Entries that an implication creates do not depend on the sign at all: `ImplicationResolver.ResolveAddsImplied` states them for either sign.
- `WebpageScraper.ExtractCookies`: bounds the number of cookies rather than stating every cookie. Every cookie is stated by `GroupArrCollects` for names without case collisions, and `GroupArrCaseCollision` states what happens when two names collide.
- The legacy `Analysis::MAPPING` constant is not modelled, because `run_detections` lists its fields explicitly.
- `js_data` (analysis.rb:146-168) is not modelled separately: it evaluates globals in the browser. It stores only truthy outcomes, and `!!value` agrees with `sanitize_value` on those. Its result therefore has the shape `AddJsVariable` followed by `FormatJs` gives.

## Behaviour worth noting

- For a keyed field, patterns are the outer loop and values the inner loop, as `many_to_many` is written.
- A category id missing from the table is kept as nil, not dropped.
- The sentinel `true` for a script global combined with a version template raises, because `Regexp#match(true)` raises.
- The branch a version ternary picks, and the capture substituted for `\i`, are replacement strings, so their backslash escapes are expanded. In `\1?\1:x` with group 1 set, the branch `\1` names a group that the ternary's own match does not have, and the version comes out empty rather than the capture.
- In a version ternary, the else part stops at the first newline: `.` does not match a newline, and `$` matches at the end of a line.
- The class chain's best version groups blank versions too. Only records without a resolved version are skipped.
- Flattening merges a pattern's attributes over its record, so a signature that writes `field:` or `key:` overrides the record's field or key. A match relabelled as `implied` counts as an implication of the technology its `key` attribute names. Without a `key` attribute the adjustment pass raises (`RelabelledImplicationRaises`).
- The legacy pass reads a record's field before merging its pattern when it boosts, and after merging when it adjusts and picks a version. A match relabelled as synthetic therefore scores in the legacy boost but not in the class boost.
- The legacy resolver negates only the exclusions it creates itself. A match relabelled as `excluded` is added by the legacy adjustment and subtracted by the class one. The sign-only correspondence between the two pipelines therefore holds for data without such matches.

=== FILE: builder.dfy ===
/** The definition compiler's driver: the category table, the metadata `parse_each` attaches
    to each technology, and the merging of successive rule documents into one technology map. */
module Builder {
  import opened Wrappers
  import opened OrderedHash
  import opened RubyString
  import opened RuleParser

  /** A category as the rule document lists it. */
  datatype Category = Category(name: string, priority: int)

  /** One technology as a rule document gives it: its matcher fields, not yet compiled, and
      the metadata `parse_each` copies. A missing JSON key reads as `None` (nil); a missing
      `cats` list reads as empty, as `values_at` with no arguments does. */
  datatype RawTech = RawTech(
    patterns: map<Field, RawPatterns>,
    cpe: Option<string>, website: Option<string>, description: Option<string>, icon: Option<string>,
    cats: seq<int>)

  /** A rule document: its category table (string ids) and its technologies, in order. */
  datatype Document = Document(categories: seq<(string, Category)>, technologies: seq<(string, RawTech)>)

  /** A compiled technology: the twelve matcher fields and its metadata. An unknown category
      id keeps its place as `None`. */
  datatype Tech = Tech(
    fields: Fields, name: string, cpe: Option<string>, website: Option<string>,
    description: Option<string>, icon: string, categories: seq<Option<Category>>)

  /** What compiles a technology's matcher fields: `RuleParser.call`, i.e. `Compile`. */
  type Compiler = map<Field, RawPatterns> -> Result<Fields, ParseError>

  const DefaultIcon: string := "default.svg"

  /** The keys of a list rekeyed through `f` are the images of the original keys. */
  lemma {:induction false} KeysOfRekeyed<A, K, V>(raw: seq<(A, V)>, f: A -> K, ps: seq<(K, V)>)
    requires |ps| == |raw| && forall i :: 0 <= i < |raw| ==> ps[i] == (f(raw[i].0), raw[i].1)
    ensures forall k :: k in Keys(ps) <==> exists i :: 0 <= i < |raw| && f(raw[i].0) == k
  {
    forall k ensures k in Keys(ps) <==> exists i :: 0 <= i < |raw| && f(raw[i].0) == k {
      if k in Keys(ps) {
        var i :| 0 <= i < |ps| && Keys(ps)[i] == k;
        assert f(raw[i].0) == k;
      }
      if exists i :: 0 <= i < |raw| && f(raw[i].0) == k {
        var i :| 0 <= i < |raw| && f(raw[i].0) == k;
        assert Keys(ps)[i] == k;
      }
    }
  }

  function IdPairs(raw: seq<(string, Category)>): (ps: seq<(int, Category)>)
    ensures |ps| == |raw|
    ensures forall i :: 0 <= i < |raw| ==> ps[i] == (ToI(raw[i].0), raw[i].1)
  {
    seq(|raw|, i requires 0 <= i < |raw| => (ToI(raw[i].0), raw[i].1))
  }

  /** The category table, keyed by the integer value of each id (`k.to_i`). Every id's
      category is found under that integer unless a later id has the same value. */
  function CategoryTable(raw: seq<(string, Category)>): (t: Assoc<int, Category>)
    ensures UniqueKeys(t)
    ensures forall id :: Get(t, id).Some? <==> exists i :: 0 <= i < |raw| && ToI(raw[i].0) == id
  {
    var ps := IdPairs(raw);
    KeysOfRekeyed(raw, ToI, ps);
    FromPairs(ps)
  }

  /** Of the ids with the same integer value, the last one's category is the one stored. */
  lemma {:induction false} CategoryTableLastWins(raw: seq<(string, Category)>, i: nat)
    requires i < |raw| && forall j :: i < j < |raw| ==> ToI(raw[j].0) != ToI(raw[i].0)
    ensures Get(CategoryTable(raw), ToI(raw[i].0)) == Some(raw[i].1)
  {
    var ps := IdPairs(raw);
    LastValueAt(ps, i);
  }

  /** `@categories.values_at(*cats)`: one lookup per id, in order. */
  function Lookup(table: Assoc<int, Category>, ids: seq<int>): (cs: seq<Option<Category>>)
    ensures |cs| == |ids|
    ensures forall i :: 0 <= i < |ids| ==> cs[i] == Get(table, ids[i])
  {
    seq(|ids|, i requires 0 <= i < |ids| => Get(table, ids[i]))
  }

  /** `parse_each`, with `compile` standing for the rule parser: the compiled fields with the
      technology's name, its metadata copied verbatim, the icon defaulting to `default.svg`,
      and its categories looked up. */
  function ParseEach(name: string, raw: RawTech, table: Assoc<int, Category>, compile: Compiler): (r: Result<Tech, ParseError>)
    ensures r.Success? <==> compile(raw.patterns).Success?
    ensures r.Failure? ==> r.error == compile(raw.patterns).error
    ensures r.Success? ==> r.value.fields == compile(raw.patterns).value && r.value.name == name
    ensures r.Success? ==> r.value.cpe == raw.cpe && r.value.website == raw.website && r.value.description == raw.description
    ensures r.Success? ==> r.value.icon == (if raw.icon.Some? then raw.icon.value else DefaultIcon)
    ensures r.Success? ==> |r.value.categories| == |raw.cats|
    ensures r.Success? ==> forall i :: 0 <= i < |raw.cats| ==> r.value.categories[i] == Get(table, raw.cats[i])
  {
    var flds :- compile(raw.patterns);
    Success(Tech(flds, name, raw.cpe, raw.website, raw.description, raw.icon.GetOr(DefaultIcon), Lookup(table, raw.cats)))
  }

  /** An id missing from the table is kept, as `None`, at its own position. */
  lemma {:induction false} UnknownCategoryKept(name: string, raw: RawTech, table: Assoc<int, Category>, compile: Compiler, i: nat)
    requires ParseEach(name, raw, table, compile).Success? && i < |raw.cats| && raw.cats[i] !in Keys(table)
    ensures |ParseEach(name, raw, table, compile).value.categories| == |raw.cats|
    ensures ParseEach(name, raw, table, compile).value.categories[i] == None
  {
  }

  function ParseNamed(e: (string, RawTech), table: Assoc<int, Category>, compile: Compiler): (r: Result<(string, Tech), ParseError>)
    ensures r.Success? <==> ParseEach(e.0, e.1, table, compile).Success?
    ensures r.Success? ==> r.value == (e.0, ParseEach(e.0, e.1, table, compile).value)
  {
    var t :- ParseEach(e.0, e.1, table, compile);
    Success((e.0, t))
  }

  /** `parse`: every technology of the document compiled, then merged into `acc`. Names
      already in `acc` keep their position; a name the document does not mention keeps its
      definition; new names follow, in document order. The first technology that does not
      compile aborts the document. */
  function Parse(acc: Assoc<string, Tech>, doc: seq<(string, RawTech)>, table: Assoc<int, Category>, compile: Compiler)
    : (r: Result<Assoc<string, Tech>, ParseError>)
    ensures r.Success? <==> forall i :: 0 <= i < |doc| ==> ParseEach(doc[i].0, doc[i].1, table, compile).Success?
    ensures r.Success? && UniqueKeys(acc) ==> UniqueKeys(r.value)
    ensures r.Success? ==> |r.value| >= |acc| && Keys(r.value)[..|acc|] == Keys(acc)
    ensures r.Success? ==> forall k :: k in Keys(r.value) <==> k in Keys(acc) || k in Keys(doc)
    ensures r.Success? ==> forall k :: k !in Keys(doc) ==> Get(r.value, k) == Get(acc, k)
  {
    var data :- MapAll(doc, e => ParseNamed(e, table, compile));
    assert Keys(data) == Keys(doc);
    Success(Merge(acc, FromPairs(data)))
  }

  /** A name the document defines reads as the compiled form of its last definition there. */
  lemma {:induction false} ParseOverrides(acc: Assoc<string, Tech>, doc: seq<(string, RawTech)>,
                                          table: Assoc<int, Category>, compile: Compiler, i: nat)
    requires Parse(acc, doc, table, compile).Success? && i < |doc|
    requires forall j :: i < j < |doc| ==> doc[j].0 != doc[i].0
    ensures ParseEach(doc[i].0, doc[i].1, table, compile).Success?
    ensures Get(Parse(acc, doc, table, compile).value, doc[i].0) == Some(ParseEach(doc[i].0, doc[i].1, table, compile).value)
  {
    var data := MapAll(doc, e => ParseNamed(e, table, compile)).value;
    assert Keys(data) == Keys(doc);
    var n := FromPairs(data);
    assert data[i] == (doc[i].0, ParseEach(doc[i].0, doc[i].1, table, compile).value);
    LastValueAt(data, i);
    assert doc[i].0 in Keys(n) by {
      assert Keys(data)[i] == doc[i].0;
    }
    MergeOverrides(acc, n, doc[i].0);
  }

  /** `run`, with `compile` standing for the rule parser: the remote document first, with its
      category table, then the local one (a path or JSON text, given to `load`) unless it is
      missing or blank. The local document's own categories are never read, and its
      definitions replace remote ones of the same name. */
  function Run(remote: Document, ours: Option<string>, load: string -> Document, compile: Compiler): (r: Result<Assoc<string, Tech>, ParseError>)
    ensures (ours.None? || Strip(ours.value) == "") ==> r == Parse([], remote.technologies, CategoryTable(remote.categories), compile)
    ensures r.Success? ==> UniqueKeys(r.value)
  {
    var table := CategoryTable(remote.categories);
    var techs :- Parse([], remote.technologies, table, compile);
    if ours.None? || Strip(ours.value) == "" then Success(techs)
    else Parse(techs, load(ours.value).technologies, table, compile)
  }

  /** Local definitions win: after a successful run, a name the local document defines reads
      as its local definition, compiled against the remote category table. */
  lemma {:induction false} RunLocalWins(remote: Document, ours: string, load: string -> Document, compile: Compiler, i: nat)
    requires Strip(ours) != "" && Run(remote, Some(ours), load, compile).Success?
    requires var doc := load(ours).technologies;
      i < |doc| && forall j :: i < j < |doc| ==> doc[j].0 != doc[i].0
    ensures var doc := load(ours).technologies;
      var table := CategoryTable(remote.categories);
      ParseEach(doc[i].0, doc[i].1, table, compile).Success? &&
      Get(Run(remote, Some(ours), load, compile).value, doc[i].0) == Some(ParseEach(doc[i].0, doc[i].1, table, compile).value)
  {
    var table := CategoryTable(remote.categories);
    var techs := Parse([], remote.technologies, table, compile).value;
    assert Run(remote, Some(ours), load, compile) == Parse(techs, load(ours).technologies, table, compile);
    ParseOverrides(techs, load(ours).technologies, table, compile, i);
  }

  /** Remote definitions the local document does not mention survive a run unchanged. */
  lemma {:induction false} RunKeepsRemote(remote: Document, ours: string, load: string -> Document, compile: Compiler, k: string)
    requires Strip(ours) != "" && Run(remote, Some(ours), load, compile).Success?
    requires k !in Keys(load(ours).technologies)
    ensures var table := CategoryTable(remote.categories);
      Parse([], remote.technologies, table, compile).Success? &&
      Get(Run(remote, Some(ours), load, compile).value, k) == Get(Parse([], remote.technologies, table, compile).value, k)
  {
  }

  /** `Builder.update!` without the file and network I/O: a run with the rule parser. */
  function Update(remote: Document, ours: Option<string>, load: string -> Document): Result<Assoc<string, Tech>, ParseError> {
    Run(remote, ours, load, Compile)
  }
}

=== FILE: formatter.dfy ===
/** `Analysis::Formatter`: the evidence of the detection pass gathered into one entry per
    technology name, and the record shapes the later stages work on. */
module Formatter {
  import opened Wrappers
  import opened OrderedHash
  import opened RubyArray
  import opened RuleParser
  import opened Builder
  import opened Processor

  /** Which kind of cross-reference a synthetic record stands for. */
  datatype Reference = Implied | Excluded

  /** One raw record of an entry: a piece of evidence without its technology, or a synthetic
      record an implication or exclusion added, naming the technology that refers and the
      confidence the reference carries (its `pattern` holds only that confidence and a blank
      version template, and it has no resolved version). */
  datatype Raw =
    | Found(key: Option<string>, field: Field, pattern: Pattern, version: Option<string>)
    | Referred(referrer: string, kind: Reference, confidence: int)

  /** A technology's entry. `tech` is nil for an implied name the technology map does not
      know; `implied` is set only on entries an implication created. */
  datatype Entry = Entry(name: string, confidence: int, versions: seq<string>, tech: Option<Tech>, raw: seq<Raw>, implied: bool)

  /** `r['pattern']['confidence']`. */
  function Confidence(r: Raw): int {
    match r
    case Found(_, _, p, _) => p.confidence
    case Referred(_, _, c) => c
  }

  /** `r['version']`: synthetic records have none. */
  function RawVersion(r: Raw): Option<string> {
    if r.Found? then r.version else None
  }

  /** `a.except('tech')`. */
  function RawOf(ev: Evidence): Raw {
    Found(ev.key, ev.field, ev.pattern, ev.version)
  }

  function NameOf(ev: Evidence): string {
    ev.tech.name
  }

  /** `sum_of_confidence`: the plain sum of the records' confidences. */
  function SumOfConfidence(raw: seq<Raw>): int {
    if |raw| == 0 then 0 else SumOfConfidence(raw[..|raw| - 1]) + Confidence(raw[|raw| - 1])
  }

  lemma {:induction false} SumOfConfidenceAppend(a: seq<Raw>, b: seq<Raw>)
    ensures SumOfConfidence(a + b) == SumOfConfidence(a) + SumOfConfidence(b)
    decreases |b|
  {
    if |b| == 0 {
      assert a + b == a;
    } else {
      var b0 := b[..|b| - 1];
      assert (a + b)[..|a + b| - 1] == a + b0;
      assert (a + b)[|a + b| - 1] == b[|b| - 1];
      SumOfConfidenceAppend(a, b0);
    }
  }

  /** A blank or missing version does not count. */
  predicate Counted(v: Option<string>) {
    v.Some? && v.value != ""
  }

  /** `collect_versions`: the resolved versions in record order, duplicates kept, nil and
      `''` left out. */
  function CollectVersions(raw: seq<Raw>): (vs: seq<string>)
    ensures |vs| <= |raw|
    ensures forall v :: v in vs <==> exists i :: 0 <= i < |raw| && Counted(RawVersion(raw[i])) && RawVersion(raw[i]).value == v
  {
    if |raw| == 0 then []
    else
      var init := raw[..|raw| - 1];
      var last := raw[|raw| - 1];
      assert forall i :: 0 <= i < |init| ==> init[i] == raw[i];
      CollectVersions(init) + (if Counted(RawVersion(last)) then [RawVersion(last).value] else [])
  }

  /** How many records resolved the non-blank version `v`. */
  function VersionCount(raw: seq<Raw>, v: string): nat {
    if |raw| == 0 then 0
    else (if Counted(RawVersion(raw[0])) && RawVersion(raw[0]).value == v then 1 else 0) + VersionCount(raw[1..], v)
  }

  /** Collecting keeps record order: the versions of a concatenation are those of its
      halves, one after the other. */
  lemma {:induction false} CollectVersionsAppend(a: seq<Raw>, b: seq<Raw>)
    ensures CollectVersions(a + b) == CollectVersions(a) + CollectVersions(b)
    decreases |b|
  {
    if |b| == 0 {
      assert a + b == a;
    } else {
      var b0 := b[..|b| - 1];
      assert (a + b)[..|a + b| - 1] == a + b0;
      assert (a + b)[|a + b| - 1] == b[|b| - 1];
      CollectVersionsAppend(a, b0);
    }
  }

  /** Duplicates are kept: each version is collected once per record that resolved it. */
  lemma {:induction false} CollectVersionsCounts(raw: seq<Raw>)
    ensures forall v :: multiset(CollectVersions(raw))[v] == VersionCount(raw, v)
  {
    if |raw| > 0 {
      assert raw == [raw[0]] + raw[1..];
      CollectVersionsAppend([raw[0]], raw[1..]);
      assert CollectVersions([raw[0]]) == CollectVersions([]) + (if Counted(RawVersion(raw[0])) then [RawVersion(raw[0]).value] else []);
      CollectVersionsCounts(raw[1..]);
    }
  }

  /** The entry of one non-empty group: name and technology from its first evidence. */
  function Summarise(group: seq<Evidence>): (en: Entry)
    requires |group| > 0
  {
    var raw := MapSeq(group, RawOf);
    Entry(group[0].tech.name, SumOfConfidence(raw), CollectVersions(raw), Some(group[0].tech), raw, false)
  }

  /** A name that occurs among the evidence has a non-empty group. */
  lemma {:induction false} SelectPresent<X>(xs: seq<X>, key: X -> string, k: string)
    requires k in MapKeys(xs, key)
    ensures |Select(xs, key, k)| > 0
  {
    var n := |xs| - 1;
    assert MapKeys(xs, key) == MapKeys(xs[..n], key) + [key(xs[n])];
    if key(xs[n]) != k {
      SelectPresent(xs[..n], key, k);
    }
  }

  /** Every group `group_by` forms is non-empty. */
  lemma {:induction false} GroupsNonEmpty(evs: seq<Evidence>)
    ensures forall i :: 0 <= i < |GroupBy(evs, NameOf)| ==> |GroupBy(evs, NameOf)[i].1| > 0
  {
    var g := GroupBy(evs, NameOf);
    forall i | 0 <= i < |g| ensures |g[i].1| > 0 {
      assert Keys(g)[i] == g[i].0;
      SelectPresent(evs, NameOf, g[i].0);
    }
  }

  /** `transform_values` over the groups. */
  function Summaries(g: Assoc<string, seq<Evidence>>): (d: Assoc<string, Entry>)
    requires forall i :: 0 <= i < |g| ==> |g[i].1| > 0
    ensures |d| == |g| && forall i :: 0 <= i < |g| ==> d[i] == (g[i].0, Summarise(g[i].1))
  {
    seq(|g|, i requires 0 <= i < |g| => (g[i].0, Summarise(g[i].1)))
  }

  /** `Formatter#process`: one entry per technology name, in order of first appearance. */
  function Format(evs: seq<Evidence>): (d: Assoc<string, Entry>)
    ensures UniqueKeys(d)
    ensures Keys(d) == Distinct(MapKeys(evs, NameOf))
    ensures forall i :: 0 <= i < |d| ==> d[i].1.raw == MapSeq(Select(evs, NameOf, d[i].0), RawOf)
  {
    var g := GroupBy(evs, NameOf);
    GroupsNonEmpty(evs);
    assert Keys(Summaries(g)) == Keys(g);
    Summaries(g)
  }

  /** The first piece of evidence with a given name heads that name's group. */
  lemma {:induction false} SelectHead<X>(xs: seq<X>, key: X -> string, j: nat)
    requires j < |xs| && forall i :: 0 <= i < j ==> key(xs[i]) != key(xs[j])
    ensures |Select(xs, key, key(xs[j]))| > 0 && Select(xs, key, key(xs[j]))[0] == xs[j]
    decreases |xs|
  {
    var n := |xs| - 1;
    var k := key(xs[j]);
    if j < n {
      SelectHead(xs[..n], key, j);
    } else {
      SelectAbsent(xs[..n], key, k);
    }
  }

  /** The entry for a name: present exactly for the names of the evidence; named by it; its
      technology that of the first evidence with the name; its records that name's evidence
      in order; its confidence their plain sum; its versions their non-blank versions. */
  lemma {:induction false} FormatEntry(evs: seq<Evidence>, j: nat)
    requires j < |evs| && forall i :: 0 <= i < j ==> NameOf(evs[i]) != NameOf(evs[j])
    ensures var k := NameOf(evs[j]);
      var raw := MapSeq(Select(evs, NameOf, k), RawOf);
      Get(Format(evs), k) == Some(Entry(k, SumOfConfidence(raw), CollectVersions(raw), Some(evs[j].tech), raw, false))
  {
    var k := NameOf(evs[j]);
    var d := Format(evs);
    var g := GroupBy(evs, NameOf);
    GroupsNonEmpty(evs);
    assert k in Keys(d) by {
      assert MapKeys(evs, NameOf)[j] == k;
    }
    var i :| 0 <= i < |d| && Keys(d)[i] == k;
    assert d[i] == (g[i].0, Summarise(g[i].1));
    SelectHead(evs, NameOf, j);
  }

  /** Names without evidence have no entry. */
  lemma {:induction false} FormatAbsent(evs: seq<Evidence>, k: string)
    requires forall i :: 0 <= i < |evs| ==> NameOf(evs[i]) != k
    ensures Get(Format(evs), k) == None
  {
    assert k !in MapKeys(evs, NameOf);
  }

  /** The number of records across all entries. */
  function RawCount(d: Assoc<string, Entry>): nat {
    if |d| == 0 then 0 else RawCount(d[..|d| - 1]) + |d[|d| - 1].1.raw|
  }

  lemma {:induction false} SummariesCount(g: Assoc<string, seq<Evidence>>)
    requires forall i :: 0 <= i < |g| ==> |g[i].1| > 0
    ensures RawCount(Summaries(g)) == TotalSize(g)
    decreases |g|
  {
    if |g| > 0 {
      var g0 := g[..|g| - 1];
      assert Summaries(g)[..|g| - 1] == Summaries(g0);
      SummariesCount(g0);
    }
  }

  /** Every piece of evidence lands in exactly one entry's records: the record counts add up
      to the number of pieces of evidence. */
  lemma {:induction false} FormatKeepsAllEvidence(evs: seq<Evidence>)
    ensures RawCount(Format(evs)) == |evs|
  {
    GroupsNonEmpty(evs);
    SummariesCount(GroupBy(evs, NameOf));
    GroupByPartitions(evs, NameOf);
  }
}

=== FILE: implication_resolver.dfy ===
/** `Analysis::ImplicationResolver`: each detected technology's `implies` and `excludes`
    patterns turned into synthetic records. A reference to a detected technology is appended
    to its records; an implication of an undetected one creates an entry for it. The legacy
    pass does the same with exclusions carrying the negated confidence, so the sign is a
    parameter. */
module ImplicationResolver {
  import opened Wrappers
  import opened OrderedHash
  import opened RubyArray
  import opened RuleParser
  import opened Builder
  import opened Formatter

  /** What makes resolution raise: an entry without a technology (`nil.fetch`), or a keyed
      `implies`/`excludes` field, whose entries are pairs that cannot be read as patterns. */
  datatype ResolveCrash = MissingTech(referrer: string) | KeyedReferences(referrer: string, field: Field)

  /** `any?` on a compiled field. */
  predicate NonEmpty(fp: FieldPatterns) {
    if fp.Listed? then |fp.patterns| > 0 else |fp.entries| > 0
  }

  /** A technology that implies or excludes anything. */
  predicate Refers(t: Tech) {
    NonEmpty(t.fields.At(Implies)) || NonEmpty(t.fields.At(Excludes))
  }

  /** `references` is not empty. */
  predicate AnyRefers(techs: Assoc<string, Tech>) {
    exists i :: 0 <= i < |techs| && Refers(techs[i].1)
  }

  /** One reference, in the order `process` visits them: the technology that refers, how,
      and the pattern naming the target (its `value`) and the confidence. */
  datatype Link = Link(referrer: string, kind: Reference, pattern: Pattern)

  /** `info['tech'].fetch(f, [])`, as `each` walks it. */
  function Targets(referrer: string, tech: Option<Tech>, f: Field): (r: Result<seq<Pattern>, ResolveCrash>)
    ensures r.Failure? <==> tech.None? || (tech.value.fields.At(f).Keyed? && |tech.value.fields.At(f).entries| > 0)
    ensures r.Success? ==> forall p :: p in r.value ==> tech.value.fields.At(f).Listed? && p in tech.value.fields.At(f).patterns
  {
    match tech
    case None => Failure(MissingTech(referrer))
    case Some(t) =>
      match t.fields.At(f)
      case Listed(ps) => Success(ps)
      case Keyed(es) => if |es| == 0 then Success([]) else Failure(KeyedReferences(referrer, f))
  }

  function LinkTo(referrer: string, kind: Reference, ps: seq<Pattern>): (ls: seq<Link>)
    ensures |ls| == |ps| && forall i :: 0 <= i < |ps| ==> ls[i] == Link(referrer, kind, ps[i])
  {
    seq(|ps|, i requires 0 <= i < |ps| => Link(referrer, kind, ps[i]))
  }

  /** The references of one entry: its implications, then its exclusions. */
  function LinksOf(src: (string, Option<Tech>)): (r: Result<seq<Link>, ResolveCrash>)
    ensures r.Success? <==> Targets(src.0, src.1, Implies).Success? && Targets(src.0, src.1, Excludes).Success?
    ensures r.Success? ==> forall l :: l in r.value ==> l.referrer == src.0
    ensures r.Success? ==>
              r.value == LinkTo(src.0, Implied, Targets(src.0, src.1, Implies).value)
                         + LinkTo(src.0, Excluded, Targets(src.0, src.1, Excludes).value)
  {
    var imps :- Targets(src.0, src.1, Implies);
    var exs :- Targets(src.0, src.1, Excludes);
    Success(LinkTo(src.0, Implied, imps) + LinkTo(src.0, Excluded, exs))
  }

  function Source(e: (string, Entry)): (string, Option<Tech>) {
    (e.0, e.1.tech)
  }

  /** The references one entry contributes when they can be read: its implications in
      list order, then its exclusions in list order. */
  function RefsOf(src: (string, Option<Tech>)): seq<Link> {
    match (Targets(src.0, src.1, Implies), Targets(src.0, src.1, Excludes))
    case (Success(imps), Success(exs)) => LinkTo(src.0, Implied, imps) + LinkTo(src.0, Excluded, exs)
    case _ => []
  }

  /** Every reference of every entry, in `@data.each` order. Only the entries present
      before resolution are visited, so a newly implied technology's own references are
      never followed. */
  function Links(data: Assoc<string, Entry>): (r: Result<seq<Link>, ResolveCrash>)
    ensures r.Success? <==> forall i :: 0 <= i < |data| ==> LinksOf(Source(data[i])).Success?
    ensures r.Success? ==> forall l :: l in r.value ==> l.referrer in Keys(data)
    ensures r.Success? ==> r.value == FlatMap(MapSeq(data, Source), RefsOf)
  {
    var srcs := MapSeq(data, Source);
    var r := FlatMapAll(srcs, LinksOf);
    assert r.Success? ==> r.value == FlatMap(srcs, RefsOf) by {
      if r.Success? {
        FlatMapAllExact(srcs, LinksOf, RefsOf);
      }
    }
    assert r.Success? ==> forall l :: l in r.value ==> l.referrer in Keys(data) by {
      if r.Success? {
        forall l | l in r.value ensures l.referrer in Keys(data) {
          var i :| 0 <= i < |srcs| && LinksOf(srcs[i]).Success? && l in LinksOf(srcs[i]).value;
          assert Keys(data)[i] == l.referrer;
        }
      }
    }
    r
  }

  /** The synthetic record a reference appends. With `negate`, an exclusion carries the
      negated confidence, as the legacy pass stores it. */
  function SyntheticOf(l: Link, negate: bool): Raw {
    Referred(l.referrer, l.kind, if negate && l.kind == Excluded then -l.pattern.confidence else l.pattern.confidence)
  }

  /** The entry an implication of an undetected technology creates. */
  function NewEntry(l: Link, techs: Assoc<string, Tech>): Entry {
    Entry(l.pattern.value, l.pattern.confidence, [], Get(techs, l.pattern.value), [SyntheticOf(l, false)], true)
  }

  datatype State = State(data: Assoc<string, Entry>, implies: Assoc<string, Entry>)

  /** `resolve_implication` / `resolve_exclusion`: append to a detected target; otherwise
      record (or re-record) the implied entry, and drop an exclusion. */
  function Apply(s: State, l: Link, techs: Assoc<string, Tech>, negate: bool): State {
    var target := l.pattern.value;
    match Find(s.data, target)
    case Some(i) => State(s.data[i := (target, s.data[i].1.(raw := s.data[i].1.raw + [SyntheticOf(l, negate)]))], s.implies)
    case None => if l.kind == Implied then State(s.data, Put(s.implies, target, NewEntry(l, techs))) else s
  }

  function ApplyAll(s: State, links: seq<Link>, techs: Assoc<string, Tech>, negate: bool): (r: State)
    ensures Keys(r.data) == Keys(s.data)
    ensures UniqueKeys(s.implies) ==> UniqueKeys(r.implies)
    ensures (forall k :: k in Keys(s.implies) ==> k !in Keys(s.data)) ==> forall k :: k in Keys(r.implies) ==> k !in Keys(r.data)
  {
    if |links| == 0 then s
    else
      var s0 := ApplyAll(s, links[..|links| - 1], techs, negate);
      var l := links[|links| - 1];
      match Find(s0.data, l.pattern.value)
      case Some(i) =>
        var r := Apply(s0, l, techs, negate);
        assert Keys(r.data) == Keys(s0.data);
        r
      case None => Apply(s0, l, techs, negate)
  }

  /** `ImplicationResolver#process`, with `negate` choosing the legacy sign of exclusions:
      the data unchanged when no technology refers to another; otherwise the data with its
      references resolved, then the implied entries appended. */
  function Resolve(data: Assoc<string, Entry>, techs: Assoc<string, Tech>, negate: bool): (r: Result<Assoc<string, Entry>, ResolveCrash>)
    ensures !AnyRefers(techs) ==> r == Success(data)
    ensures AnyRefers(techs) ==> (r.Success? <==> Links(data).Success?)
    ensures r.Success? ==> |r.value| >= |data| && Keys(r.value)[..|data|] == Keys(data)
    ensures r.Success? && UniqueKeys(data) ==> UniqueKeys(r.value)
  {
    if !AnyRefers(techs) then Success(data)
    else
      var links :- Links(data);
      var s := ApplyAll(State(data, []), links, techs, negate);
      assert UniqueKeys(data) ==> UniqueKeys(s.data) by {
        assert forall i :: 0 <= i < |data| ==> s.data[i].0 == Keys(s.data)[i] == Keys(data)[i] == data[i].0;
      }
      Success(Merge(s.data, s.implies))
  }

  /** The synthetic records aimed at `k`, in visiting order: the reference definition of
      what resolution appends to a detected technology. */
  function Aimed(links: seq<Link>, k: string, negate: bool): seq<Raw> {
    if |links| == 0 then []
    else
      var l := links[|links| - 1];
      Aimed(links[..|links| - 1], k, negate) + (if l.pattern.value == k then [SyntheticOf(l, negate)] else [])
  }

  /** The entry the last implication of `k` creates, if any: the reference definition of
      what resolution adds for an undetected technology. */
  function LastImplication(links: seq<Link>, k: string, techs: Assoc<string, Tech>): Option<Entry> {
    if |links| == 0 then None
    else
      var l := links[|links| - 1];
      if l.kind == Implied && l.pattern.value == k then Some(NewEntry(l, techs))
      else LastImplication(links[..|links| - 1], k, techs)
  }

  /** Walking the references appends to each detected entry exactly the records aimed at it,
      in order, and changes nothing else about it. */
  lemma {:induction false} ApplyAllData(data: Assoc<string, Entry>, links: seq<Link>, techs: Assoc<string, Tech>, negate: bool)
    requires UniqueKeys(data)
    ensures var s := ApplyAll(State(data, []), links, techs, negate);
      |s.data| == |data| &&
      forall i :: 0 <= i < |data| ==> s.data[i] == (data[i].0, data[i].1.(raw := data[i].1.raw + Aimed(links, data[i].0, negate)))
    decreases |links|
  {
    var s := ApplyAll(State(data, []), links, techs, negate);
    if |links| == 0 {
      forall i | 0 <= i < |data| ensures s.data[i] == (data[i].0, data[i].1.(raw := data[i].1.raw + Aimed(links, data[i].0, negate))) {
        assert data[i].1.raw + [] == data[i].1.raw;
      }
    } else {
      var init := links[..|links| - 1];
      var l := links[|links| - 1];
      var s0 := ApplyAll(State(data, []), init, techs, negate);
      ApplyAllData(data, init, techs, negate);
      assert Keys(s0.data) == Keys(data);
      match Find(s0.data, l.pattern.value)
      case None =>
        forall i | 0 <= i < |data| ensures Aimed(links, data[i].0, negate) == Aimed(init, data[i].0, negate) {
          assert Keys(data)[i] == data[i].0;
        }
      case Some(j) =>
        assert s0.data[j].0 == Keys(s0.data)[j] == data[j].0 == l.pattern.value;
        assert s.data == s0.data[j := (l.pattern.value, s0.data[j].1.(raw := s0.data[j].1.raw + [SyntheticOf(l, negate)]))];
        AppendAimedAt(data, s0.data, links, negate, j);
    }
  }

  /** The last reference, aimed at the detected entry `j`, appends its record there and
      nowhere else. */
  lemma {:induction false} AppendAimedAt(data: Assoc<string, Entry>, s0: Assoc<string, Entry>, links: seq<Link>, negate: bool, j: nat)
    requires UniqueKeys(data) && |links| > 0 && |s0| == |data| && j < |data|
    requires data[j].0 == links[|links| - 1].pattern.value
    requires forall i :: 0 <= i < |data| ==>
      s0[i] == (data[i].0, data[i].1.(raw := data[i].1.raw + Aimed(links[..|links| - 1], data[i].0, negate)))
    ensures var l := links[|links| - 1];
      var sd := s0[j := (l.pattern.value, s0[j].1.(raw := s0[j].1.raw + [SyntheticOf(l, negate)]))];
      forall i :: 0 <= i < |data| ==> sd[i] == (data[i].0, data[i].1.(raw := data[i].1.raw + Aimed(links, data[i].0, negate)))
  {
    var init := links[..|links| - 1];
    var l := links[|links| - 1];
    var syn := SyntheticOf(l, negate);
    var sd := s0[j := (l.pattern.value, s0[j].1.(raw := s0[j].1.raw + [syn]))];
    forall i | 0 <= i < |data|
      ensures sd[i] == (data[i].0, data[i].1.(raw := data[i].1.raw + Aimed(links, data[i].0, negate)))
    {
      if i == j {
        assert Aimed(links, data[i].0, negate) == Aimed(init, data[i].0, negate) + [syn];
        assert data[i].1.raw + Aimed(init, data[i].0, negate) + [syn]
            == data[i].1.raw + Aimed(links, data[i].0, negate);
      } else {
        assert data[i].0 != data[j].0;
        assert Aimed(links, data[i].0, negate) == Aimed(init, data[i].0, negate);
      }
    }
  }

  /** Walking the references records, for each undetected name, the entry its last
      implication creates, and nothing for a detected one. */
  lemma {:induction false} ApplyAllImplies(data: Assoc<string, Entry>, links: seq<Link>, techs: Assoc<string, Tech>, negate: bool, k: string)
    ensures Get(ApplyAll(State(data, []), links, techs, negate).implies, k)
         == if k in Keys(data) then None else LastImplication(links, k, techs)
    decreases |links|
  {
    if |links| > 0 {
      var init := links[..|links| - 1];
      var l := links[|links| - 1];
      var s0 := ApplyAll(State(data, []), init, techs, negate);
      ApplyAllImplies(data, init, techs, negate, k);
      if Find(s0.data, l.pattern.value).None? && l.kind == Implied && l.pattern.value != k {
        assert Get(Put(s0.implies, l.pattern.value, NewEntry(l, techs)), k) == Get(s0.implies, k);
      }
    }
  }

  /** A detected technology keeps its place and everything it had; resolution only appends
      the synthetic records aimed at it, in visiting order. */
  lemma {:induction false} ResolveGrowsDetected(data: Assoc<string, Entry>, techs: Assoc<string, Tech>, negate: bool, i: nat)
    requires UniqueKeys(data) && AnyRefers(techs) && Resolve(data, techs, negate).Success? && i < |data|
    ensures Links(data).Success?
    ensures Get(Resolve(data, techs, negate).value, data[i].0)
         == Some(data[i].1.(raw := data[i].1.raw + Aimed(Links(data).value, data[i].0, negate)))
  {
    var links := Links(data).value;
    var s := ApplyAll(State(data, []), links, techs, negate);
    var k := data[i].0;
    ApplyAllData(data, links, techs, negate);
    assert k in Keys(data) by { assert Keys(data)[i] == k; }
    ApplyAllImplies(data, links, techs, negate, k);
    assert UniqueKeys(s.data) by {
      assert forall j :: 0 <= j < |data| ==> s.data[j].0 == data[j].0;
    }
    assert Get(s.data, k) == Some(s.data[i].1);
  }

  /** An undetected technology appears exactly when something detected implies it, with the
      entry its last implication creates; exclusions never create entries. */
  lemma {:induction false} ResolveAddsImplied(data: Assoc<string, Entry>, techs: Assoc<string, Tech>, negate: bool, k: string)
    requires AnyRefers(techs) && Resolve(data, techs, negate).Success? && k !in Keys(data)
    ensures Links(data).Success?
    ensures Get(Resolve(data, techs, negate).value, k) == LastImplication(Links(data).value, k, techs)
  {
    var links := Links(data).value;
    var s := ApplyAll(State(data, []), links, techs, negate);
    ApplyAllImplies(data, links, techs, negate, k);
    if k in Keys(s.implies) {
      MergeOverrides(s.data, s.implies, k);
    }
  }

  /** When several detected technologies imply the same undetected one, the last of them
      decides its entry. */
  lemma {:induction false} LastImplicationWins(links: seq<Link>, k: string, techs: Assoc<string, Tech>, j: nat)
    requires j < |links| && links[j].kind == Implied && links[j].pattern.value == k
    requires forall m :: j < m < |links| ==> !(links[m].kind == Implied && links[m].pattern.value == k)
    ensures LastImplication(links, k, techs) == Some(NewEntry(links[j], techs))
    decreases |links|
  {
    if j < |links| - 1 {
      var init := links[..|links| - 1];
      LastImplicationWins(init, k, techs, j);
    }
  }

  /** A name nothing implies gets no entry. */
  lemma {:induction false} UnimpliedAbsent(links: seq<Link>, k: string, techs: Assoc<string, Tech>)
    requires forall m :: 0 <= m < |links| ==> !(links[m].kind == Implied && links[m].pattern.value == k)
    ensures LastImplication(links, k, techs) == None
    decreases |links|
  {
    if |links| > 0 {
      UnimpliedAbsent(links[..|links| - 1], k, techs);
    }
  }
}

=== FILE: legacy_analysis.dfy ===
/** `Analysis#run`: the older pipeline in `analysis.rb`, which keeps private copies of every
    stage. Detection, grouping and implication resolution are the class stages (with the
    accumulating version loop and negated exclusions); post-formatting has its own boost, its
    own best-version chain, and adds the already negated exclusion share. */
module LegacyAnalysis {
  import opened Wrappers
  import opened OrderedHash
  import opened RubyArray
  import opened RubyNumeric
  import opened RuleParser
  import opened Builder
  import opened Regex
  import opened Processor
  import opened VersionTemplate
  import opened Formatter
  import opened ImplicationResolver
  import opened PostFormatter

  // ---------------------------------------------------------------- flattening

  /** `a.except('pattern').merge(a['pattern']).merge('version' => a['version'] || '')`:
      the pattern merged over the record as in the class pass, and a record without a
      resolved version gets the blank version. */
  function LegacyFlatten(r: Raw): (f: Flat)
    ensures f.key == Flatten(r).key && f.origin == Flatten(r).origin && f.confidence == Confidence(r)
    ensures f.version == Some(RawVersion(r).GetOr(""))
  {
    Flatten(r).(version := Some(RawVersion(r).GetOr("")))
  }

  function LegacyFlattenAll(raw: seq<Raw>): (fs: seq<Flat>)
    ensures |fs| == |raw| && forall i :: 0 <= i < |raw| ==> fs[i] == LegacyFlatten(raw[i])
  {
    MapSeq(raw, LegacyFlatten)
  }

  /** Where every record resolved a version, both flattenings agree. */
  lemma {:induction false} FlattenAgreesOnVersioned(raw: seq<Raw>)
    requires forall i :: 0 <= i < |raw| ==> raw[i].Found? && raw[i].version.Some?
    ensures LegacyFlattenAll(raw) == FlattenAll(raw)
  {
    assert forall i :: 0 <= i < |raw| ==> LegacyFlattenAll(raw)[i] == FlattenAll(raw)[i];
  }

  // ---------------------------------------------------------------- boost

  predicate IsZero(r: Flat) {
    r.confidence == 0
  }

  predicate IsNonNegative(r: Flat) {
    r.confidence >= 0
  }

  /** The legacy boost: zeroes counted over all records, synthetic ones included, and 25 per
      zero added when there are some and fewer of them than non-negative records. */
  function LegacyBoosted(raw: seq<Flat>): int {
    var zero := Count(raw, IsZero);
    var posi := Count(raw, IsNonNegative);
    (if 0 < zero < posi then 25 * zero else 0) + PureSum(raw)
  }

  /** Among matches with non-negative confidence, the non-negative ones are the zero ones
      and the positive ones. */
  lemma {:induction false} MatchCounts(raw: seq<Flat>)
    requires forall i :: 0 <= i < |raw| ==> raw[i].origin.Matched? && raw[i].confidence >= 0
    ensures Count(raw, IsZero) == Count(raw, IsZeroMatch)
    ensures Count(raw, IsNonNegative) == Count(raw, IsZeroMatch) + Count(raw, IsPositiveMatch)
    decreases |raw|
  {
    if |raw| > 0 {
      MatchCounts(raw[..|raw| - 1]);
    }
  }

  /** On matches alone, none of them negative, the two boosts agree: fewer zeroes than
      non-negative records means some positive record. */
  lemma {:induction false} BoostsAgreeOnMatches(raw: seq<Flat>)
    requires forall i :: 0 <= i < |raw| ==> raw[i].origin.Matched? && raw[i].confidence >= 0
    ensures LegacyBoosted(raw) == Boosted(raw)
  {
    MatchCounts(raw);
  }

  /** Synthetic records count in the legacy boost: a positive implication releases the boost
      of a zero-confidence match, where the class boost gives nothing. */
  lemma {:induction false} ImplicationReleasesLegacyBoost(m: Flat, s: Flat)
    requires m.origin.Matched? && m.confidence == 0
    requires s.origin == Synthetic(Implied) && s.confidence > 0
    ensures Boosted([m, s]) == 0
    ensures LegacyBoosted([m, s]) == 25
  {
    assert [m, s][..1] == [m] && [m][..0] == [];
    assert Count([m], IsZero) == 1;
    assert Count([m], IsNonNegative) == 1;
    assert PureSum([m]) == 0;
    assert Count([m], IsPositiveMatch) == 0 && Count([m, s], IsPositiveMatch) == 0;
  }

  // ---------------------------------------------------------------- best version

  /** `raw.select { |a| a['field'] == f && !a['version'].empty? }`. */
  function Specific(raw: seq<Flat>, f: Field): (s: seq<Flat>)
    ensures forall r :: r in s <==> r in raw && r.origin == Matched(f) && VersionOf(r) != ""
  {
    Filter(raw, (r: Flat) => r.origin == Matched(f) && VersionOf(r) != "")
  }

  /** `raw.detect { |k| !k['version'].empty? }`'s version. */
  function FirstNonBlank(raw: seq<Flat>): (v: Option<string>)
    ensures v.Some? <==> exists i :: 0 <= i < |raw| && VersionOf(raw[i]) != ""
    ensures v.Some? ==> exists i :: 0 <= i < |raw| && VersionOf(raw[i]) == v.value != "" &&
                                    (forall j :: 0 <= j < i ==> VersionOf(raw[j]) == "")
  {
    if |raw| == 0 then None
    else if VersionOf(raw[0]) != "" then Some(VersionOf(raw[0]))
    else
      assert forall i :: 1 <= i < |raw| ==> raw[1..][i - 1] == raw[i];
      FirstNonBlank(raw[1..])
  }

  /** `best_version_for(raw, field:)`: all records grouped by version, blank included; the
      version with the unique greatest summed confidence, else the unique most frequent;
      then, at the top level only, the same over the non-blank `js` records and over the
      non-blank `scripts` records; finally the first non-blank version. */
  function LegacyBest(raw: seq<Flat>, field: Option<Field>): Option<string>
    decreases if field.None? then 1 else 0
  {
    var g := GroupBy(raw, VersionOf);
    if |g| == 0 then None
    else
      match UniqueMax(Tally(g, Total))
      case Some(v) => Some(v)
      case None =>
        match UniqueMax(Tally(g, Size))
        case Some(v) => Some(v)
        case None =>
          var js := if field.None? then LegacyBest(Specific(raw, Js), Some(Js)) else None;
          if js.Some? then js
          else
            var scripts := if field.None? then LegacyBest(Specific(raw, Scripts), Some(Scripts)) else None;
            if scripts.Some? then scripts else FirstNonBlank(raw)
  }

  /** Every group key is the version of some record. */
  lemma {:induction false} GroupKeyOfRecord(raw: seq<Flat>, v: string)
    requires v in Keys(GroupBy(raw, VersionOf))
    ensures exists i :: 0 <= i < |raw| && VersionOf(raw[i]) == v
  {
    var j :| 0 <= j < |raw| && MapKeys(raw, VersionOf)[j] == v;
  }

  /** A version some record has is a group key. */
  lemma {:induction false} RecordVersionIsKey(raw: seq<Flat>, i: nat)
    requires i < |raw|
    ensures VersionOf(raw[i]) in Keys(GroupBy(raw, VersionOf))
  {
    assert MapKeys(raw, VersionOf)[i] == VersionOf(raw[i]);
  }

  /** What a tally of the groups picks is the version of some record. */
  lemma {:induction false} PickIsRecord(raw: seq<Flat>, weigh: seq<Flat> -> int)
    requires UniqueMax(Tally(GroupBy(raw, VersionOf), weigh)).Some?
    ensures exists i :: 0 <= i < |raw| && VersionOf(raw[i]) == UniqueMax(Tally(GroupBy(raw, VersionOf), weigh)).value
  {
    TallyPickIsKey(GroupBy(raw, VersionOf), weigh);
    GroupKeyOfRecord(raw, UniqueMax(Tally(GroupBy(raw, VersionOf), weigh)).value);
  }

  /** A tie between versions means there are at least two, so one is not blank. */
  lemma {:induction false} TieHasNonBlank(raw: seq<Flat>)
    requires |GroupBy(raw, VersionOf)| > 0 && UniqueMax(Tally(GroupBy(raw, VersionOf), Total)).None?
    ensures exists i :: 0 <= i < |raw| && VersionOf(raw[i]) != ""
  {
    var g := GroupBy(raw, VersionOf);
    assert |g| >= 2 by {
      if |g| == 1 {
        assert Dominates(Tally(g, Total), 0);
      }
    }
    assert g[0].0 != g[1].0;
    var k := if g[0].0 != "" then 0 else 1;
    assert Keys(g)[k] == g[k].0;
    GroupKeyOfRecord(raw, g[k].0);
  }

  /** A version of a selected record is a version of some record. */
  lemma {:induction false} SpecificRecords(raw: seq<Flat>, f: Field, v: string)
    requires exists j :: 0 <= j < |Specific(raw, f)| && VersionOf(Specific(raw, f)[j]) == v
    ensures exists i :: 0 <= i < |raw| && VersionOf(raw[i]) == v
  {
    var sp := Specific(raw, f);
    var j :| 0 <= j < |sp| && VersionOf(sp[j]) == v;
    assert sp[j] in sp;
    var i :| 0 <= i < |raw| && raw[i] == sp[j];
  }

  /** The legacy chain answers exactly when there are records, and with one of their
      versions, possibly the blank one. */
  lemma {:induction false} LegacyBestIsAVersion(raw: seq<Flat>, field: Option<Field>)
    ensures LegacyBest(raw, field).Some? <==> |raw| > 0
    ensures LegacyBest(raw, field).Some? ==> exists i :: 0 <= i < |raw| && VersionOf(raw[i]) == LegacyBest(raw, field).value
    decreases if field.None? then 1 else 0
  {
    var g := GroupBy(raw, VersionOf);
    if |raw| > 0 {
      RecordVersionIsKey(raw, 0);
    }
    if |g| > 0 {
      if UniqueMax(Tally(g, Total)).Some? {
        PickIsRecord(raw, Total);
      } else if UniqueMax(Tally(g, Size)).Some? {
        PickIsRecord(raw, Size);
      } else {
        TieHasNonBlank(raw);
        if field.None? {
          LegacyBestIsAVersion(Specific(raw, Js), Some(Js));
          var js := LegacyBest(Specific(raw, Js), Some(Js));
          if js.Some? {
            SpecificRecords(raw, Js, js.value);
          } else {
            LegacyBestIsAVersion(Specific(raw, Scripts), Some(Scripts));
            var scripts := LegacyBest(Specific(raw, Scripts), Some(Scripts));
            if scripts.Some? {
              SpecificRecords(raw, Scripts, scripts.value);
            }
          }
        }
      }
    }
  }

  /** The summed confidence of the records carrying `v`, blank included. */
  function LegacyWeight(raw: seq<Flat>, v: string): int {
    Total(Select(raw, VersionOf, v))
  }

  /** The heaviest version tops the tally of the groups by summed confidence. */
  lemma {:induction false} HeaviestTopsTally(raw: seq<Flat>, v: string)
    requires exists i :: 0 <= i < |raw| && VersionOf(raw[i]) == v
    requires forall j :: 0 <= j < |raw| && VersionOf(raw[j]) != v ==> LegacyWeight(raw, VersionOf(raw[j])) < LegacyWeight(raw, v)
    ensures UniqueMax(Tally(GroupBy(raw, VersionOf), Total)) == Some(v)
  {
    var g := GroupBy(raw, VersionOf);
    var t := Tally(g, Total);
    var i0 :| 0 <= i0 < |raw| && VersionOf(raw[i0]) == v;
    RecordVersionIsKey(raw, i0);
    var i :| 0 <= i < |g| && Keys(g)[i] == v;
    HeaviestDominates(raw, v, i);
    DominatorIsPick(t, i);
  }

  lemma {:induction false} HeaviestDominates(raw: seq<Flat>, v: string, i: nat)
    requires i < |GroupBy(raw, VersionOf)| && Keys(GroupBy(raw, VersionOf))[i] == v
    requires forall j :: 0 <= j < |raw| && VersionOf(raw[j]) != v ==> LegacyWeight(raw, VersionOf(raw[j])) < LegacyWeight(raw, v)
    ensures Dominates(Tally(GroupBy(raw, VersionOf), Total), i)
  {
    var g := GroupBy(raw, VersionOf);
    var t := Tally(g, Total);
    forall j | 0 <= j < |t| && j != i ensures t[j].1 < t[i].1 {
      assert Keys(g)[j] == g[j].0;
      GroupKeyOfRecord(raw, g[j].0);
    }
  }

  /** A version whose records' confidences add up to more than any other version's is the
      legacy best version, blank or not. */
  lemma {:induction false} LegacyHeaviestWins(raw: seq<Flat>, v: string, field: Option<Field>)
    requires exists i :: 0 <= i < |raw| && VersionOf(raw[i]) == v
    requires forall j :: 0 <= j < |raw| && VersionOf(raw[j]) != v ==> LegacyWeight(raw, VersionOf(raw[j])) < LegacyWeight(raw, v)
    ensures LegacyBest(raw, field) == Some(v)
  {
    var i0 :| 0 <= i0 < |raw| && VersionOf(raw[i0]) == v;
    RecordVersionIsKey(raw, i0);
    HeaviestTopsTally(raw, v);
  }

  /** The class half of `BlankVersionWinsOnlyInLegacy`. */
  lemma {:induction false} BlankSkippedByClass(a: Raw, b: Raw)
    requires a.Found? && a.version.None?
    requires b.Found? && b.version.Some? && b.version.value != ""
    requires b.pattern.confidence < a.pattern.confidence
    ensures BestVersion(FlattenAll([a, b])) == b.version
  {
    var fs := FlattenAll([a, b]);
    assert fs[1].version == b.version;
    HeaviestVersionWins(fs, b.version.value);
  }

  /** The legacy half of `BlankVersionWinsOnlyInLegacy`. */
  lemma {:induction false} BlankPickedByLegacy(a: Raw, b: Raw)
    requires a.Found? && a.version.None?
    requires b.Found? && b.version.Some? && b.version.value != ""
    requires b.pattern.confidence < a.pattern.confidence
    ensures LegacyBest(LegacyFlattenAll([a, b]), None) == Some("")
  {
    LegacyPairWeights(LegacyFlattenAll([a, b]));
    LegacyHeaviestWins(LegacyFlattenAll([a, b]), "", None);
  }

  /** A record without a resolved version outweighing a versioned one: the class chain
      skips it and picks the version, the legacy chain picks the blank version. */
  lemma {:induction false} BlankVersionWinsOnlyInLegacy(a: Raw, b: Raw)
    requires a.Found? && a.version.None?
    requires b.Found? && b.version.Some? && b.version.value != ""
    requires b.pattern.confidence < a.pattern.confidence
    ensures BestVersion(FlattenAll([a, b])) == b.version
    ensures LegacyBest(LegacyFlattenAll([a, b]), None) == Some("")
  {
    BlankSkippedByClass(a, b);
    BlankPickedByLegacy(a, b);
  }

  /** The weights of two records with different versions are their own confidences. */
  lemma {:induction false} LegacyPairWeights(ls: seq<Flat>)
    requires |ls| == 2 && VersionOf(ls[0]) != VersionOf(ls[1])
    ensures LegacyWeight(ls, VersionOf(ls[0])) == ls[0].confidence
    ensures LegacyWeight(ls, VersionOf(ls[1])) == ls[1].confidence
  {
    var x, y := ls[0], ls[1];
    assert ls[..1] == [x] && [x][..0] == [];
    assert Select([x], VersionOf, VersionOf(x)) == [x];
    assert Select([x], VersionOf, VersionOf(y)) == [];
    assert Select(ls, VersionOf, VersionOf(x)) == [x];
    assert Select(ls, VersionOf, VersionOf(y)) == [y];
    assert [y][..0] == [];
  }

  /** When every record resolved a version and the class chain's first step decides, the
      legacy chain decides the same way. */
  lemma {:induction false} BestVersionsAgreeWhenDecided(raw: seq<Raw>)
    requires forall i :: 0 <= i < |raw| ==> raw[i].Found? && raw[i].version.Some?
    requires ViaField(FlattenAll(raw), None).Some?
    ensures LegacyBest(LegacyFlattenAll(raw), None) == BestVersion(FlattenAll(raw))
  {
    FlattenAgreesOnVersioned(raw);
    assert forall i :: 0 <= i < |FlattenAll(raw)| ==> FlattenAll(raw)[i].version.Some?;
    LegacyBestDecided(FlattenAll(raw));
  }

  lemma {:induction false} LegacyBestDecided(fs: seq<Flat>)
    requires forall i :: 0 <= i < |fs| ==> fs[i].version.Some?
    requires ViaField(fs, None).Some?
    ensures LegacyBest(fs, None) == ViaField(fs, None)
  {
    CandidatesAll(fs);
  }

  /** With every record versioned, all records are candidates. */
  lemma {:induction false} CandidatesAll(fs: seq<Flat>)
    requires forall i :: 0 <= i < |fs| ==> fs[i].version.Some?
    ensures Candidates(fs, None) == fs
  {
    if |fs| > 0 {
      var init := fs[..|fs| - 1];
      CandidatesAll(init);
      assert fs == init + [fs[|fs| - 1]];
    }
  }

  // ---------------------------------------------------------------- the entry

  /** One entry of `post_sanitize_detected_data`'s first pass: confidence boosted the legacy
      way and versions collected, both from the records before flattening; best version by
      the legacy chain on the flattened records. */
  function LegacyTransform(e: Entry): (r: Report)
    ensures r.name == e.name
  {
    var raw := LegacyFlattenAll(e.raw);
    Report(e.name, LegacyBoosted(MapSeq(e.raw, Recorded)), CollectVersions(e.raw), LegacyBest(raw, None), e.tech, raw, e.implied)
  }

  /** On an entry of detection records only, none with negative confidence, none that its
      pattern relabels as implied or excluded, each with a resolved version, and with a
      version the class chain's first step decides, the two pipelines report the entry
      identically before adjustment. */
  lemma {:induction false} TransformsAgree(e: Entry)
    requires forall i :: 0 <= i < |e.raw| ==> e.raw[i].Found? && e.raw[i].version.Some? && e.raw[i].pattern.confidence >= 0
    requires forall i :: 0 <= i < |e.raw| ==> !Flatten(e.raw[i]).origin.Synthetic?
    requires ViaField(FlattenAll(e.raw), None).Some?
    ensures LegacyTransform(e) == PostFormatter.Transform(e)
  {
    var flat := FlattenAll(e.raw);
    assert PostFormatter.Transform(e) == Report(e.name, Boosted(flat), FlatVersions(flat), BestVersion(flat), e.tech, flat, e.implied);
    LegacyBoostAgrees(e.raw);
    FlatVersionsKept(e.raw);
    BestVersionsAgreeWhenDecided(e.raw);
    FlattenAgreesOnVersioned(e.raw);
  }

  /** The boost half of `TransformsAgree`. */
  lemma {:induction false} LegacyBoostAgrees(raw: seq<Raw>)
    requires forall i :: 0 <= i < |raw| ==> raw[i].Found? && raw[i].pattern.confidence >= 0
    requires forall i :: 0 <= i < |raw| ==> !Flatten(raw[i]).origin.Synthetic?
    ensures LegacyBoosted(MapSeq(raw, Recorded)) == Boosted(FlattenAll(raw))
  {
    var rec := MapSeq(raw, Recorded);
    assert forall i :: 0 <= i < |rec| ==> rec[i].origin.Matched? && rec[i].confidence >= 0;
    BoostsAgreeOnMatches(rec);
    BoostedByClass(rec, FlattenAll(raw));
  }

  /** A match whose signature relabels it as implied scores in the legacy boost, which reads
      the record's field before the merge, and scores nothing in the class boost, which reads
      it after. */
  lemma {:induction false} RelabelScoredOnlyInLegacy(r: Raw)
    requires r.Found? && Get(r.pattern.extra, "field") == Some("implied") && r.pattern.confidence > 0
    ensures LegacyBoosted(MapSeq([r], Recorded)) == r.pattern.confidence
    ensures Boosted(FlattenAll([r])) == 0
  {
    var rec := MapSeq([r], Recorded);
    var flat := FlattenAll([r]);
    assert rec[..0] == [] && flat[..0] == [];
    assert rec[0].origin == Matched(r.field);
    assert Count(rec, IsZero) == 0 && PureSum(rec) == r.pattern.confidence;
    RelabelledAsImplied(r);
    assert flat[0].origin == Synthetic(Implied);
    assert Count(flat, IsPositiveMatch) == 0 && PureSum(flat) == 0;
  }

  function LegacyTransformAll(d: Assoc<string, Entry>): (r: Assoc<string, Report>)
    ensures |r| == |d| && forall i :: 0 <= i < |d| ==> r[i] == (d[i].0, LegacyTransform(d[i].1))
    ensures Keys(r) == Keys(d)
  {
    var r := seq(|d|, i requires 0 <= i < |d| => (d[i].0, LegacyTransform(d[i].1)));
    assert forall i :: 0 <= i < |d| ==> Keys(r)[i] == Keys(d)[i];
    r
  }

  /** `post_sanitize_detected_data`: the entries transformed, then adjusted in order with
      both shares added (the exclusion share already negative), then sorted by key and
      reversed: every entry reported once, highest key first. It raises exactly when some
      entry's first implied record names a technology that is not in the data. */
  function LegacyPost(d: Assoc<string, Entry>): (r: Result<seq<Report>, PostCrash>)
    ensures r.Failure? <==> exists j :: 0 <= j < |d| && Dangling(Keys(d), LegacyFlattenAll(d[j].1.raw))
    ensures r.Success? ==> |r.value| == |d| && Ranked(r.value)
    ensures r.Success? <==> Adjust(LegacyTransformAll(d), false).Success?
    ensures r.Success? ==> multiset(r.value) == multiset(Values(Adjust(LegacyTransformAll(d), false).value))
  {
    var t := LegacyTransformAll(d);
    AdjustFailsOnDangling(t, false);
    var a :- Adjust(t, false);
    var out := Rankings(Values(a));
    assert |out| == |multiset(out)| == |multiset(Values(a))| == |d|;
    Success(out)
  }

  // ---------------------------------------------------------------- the sign of exclusions

  /** An exclusion record as the legacy pass stores it: its confidence negated. */
  function NegateFlat(f: Flat): Flat {
    if f.origin == Synthetic(Excluded) then f.(confidence := -f.confidence) else f
  }

  function NegateReport(r: Report): Report {
    r.(raw := MapSeq(r.raw, NegateFlat))
  }

  /** Every entry's exclusions negated, names and order kept. */
  function NegateAll(d: Assoc<string, Report>): (n: Assoc<string, Report>)
    ensures |n| == |d| && Keys(n) == Keys(d)
    decreases |d|
  {
    if |d| == 0 then []
    else
      var init := d[..|d| - 1];
      var n0 := NegateAll(init);
      var n := n0 + [(d[|d| - 1].0, NegateReport(d[|d| - 1].1))];
      assert forall k :: 0 <= k < |init| ==> Keys(n)[k] == Keys(n0)[k] == Keys(init)[k] == Keys(d)[k];
      n
  }

  lemma {:induction false} NegateAllAt(d: Assoc<string, Report>, i: nat)
    requires i < |d|
    ensures NegateAll(d)[i] == (d[i].0, NegateReport(d[i].1))
    decreases |d|
  {
    if i < |d| - 1 {
      NegateAllAt(d[..|d| - 1], i);
    }
  }

  /** Negating exclusions does not move the first record of either kind. */
  lemma {:induction false} FirstOfNegated(raw: seq<Flat>, kind: Reference)
    ensures FirstOf(MapSeq(raw, NegateFlat), kind) == match FirstOf(raw, kind) case None => None case Some(f) => Some(NegateFlat(f))
    decreases |raw|
  {
    if |raw| > 0 {
      assert MapSeq(raw, NegateFlat)[1..] == MapSeq(raw[1..], NegateFlat);
      FirstOfNegated(raw[1..], kind);
    }
  }

  lemma {:induction false} LookupNegated(d: Assoc<string, Report>, key: Option<string>)
    ensures PostFormatter.Lookup(NegateAll(d), key) == match PostFormatter.Lookup(d, key) case None => None case Some(r) => Some(NegateReport(r))
  {
    if key.Some? {
      FindSameKeys(NegateAll(d), d, key.value);
      if Find(d, key.value).Some? {
        NegateAllAt(d, Find(d, key.value).value);
      }
    }
  }

  /** The referrer's share of a negated record is the negated share. */
  lemma {:induction false} ShareNegated(ref: Flat, referrer: Report)
    ensures Share(ref.(confidence := -ref.confidence), referrer) == -Share(ref, referrer)
  {
    MulNegate(ref.confidence, referrer.confidence);
    HundredthNegate(Mul(ref.confidence, referrer.confidence));
  }

  /** The implied share is the same in both signs. */
  lemma {:induction false} MultiplierNegated(d: Assoc<string, Report>, raw: seq<Flat>)
    ensures Multiplier(NegateAll(d), MapSeq(raw, NegateFlat), Implied) == Multiplier(d, raw, Implied)
  {
    FirstOfNegated(raw, Implied);
    if FirstOf(raw, Implied).Some? {
      LookupNegated(d, FirstOf(raw, Implied).value.key);
    }
  }

  /** The share a record takes from its referrer, 0 when the referrer is missing. */
  function ReferrerShare(d: Assoc<string, Report>, ref: Flat): int {
    match PostFormatter.Lookup(d, ref.key)
    case None => 0
    case Some(referrer) => Share(ref, referrer)
  }

  /** The checked multiplier is the share of the first record of the kind, if any. */
  lemma {:induction false} CheckedIsReferrerShare(d: Assoc<string, Report>, raw: seq<Flat>, kind: Reference)
    ensures CheckedMultiplier(d, raw, kind) == match FirstOf(raw, kind) case None => 0 case Some(ref) => ReferrerShare(d, ref)
  {
  }

  /** The stored negative exclusion, added, is the class exclusion subtracted. */
  lemma {:induction false} CheckedMultiplierNegated(d: Assoc<string, Report>, raw: seq<Flat>)
    ensures CheckedMultiplier(NegateAll(d), MapSeq(raw, NegateFlat), Excluded) == -CheckedMultiplier(d, raw, Excluded)
  {
    var nraw := MapSeq(raw, NegateFlat);
    CheckedIsReferrerShare(d, raw, Excluded);
    CheckedIsReferrerShare(NegateAll(d), nraw, Excluded);
    FirstOfNegated(raw, Excluded);
    if FirstOf(raw, Excluded).Some? {
      ReferrerShareNegated(d, FirstOf(raw, Excluded).value);
    }
  }

  /** The share of a record, read on the negated data with the record negated, is the share
      read on the data, negated. */
  lemma {:induction false} ReferrerShareNegated(d: Assoc<string, Report>, ref: Flat)
    requires ref.origin == Synthetic(Excluded)
    ensures ReferrerShare(NegateAll(d), NegateFlat(ref)) == -ReferrerShare(d, ref)
  {
    var nref := ref.(confidence := -ref.confidence);
    assert NegateFlat(ref) == nref && nref.key == ref.key;
    LookupNegated(d, ref.key);
    match PostFormatter.Lookup(d, ref.key)
    case None =>
      assert PostFormatter.Lookup(NegateAll(d), nref.key).None?;
    case Some(referrer) =>
      assert PostFormatter.Lookup(NegateAll(d), nref.key) == Some(NegateReport(referrer));
      ShareNegated(ref, referrer);
      assert Share(nref, NegateReport(referrer)) == Share(nref, referrer);
  }

  lemma CheckedMultiplierNegatedAt(d: Assoc<string, Report>, nd: Assoc<string, Report>, raw: seq<Flat>, nraw: seq<Flat>)
    requires nd == NegateAll(d) && nraw == MapSeq(raw, NegateFlat)
    ensures CheckedMultiplier(nd, nraw, Excluded) == -CheckedMultiplier(d, raw, Excluded)
  {
    CheckedMultiplierNegated(d, raw);
  }

  /** Setting one entry's confidence commutes with negating the exclusions. */
  lemma {:induction false} NegateAllUpdate(d: Assoc<string, Report>, i: nat, c: int)
    requires i < |d|
    ensures NegateAll(d)[i := (d[i].0, NegateReport(d[i].1).(confidence := c))] == NegateAll(d[i := (d[i].0, d[i].1.(confidence := c))])
  {
    var d' := d[i := (d[i].0, d[i].1.(confidence := c))];
    forall k | 0 <= k < |d|
      ensures NegateAll(d)[i := (d[i].0, NegateReport(d[i].1).(confidence := c))][k] == NegateAll(d')[k]
    {
      NegateAllAt(d, k);
      NegateAllAt(d', k);
    }
  }

  /** The excluded share read once the implied share is in place, on the negated data, is
      the negated class share. */
  lemma {:induction false} ExcludedShareNegated(d: Assoc<string, Report>, i: nat, up: int)
    requires i < |d|
    ensures CheckedMultiplier(NegateAll(d)[i := (d[i].0, NegateReport(d[i].1).(confidence := d[i].1.confidence + up))], MapSeq(d[i].1.raw, NegateFlat), Excluded)
        == -CheckedMultiplier(d[i := (d[i].0, d[i].1.(confidence := d[i].1.confidence + up))], d[i].1.raw, Excluded)
  {
    NegateAllUpdate(d, i, d[i].1.confidence + up);
    CheckedMultiplierNegatedAt(d[i := (d[i].0, d[i].1.(confidence := d[i].1.confidence + up))],
      NegateAll(d)[i := (d[i].0, NegateReport(d[i].1).(confidence := d[i].1.confidence + up))], d[i].1.raw, MapSeq(d[i].1.raw, NegateFlat));
  }

  /** Entry `i` of the negated data: the same name and confidence, its exclusions negated. */
  lemma NegatedEntry(d: Assoc<string, Report>, i: nat, up: int)
    requires i < |d|
    ensures NegateAll(d)[i].1.(confidence := NegateAll(d)[i].1.confidence + up) == NegateReport(d[i].1).(confidence := d[i].1.confidence + up)
  {
    NegateAllAt(d, i);
  }

  lemma NegatedConfidence(d: Assoc<string, Report>, i: nat)
    requires i < |d|
    ensures NegateAll(d)[i].1.confidence == d[i].1.confidence
  {
    NegateAllAt(d, i);
  }

  /** The excluded share as `Settled` reads it from the negated data is the negated class
      share. */
  lemma {:induction false} NegatedSettleTerms(d: Assoc<string, Report>, i: nat, up: int)
    requires i < |d|
    ensures CheckedMultiplier(NegateAll(d)[i := (NegateAll(d)[i].0, NegateAll(d)[i].1.(confidence := NegateAll(d)[i].1.confidence + up))], NegateAll(d)[i].1.raw, Excluded)
      == -CheckedMultiplier(d[i := (d[i].0, d[i].1.(confidence := d[i].1.confidence + up))], d[i].1.raw, Excluded)
  {
    var nd := NegateAll(d);
    NegatedEntry(d, i, up);
    NegateAllUpdate(d, i, d[i].1.confidence + up);
    CheckedMultiplierNegatedAt(d[i := (d[i].0, d[i].1.(confidence := d[i].1.confidence + up))],
      nd[i := (nd[i].0, nd[i].1.(confidence := nd[i].1.confidence + up))], d[i].1.raw, nd[i].1.raw);
  }

  /** The settled confidence on the negated data, adding the stored negative exclusion, is
      the class one, subtracting the exclusion. */
  lemma {:induction false} SettledNegated(d: Assoc<string, Report>, i: nat, up: int)
    requires i < |d|
    ensures Settled(NegateAll(d), i, up, false) == Settled(d, i, up, true)
  {
    NegatedSettleTerms(d, i, up);
    NegatedConfidence(d, i);
  }

  /** An adjustment outcome with its exclusions negated; a failure is kept as it is. */
  function NegateOutcome(r: Result<Assoc<string, Report>, PostCrash>): Result<Assoc<string, Report>, PostCrash> {
    match r
    case Failure(e) => Failure(e)
    case Success(d) => Success(NegateAll(d))
  }

  /** One adjustment step in the legacy sign, on the negated data, is the class step with its
      outcome negated. */
  lemma {:induction false} AdjustAtNegated(d: Assoc<string, Report>, i: nat)
    requires i < |d|
    ensures AdjustAt(NegateAll(d), i, false) == NegateOutcome(AdjustAt(d, i, true))
  {
    var info := d[i].1;
    NegateAllAt(d, i);
    MultiplierNegated(d, info.raw);
    if Multiplier(d, info.raw, Implied).Success? {
      var up := Multiplier(d, info.raw, Implied).value;
      SettledNegated(d, i, up);
      NegateAllUpdate(d, i, Settled(d, i, up, true));
    }
  }

  /** A step of a left fold over the entries: a failure so far stays. */
  function Next(a: Result<Assoc<string, Report>, PostCrash>, i: nat, step: (Assoc<string, Report>, nat) -> Result<Assoc<string, Report>, PostCrash>)
    : Result<Assoc<string, Report>, PostCrash>
  {
    match a
    case Failure(e) => Failure(e)
    case Success(x) => step(x, i)
  }

  /** Two folds whose steps agree up to the sign of exclusions, started from outcomes that
      agree, agree after any number of steps. */
  lemma {:induction false} FoldsNegated(n: nat, p: nat -> Result<Assoc<string, Report>, PostCrash>, q: nat -> Result<Assoc<string, Report>, PostCrash>,
                                        f: (Assoc<string, Report>, nat) -> Result<Assoc<string, Report>, PostCrash>,
                                        g: (Assoc<string, Report>, nat) -> Result<Assoc<string, Report>, PostCrash>)
    requires p(0) == NegateOutcome(q(0))
    requires forall k :: 0 < k <= n ==> p(k) == Next(p(k - 1), k - 1, f)
    requires forall k :: 0 < k <= n ==> q(k) == Next(q(k - 1), k - 1, g)
    requires forall x, i :: f(NegateAll(x), i) == NegateOutcome(g(x, i))
    ensures p(n) == NegateOutcome(q(n))
  {
    if n > 0 {
      FoldsNegated(n - 1, p, q, f, g);
      assert p(n) == Next(p(n - 1), n - 1, f);
      assert q(n) == Next(q(n - 1), n - 1, g);
    }
  }

  /** Adjusting entry `i`, when there is one. */
  function StepOf(subtract: bool): (Assoc<string, Report>, nat) -> Result<Assoc<string, Report>, PostCrash> {
    (x: Assoc<string, Report>, i: nat) => if i < |x| then AdjustAt(x, i, subtract) else Success(x)
  }

  /** The first `k` adjustment steps, for every `k`. */
  function Prefixes(d: Assoc<string, Report>, subtract: bool): nat -> Result<Assoc<string, Report>, PostCrash> {
    (k: nat) => if k <= |d| then AdjustUpTo(d, k, subtract) else Success(d)
  }

  /** `AdjustUpTo` is the fold of `StepOf`. */
  lemma {:induction false} PrefixesFold(d: Assoc<string, Report>, subtract: bool, k: nat)
    requires 0 < k <= |d|
    ensures Prefixes(d, subtract)(k) == Next(Prefixes(d, subtract)(k - 1), k - 1, StepOf(subtract))
  {
  }

  /** The steps in the two signs agree on negated data. */
  lemma {:induction false} StepsNegated(x: Assoc<string, Report>, i: nat)
    ensures StepOf(false)(NegateAll(x), i) == NegateOutcome(StepOf(true)(x, i))
  {
    if i < |x| {
      AdjustAtNegated(x, i);
    }
  }

  /** Storing exclusions negated and adding them, as the legacy pass does, adjusts exactly as
      storing them as they are and subtracting, as the class pass does. */
  lemma {:induction false} AdjustSignAgrees(d: Assoc<string, Report>)
    ensures Adjust(NegateAll(d), false) == NegateOutcome(Adjust(d, true))
  {
    var nd := NegateAll(d);
    forall k | 0 < k <= |d| ensures Prefixes(nd, false)(k) == Next(Prefixes(nd, false)(k - 1), k - 1, StepOf(false)) {
      PrefixesFold(nd, false, k);
    }
    forall k | 0 < k <= |d| ensures Prefixes(d, true)(k) == Next(Prefixes(d, true)(k - 1), k - 1, StepOf(true)) {
      PrefixesFold(d, true, k);
    }
    forall x, i ensures StepOf(false)(NegateAll(x), i) == NegateOutcome(StepOf(true)(x, i)) {
      StepsNegated(x, i);
    }
    FoldsNegated(|d|, Prefixes(nd, false), Prefixes(d, true), StepOf(false), StepOf(true));
  }

  // ---------------------------------------------------------------- the resolver's sign

  /** A synthetic exclusion record with its confidence negated; every other record as is. */
  function NegateRaw(r: Raw): Raw {
    if r.Referred? && r.kind == Excluded then r.(confidence := -r.confidence) else r
  }

  /** The legacy resolver's synthetic record is the class resolver's with the exclusion
      negated; an implication carries the same confidence in both. */
  lemma {:induction false} SyntheticNegated(l: Link)
    ensures SyntheticOf(l, true) == NegateRaw(SyntheticOf(l, false))
    ensures SyntheticOf(l, true).confidence == (if l.kind == Excluded then -l.pattern.confidence else l.pattern.confidence)
  {
  }

  /** What the legacy resolver appends to a detected technology is what the class resolver
      appends, in the same order, with every exclusion negated. */
  lemma {:induction false} AimedNegated(links: seq<Link>, k: string)
    ensures Aimed(links, k, true) == MapSeq(Aimed(links, k, false), NegateRaw)
    decreases |links|
  {
    if |links| > 0 {
      var l := links[|links| - 1];
      var init := links[..|links| - 1];
      AimedNegated(init, k);
      var tail := if l.pattern.value == k then [SyntheticOf(l, false)] else [];
      MapSeqAppend(Aimed(init, k, false), tail, NegateRaw);
      SyntheticNegated(l);
      assert MapSeq(tail, NegateRaw) == if l.pattern.value == k then [SyntheticOf(l, true)] else [];
    }
  }

  /** Flattening commutes with the sign change: a negated exclusion record flattens to the
      class record with its confidence negated, under either flattening. A match its pattern
      relabels as excluded is the exception: the legacy resolver never negates it. */
  lemma {:induction false} FlattenNegated(r: Raw)
    requires r.Found? ==> Flatten(r).origin != Synthetic(Excluded)
    ensures Flatten(NegateRaw(r)) == NegateFlat(Flatten(r))
    ensures LegacyFlatten(NegateRaw(r)) == NegateFlat(LegacyFlatten(r))
  {
  }

  /** Detection records are untouched by the sign change. */
  lemma {:induction false} NegateRawKeepsFound(raw: seq<Raw>)
    requires forall j :: 0 <= j < |raw| ==> raw[j].Found?
    ensures MapSeq(raw, NegateRaw) == raw
  {
  }

  /** The two resolvers differ only in sign: on a detected technology whose records all come
      from detection, the legacy resolver leaves the records the class resolver leaves, with
      every exclusion record negated. */
  lemma {:induction false} ResolveSignOnly(data: Assoc<string, Entry>, techs: Assoc<string, Tech>, i: nat)
    requires UniqueKeys(data) && AnyRefers(techs) && ImplicationResolver.Resolve(data, techs, false).Success? && i < |data|
    requires forall j :: 0 <= j < |data[i].1.raw| ==> data[i].1.raw[j].Found?
    ensures ImplicationResolver.Resolve(data, techs, true).Success?
    ensures Get(ImplicationResolver.Resolve(data, techs, true).value, data[i].0)
         == Some(data[i].1.(raw := MapSeq(Get(ImplicationResolver.Resolve(data, techs, false).value, data[i].0).value.raw, NegateRaw)))
  {
    ResolveGrowsDetected(data, techs, false, i);
    ResolveGrowsDetected(data, techs, true, i);
    var links := Links(data).value;
    AimedNegated(links, data[i].0);
    NegateRawKeepsFound(data[i].1.raw);
    MapSeqAppend(data[i].1.raw, Aimed(links, data[i].0, false), NegateRaw);
  }

  // ---------------------------------------------------------------- the legacy run

  /** Which stage of the legacy run raised. */
  datatype RunCrash = Detecting(crash: Crash) | Resolving(failure: ResolveCrash) | Scoring(missing: PostCrash)

  /** `Analysis#run` after the page is fetched: detection with the accumulating version loop,
      then the later stages. The first raise of any stage ends the run. Detection raises
      exactly when, and as, the class detection does, since neither version loop raises; a
      finished run is ranked and reports every technology the class detection finds. */
  function LegacyRun(e: Engine, techs: Assoc<string, Tech>, snap: Snapshot): (r: Result<seq<Report>, RunCrash>)
    ensures (r.Failure? && r.error.Detecting?) <==> Processor.Process(e, techs, snap).Failure?
    ensures Processor.Process(e, techs, snap).Failure? ==> r == Failure(Detecting(Processor.Process(e, techs, snap).error))
    ensures r.Success? ==> Ranked(r.value)
    ensures r.Success? ==> Processor.Process(e, techs, snap).Success?
    ensures r.Success? ==> forall n :: n in MapKeys(Processor.Process(e, techs, snap).value, NameOf) ==> Reported(r.value, n)
  {
    match LegacyDetect(e, techs, snap)
    case Failure(c) => Failure(Detecting(c))
    case Success(evs) =>
      var r := LegacyStages(evs, techs);
      assert Processor.Process(e, techs, snap).Success?;
      assert MapKeys(evs, NameOf) == MapKeys(Processor.Process(e, techs, snap).value, NameOf);
      r
  }

  /** `run_detections`: detection with the accumulating version loop. It raises exactly
      when, and as, the class detection does, and names the same technologies. */
  function LegacyDetect(e: Engine, techs: Assoc<string, Tech>, snap: Snapshot): (r: Result<seq<Evidence>, Crash>)
    ensures r.Failure? <==> Processor.Process(e, techs, snap).Failure?
    ensures r.Failure? ==> r.error == Processor.Process(e, techs, snap).error
    ensures r.Success? ==> MapKeys(r.value, NameOf) == MapKeys(Processor.Process(e, techs, snap).value, NameOf)
  {
    LegacyDetectCrashesAsProcess(e, techs, snap);
    if Processor.Process(e, techs, snap).Success? then
      LegacyDetectsSameNames(e, techs, snap);
      Detect(e, techs, snap, LegacyVersion)
    else
      Detect(e, techs, snap, LegacyVersion)
  }

  /** Some report carries the name `n`. */
  predicate Reported(out: seq<Report>, n: string) {
    exists k :: 0 <= k < |out| && out[k].name == n
  }

  /** The stages after detection: grouping, resolution with negated exclusions, then the
      legacy post-formatting. Every detected technology is reported, ranked. */
  function LegacyStages(evs: seq<Evidence>, techs: Assoc<string, Tech>): (r: Result<seq<Report>, RunCrash>)
    ensures r.Failure? ==> !r.error.Detecting?
    ensures r.Success? ==> Ranked(r.value)
    ensures r.Success? ==> forall n :: n in MapKeys(evs, NameOf) ==> Reported(r.value, n)
  {
    var d := Format(evs);
    match ImplicationResolver.Resolve(d, techs, true)
    case Failure(f) => Failure(Resolving(f))
    case Success(resolved) =>
      match LegacyPost(resolved)
      case Failure(m) => Failure(Scoring(m))
      case Success(out) =>
        assert forall n :: n in MapKeys(evs, NameOf) ==> Reported(out, n) by {
          forall n | n in MapKeys(evs, NameOf) ensures Reported(out, n) {
            FormatNames(evs, n);
            ResolveKeepsNamed(d, techs, true, n);
            LegacyPostKeepsNamed(resolved, n);
          }
        }
        Success(out)
  }

  /** An entry stored under `n` and named `n`. */
  predicate HasNamed(d: Assoc<string, Entry>, n: string) {
    exists m :: 0 <= m < |d| && d[m].0 == n && d[m].1.name == n
  }

  /** The first piece of evidence with a given name. */
  lemma {:induction false} FirstNamed(evs: seq<Evidence>, n: string) returns (j: nat)
    requires n in MapKeys(evs, NameOf)
    ensures j < |evs| && NameOf(evs[j]) == n && forall i :: 0 <= i < j ==> NameOf(evs[i]) != n
    decreases |evs|
  {
    if NameOf(evs[0]) == n {
      j := 0;
    } else {
      assert n in MapKeys(evs[1..], NameOf) by {
        var i :| 0 <= i < |evs| && MapKeys(evs, NameOf)[i] == n;
        assert MapKeys(evs[1..], NameOf)[i - 1] == n;
      }
      var j' := FirstNamed(evs[1..], n);
      j := j' + 1;
      assert forall i :: 1 <= i < j ==> evs[i] == evs[1..][i - 1];
    }
  }

  /** Every name among the evidence has an entry named after it. */
  lemma {:induction false} FormatNames(evs: seq<Evidence>, n: string)
    requires n in MapKeys(evs, NameOf)
    ensures HasNamed(Format(evs), n)
  {
    var j := FirstNamed(evs, n);
    FormatEntry(evs, j);
    var en :| Get(Format(evs), n) == Some(en) && en.name == n;
    var m :| 0 <= m < |Format(evs)| && Format(evs)[m] == (n, en);
  }

  /** Resolution keeps every detected entry under its name, named as before. */
  lemma {:induction false} ResolveKeepsNamed(d: Assoc<string, Entry>, techs: Assoc<string, Tech>, negate: bool, n: string)
    requires UniqueKeys(d) && HasNamed(d, n) && ImplicationResolver.Resolve(d, techs, negate).Success?
    ensures HasNamed(ImplicationResolver.Resolve(d, techs, negate).value, n)
  {
    var r := ImplicationResolver.Resolve(d, techs, negate).value;
    if AnyRefers(techs) {
      var m :| 0 <= m < |d| && d[m].0 == n && d[m].1.name == n;
      ResolveGrowsDetected(d, techs, negate, m);
      var en := d[m].1.(raw := d[m].1.raw + Aimed(Links(d).value, n, negate));
      var i :| 0 <= i < |r| && r[i] == (n, en);
    }
  }

  /** Legacy post-formatting reports every entry it is given under that entry's name. */
  lemma {:induction false} LegacyPostKeepsNamed(d: Assoc<string, Entry>, n: string)
    requires HasNamed(d, n) && LegacyPost(d).Success?
    ensures Reported(LegacyPost(d).value, n)
  {
    var m :| 0 <= m < |d| && d[m].0 == n && d[m].1.name == n;
    var t := LegacyTransformAll(d);
    assert t[m].1.name == n;
    var a := Adjust(t, false).value;
    AdjustKeepsName(t, false, m);
    var out := LegacyPost(d).value;
    MultisetMember(Values(a), out, m);
  }

  lemma {:induction false} AdjustKeepsName(t: Assoc<string, Report>, subtract: bool, m: nat)
    requires m < |t| && Adjust(t, subtract).Success?
    ensures Values(Adjust(t, subtract).value)[m].name == t[m].1.name
  {
  }

  lemma {:induction false} MultisetMember(xs: seq<Report>, ys: seq<Report>, m: nat)
    requires m < |xs| && multiset(ys) == multiset(xs)
    ensures Reported(ys, xs[m].name)
  {
    assert xs[m] in multiset(xs);
    var k :| 0 <= k < |ys| && ys[k] == xs[m];
  }

  /** The accumulating version loop never raises: the legacy detection raises when, and as,
      the class detection does. */
  lemma {:induction false} LegacyDetectCrashesAsProcess(e: Engine, techs: Assoc<string, Tech>, snap: Snapshot)
    ensures Detect(e, techs, snap, LegacyVersion).Failure? == Processor.Process(e, techs, snap).Failure?
    ensures Detect(e, techs, snap, LegacyVersion).Failure? ==> Detect(e, techs, snap, LegacyVersion).error == Processor.Process(e, techs, snap).error
  {
    DetectIgnoresVersion(e, techs, snap, LegacyVersion, ClassVersion);
  }

  /** Names survive the removal of versions. */
  lemma {:induction false} NamesOfUnversioned(evs: seq<Evidence>)
    ensures MapKeys(MapSeq(evs, Unversioned), NameOf) == MapKeys(evs, NameOf)
  {
    assert forall i :: 0 <= i < |evs| ==> MapKeys(MapSeq(evs, Unversioned), NameOf)[i] == MapKeys(evs, NameOf)[i];
  }

  /** Both detections name the same technologies in the same order, so the legacy run
      groups the same entries as the class pipeline. */
  lemma {:induction false} LegacyDetectsSameNames(e: Engine, techs: Assoc<string, Tech>, snap: Snapshot)
    requires Processor.Process(e, techs, snap).Success?
    ensures Detect(e, techs, snap, LegacyVersion).Success?
    ensures MapKeys(Detect(e, techs, snap, LegacyVersion).value, NameOf) == MapKeys(Processor.Process(e, techs, snap).value, NameOf)
  {
    DetectIgnoresVersion(e, techs, snap, LegacyVersion, ClassVersion);
    var a, b := Detect(e, techs, snap, LegacyVersion).value, Processor.Process(e, techs, snap).value;
    NamesOfUnversioned(a);
    NamesOfUnversioned(b);
  }
}

=== FILE: ordered_hash.dfy ===
/** Ruby's Hash is insertion-ordered. It is modelled as an association list: assigning to
    an existing key replaces the value in place and keeps the key's position; assigning to a
    new key appends it. `group_by`, `merge!` and `to_h` are built from that one operation. */
module OrderedHash {
  import opened Wrappers

  type Assoc<K, V> = seq<(K, V)>

  function Keys<K, V>(m: Assoc<K, V>): (ks: seq<K>)
    ensures |ks| == |m|
    ensures forall i :: 0 <= i < |m| ==> ks[i] == m[i].0
  {
    seq(|m|, i requires 0 <= i < |m| => m[i].0)
  }

  function Values<K, V>(m: Assoc<K, V>): (vs: seq<V>)
    ensures |vs| == |m|
    ensures forall i :: 0 <= i < |m| ==> vs[i] == m[i].1
  {
    seq(|m|, i requires 0 <= i < |m| => m[i].1)
  }

  /** No key occurs twice: every value built by `Put` from the empty hash has this shape. */
  predicate UniqueKeys<K(==,!new), V>(m: Assoc<K, V>) {
    forall i, j :: 0 <= i < j < |m| ==> m[i].0 != m[j].0
  }

  /** Position of the first entry under `k`. */
  function Find<K(==,!new), V>(m: Assoc<K, V>, k: K): (r: Option<nat>)
    ensures r.Some? <==> k in Keys(m)
    ensures r.Some? ==> r.value < |m| && m[r.value].0 == k
    ensures r.Some? ==> forall j :: 0 <= j < r.value ==> m[j].0 != k
  {
    if |m| == 0 then None
    else if m[0].0 == k then Some(0)
    else
      match Find(m[1..], k)
      case None => None
      case Some(i) => Some(i + 1)
  }

  /** Lookup depends on the keys alone. */
  lemma {:induction false} FindSameKeys<K(!new), V, W>(m: Assoc<K, V>, n: Assoc<K, W>, k: K)
    requires Keys(m) == Keys(n)
    ensures Find(m, k) == Find(n, k)
    decreases |m|
  {
    if |m| > 0 {
      assert m[0].0 == Keys(m)[0] == Keys(n)[0] == n[0].0;
      assert Keys(m[1..]) == Keys(m)[1..] == Keys(n)[1..] == Keys(n[1..]);
      FindSameKeys(m[1..], n[1..], k);
    }
  }

  /** `hash[k]`, with `None` for Ruby's nil on a missing key. */
  function Get<K(==,!new), V>(m: Assoc<K, V>, k: K): (r: Option<V>)
    ensures r.Some? <==> k in Keys(m)
    ensures r.Some? ==> exists i :: 0 <= i < |m| && m[i] == (k, r.value)
    ensures UniqueKeys(m) ==> forall i :: 0 <= i < |m| && m[i].0 == k ==> r == Some(m[i].1)
  {
    match Find(m, k)
    case None => None
    case Some(i) => Some(m[i].1)
  }

  /** `hash[k] = v`. */
  function Put<K(==,!new), V>(m: Assoc<K, V>, k: K, v: V): (r: Assoc<K, V>)
    ensures Keys(r) == if k in Keys(m) then Keys(m) else Keys(m) + [k]
    ensures Get(r, k) == Some(v)
    ensures forall k' :: k' != k ==> Get(r, k') == Get(m, k')
    ensures UniqueKeys(m) ==> UniqueKeys(r)
  {
    match Find(m, k)
    case Some(i) =>
      PutReplaces(m, i, k, v);
      m[i := (k, v)]
    case None =>
      PutAppends(m, k, v);
      m + [(k, v)]
  }

  lemma {:induction false} PutReplaces<K(!new), V>(m: Assoc<K, V>, i: nat, k: K, v: V)
    requires Find(m, k) == Some(i)
    ensures Keys(m[i := (k, v)]) == Keys(m)
    ensures Get(m[i := (k, v)], k) == Some(v)
    ensures forall k' :: k' != k ==> Get(m[i := (k, v)], k') == Get(m, k')
    ensures UniqueKeys(m) ==> UniqueKeys(m[i := (k, v)])
  {
    var r := m[i := (k, v)];
    FindFirst(r, k, i);
    forall k' | k' != k ensures Get(r, k') == Get(m, k') {
      FindUpdateOther(m, i, (k, v), k');
    }
  }

  lemma {:induction false} PutAppends<K(!new), V>(m: Assoc<K, V>, k: K, v: V)
    requires k !in Keys(m)
    ensures Keys(m + [(k, v)]) == Keys(m) + [k]
    ensures Get(m + [(k, v)], k) == Some(v)
    ensures forall k' :: k' != k ==> Get(m + [(k, v)], k') == Get(m, k')
    ensures UniqueKeys(m) ==> UniqueKeys(m + [(k, v)])
  {
    var r := m + [(k, v)];
    FindFirst(r, k, |m|);
    forall k' | k' != k ensures Get(r, k') == Get(m, k') {
      FindAppendOther(m, (k, v), k');
    }
  }

  lemma {:induction false} FindFirst<K(!new), V>(m: Assoc<K, V>, k: K, i: nat)
    requires i < |m| && m[i].0 == k
    requires forall j :: 0 <= j < i ==> m[j].0 != k
    ensures Find(m, k) == Some(i)
  {
    if i > 0 {
      FindFirst(m[1..], k, i - 1);
    }
  }

  lemma {:induction false} FindUpdateOther<K(!new), V>(m: Assoc<K, V>, i: nat, e: (K, V), k': K)
    requires i < |m| && m[i].0 == e.0 && k' != e.0
    ensures Find(m[i := e], k') == Find(m, k')
  {
    var r := m[i := e];
    if i == 0 {
      assert r[1..] == m[1..];
    } else if m[0].0 != k' {
      assert r[0] == m[0];
      assert r[1..] == m[1..][i - 1 := e];
      FindUpdateOther(m[1..], i - 1, e, k');
    }
  }

  lemma {:induction false} FindAppendOther<K(!new), V>(m: Assoc<K, V>, e: (K, V), k': K)
    requires k' != e.0
    ensures Find(m + [e], k') == Find(m, k')
  {
    if |m| > 0 && m[0].0 != k' {
      assert (m + [e])[1..] == m[1..] + [e];
      FindAppendOther(m[1..], e, k');
    }
  }

  /** Appending an entry leaves every key already present where it was. */
  lemma {:induction false} GetSnoc<K(!new), V>(m: Assoc<K, V>, e: (K, V), k: K)
    ensures Get(m + [e], k) == if k in Keys(m) then Get(m, k) else if k == e.0 then Some(e.1) else None
  {
    if k in Keys(m) {
      var i := Find(m, k).value;
      FindFirst(m + [e], k, i);
    } else if k == e.0 {
      FindFirst(m + [e], k, |m|);
    } else {
      assert Keys(m + [e]) == Keys(m) + [e.0];
    }
  }

  /** The keys of `ks` in first-appearance order, each once. */
  function Distinct<K(==,!new)>(ks: seq<K>): (d: seq<K>)
    ensures forall k :: k in d <==> k in ks
    ensures forall i, j :: 0 <= i < j < |d| ==> d[i] != d[j]
  {
    if |ks| == 0 then []
    else
      var d := Distinct(ks[..|ks| - 1]);
      assert forall k :: k in ks <==> k in ks[..|ks| - 1] || k == ks[|ks| - 1];
      if ks[|ks| - 1] in d then d else d + [ks[|ks| - 1]]
  }

  /** `hash.merge!(other)`, one `Put` per entry of `other`, left to right. */
  function Merge<K(==,!new), V>(m: Assoc<K, V>, n: Assoc<K, V>): (r: Assoc<K, V>)
    ensures UniqueKeys(m) ==> UniqueKeys(r)
    ensures |r| >= |m| && Keys(r)[..|m|] == Keys(m)
    ensures forall k :: k in Keys(r) <==> k in Keys(m) || k in Keys(n)
    ensures forall k :: k !in Keys(n) ==> Get(r, k) == Get(m, k)
  {
    if |n| == 0 then m
    else
      var n0 := n[..|n| - 1];
      var e := n[|n| - 1];
      assert Keys(n) == Keys(n0) + [e.0];
      Put(Merge(m, n0), e.0, e.1)
  }

  /** The elements of `ks` that are not in `present`, in order. */
  function MissingFrom<K(==,!new)>(ks: seq<K>, present: seq<K>): seq<K>
  {
    if |ks| == 0 then []
    else (if ks[0] in present then [] else [ks[0]]) + MissingFrom(ks[1..], present)
  }

  lemma {:induction false} MissingFromAppend<K(!new)>(a: seq<K>, b: seq<K>, present: seq<K>)
    ensures MissingFrom(a + b, present) == MissingFrom(a, present) + MissingFrom(b, present)
  {
    if |a| > 0 {
      assert (a + b)[1..] == a[1..] + b;
      MissingFromAppend(a[1..], b, present);
    } else {
      assert a + b == b;
    }
  }

  /** Merging appends the keys it has not seen before, in first-appearance order, after the
      keys already present, whose positions do not change. */
  lemma {:induction false} MergeKeyOrder<K(!new), V>(m: Assoc<K, V>, n: Assoc<K, V>)
    ensures Keys(Merge(m, n)) == Keys(m) + Distinct(MissingFrom(Keys(n), Keys(m)))
    decreases |n|
  {
    if |n| == 0 {
      assert Keys(n) == [];
    } else {
      var n0 := n[..|n| - 1];
      var e := n[|n| - 1];
      assert Keys(n) == Keys(n0) + [e.0];
      MergeKeyOrder(m, n0);
      MissingFromAppend(Keys(n0), [e.0], Keys(m));
      var miss0 := MissingFrom(Keys(n0), Keys(m));
      var r0 := Merge(m, n0);
      assert Merge(m, n) == Put(r0, e.0, e.1);
      var d0 := Distinct(miss0);
      assert Keys(r0) == Keys(m) + d0;
      if e.0 in Keys(m) {
        assert MissingFrom([e.0], Keys(m)) == [];
        assert MissingFrom(Keys(n), Keys(m)) == miss0;
        assert e.0 in Keys(r0);
      } else {
        assert MissingFrom([e.0], Keys(m)) == [e.0];
        assert MissingFrom(Keys(n), Keys(m)) == miss0 + [e.0];
        MergeKeyOrderNew(Keys(m), miss0, Keys(r0), e.0);
      }
    }
  }

  lemma {:induction false} MergeKeyOrderNew<K(!new)>(km: seq<K>, miss0: seq<K>, kr0: seq<K>, k: K)
    requires kr0 == km + Distinct(miss0) && k !in km
    ensures (if k in kr0 then kr0 else kr0 + [k]) == km + Distinct(miss0 + [k])
  {
    DistinctSnoc(miss0, k);
    var d0 := Distinct(miss0);
    assert k in kr0 <==> k in d0 by {
      assert k in kr0 <==> k in km || k in d0;
    }
    if k in d0 {
      assert Distinct(miss0 + [k]) == d0;
    } else {
      assert Distinct(miss0 + [k]) == d0 + [k];
      assert km + (d0 + [k]) == (km + d0) + [k];
    }
  }

  lemma {:induction false} DistinctSnoc<K(!new)>(xs: seq<K>, y: K)
    ensures Distinct(xs + [y]) == if y in Distinct(xs) then Distinct(xs) else Distinct(xs) + [y]
  {
    assert (xs + [y])[..|xs|] == xs;
  }

  lemma {:induction false} MissingFromMembers<K(!new)>(ks: seq<K>, present: seq<K>, k: K)
    requires k !in present
    ensures k in MissingFrom(ks, present) <==> k in ks
  {
    if |ks| > 0 {
      MissingFromMembers(ks[1..], present, k);
      assert ks == [ks[0]] + ks[1..];
    }
  }

  /** When `other` has unique keys (it is itself a Hash), merging makes every one of its keys
      map to its value there. */
  lemma {:induction false} MergeOverrides<K(!new), V>(m: Assoc<K, V>, n: Assoc<K, V>, k: K)
    requires UniqueKeys(n) && k in Keys(n)
    ensures Get(Merge(m, n), k) == Get(n, k)
  {
    MergeGetsLast(m, n, k);
    LastValueUnique(n, k);
  }

  lemma {:induction false} LastValueUnique<K(!new), V>(ps: seq<(K, V)>, k: K)
    requires UniqueKeys(ps) && k in Keys(ps)
    ensures LastValue(ps, k) == Get(ps, k)
    decreases |ps|
  {
    var p0 := ps[..|ps| - 1];
    assert Keys(ps) == Keys(p0) + [ps[|ps| - 1].0];
    if ps[|ps| - 1].0 != k {
      LastValueUnique(p0, k);
      var j :| 0 <= j < |p0| && Keys(p0)[j] == k;
      assert p0[j] == ps[j];
    }
  }

  /** `pairs.to_h`: later pairs override earlier ones under the same key. */
  function FromPairs<K(==,!new), V>(ps: seq<(K, V)>): (r: Assoc<K, V>)
    ensures UniqueKeys(r)
    ensures Keys(r) == Distinct(Keys(ps))
    ensures forall k :: Get(r, k) == LastValue(ps, k)
  {
    FromPairsFacts(ps);
    Merge([], ps)
  }

  lemma {:induction false} FromPairsFacts<K(!new), V>(ps: seq<(K, V)>)
    ensures Keys(Merge([], ps)) == Distinct(Keys(ps))
    ensures forall k :: Get(Merge([], ps), k) == LastValue(ps, k)
  {
    MissingFromEmpty(Keys(ps));
    MergeKeyOrder([], ps);
    forall k ensures Get(Merge([], ps), k) == LastValue(ps, k) {
      if k in Keys(ps) {
        MergeGetsLast([], ps, k);
      }
    }
  }

  lemma {:induction false} MissingFromEmpty<K(!new)>(ks: seq<K>)
    ensures MissingFrom(ks, []) == ks
  {
    if |ks| > 0 {
      MissingFromEmpty(ks[1..]);
      assert ks == [ks[0]] + ks[1..];
    }
  }

  /** The value of the LAST pair under `k` (the one `to_h` and `merge!` keep). */
  function LastValue<K(==,!new), V>(ps: seq<(K, V)>, k: K): (r: Option<V>)
    ensures r.Some? <==> k in Keys(ps)
  {
    if |ps| == 0 then None
    else if ps[|ps| - 1].0 == k then Some(ps[|ps| - 1].1)
    else
      assert Keys(ps) == Keys(ps[..|ps| - 1]) + [ps[|ps| - 1].0];
      LastValue(ps[..|ps| - 1], k)
  }

  /** An entry that no later entry overrides is the one a key reads as. */
  lemma {:induction false} LastValueAt<K(!new), V>(ps: seq<(K, V)>, i: nat)
    requires i < |ps| && forall j :: i < j < |ps| ==> ps[j].0 != ps[i].0
    ensures LastValue(ps, ps[i].0) == Some(ps[i].1)
    decreases |ps|
  {
    if i < |ps| - 1 {
      var init := ps[..|ps| - 1];
      assert forall j :: i < j < |init| ==> init[j] == ps[j];
      LastValueAt(init, i);
    }
  }

  lemma {:induction false} LastValueSnoc<K(!new), V>(ps: seq<(K, V)>, e: (K, V), k: K)
    ensures Keys(ps + [e]) == Keys(ps) + [e.0]
    ensures LastValue(ps + [e], k) == if e.0 == k then Some(e.1) else LastValue(ps, k)
  {
    assert (ps + [e])[..|ps|] == ps;
  }

  lemma {:induction false} MergeGetsLast<K(!new), V>(m: Assoc<K, V>, ps: seq<(K, V)>, k: K)
    requires k in Keys(ps)
    ensures Get(Merge(m, ps), k) == LastValue(ps, k)
    decreases |ps|
  {
    var p0 := ps[..|ps| - 1];
    assert Keys(ps) == Keys(p0) + [ps[|ps| - 1].0];
    if ps[|ps| - 1].0 != k {
      MergeGetsLast(m, p0, k);
    }
  }

  /** Elements of `xs` whose key is `k`, in order. */
  function Select<K(==,!new), X>(xs: seq<X>, key: X -> K, k: K): (r: seq<X>)
    ensures |r| <= |xs|
    ensures forall x :: x in r ==> x in xs && key(x) == k
  {
    if |xs| == 0 then []
    else
      var r := Select(xs[..|xs| - 1], key, k);
      if key(xs[|xs| - 1]) == k then r + [xs[|xs| - 1]] else r
  }

  function MapKeys<K, X>(xs: seq<X>, key: X -> K): (ks: seq<K>)
    ensures |ks| == |xs|
    ensures forall i :: 0 <= i < |xs| ==> ks[i] == key(xs[i])
  {
    seq(|xs|, i requires 0 <= i < |xs| => key(xs[i]))
  }

  /** Append `x` to the group under `k`, opening the group at the end if it is new. */
  function AppendAt<K(==,!new), X>(g: Assoc<K, seq<X>>, k: K, x: X): (r: Assoc<K, seq<X>>)
    ensures Keys(r) == if k in Keys(g) then Keys(g) else Keys(g) + [k]
    ensures forall i :: 0 <= i < |g| && g[i].0 != k ==> r[i] == g[i]
    ensures UniqueKeys(g) ==> forall i :: 0 <= i < |r| && r[i].0 == k ==> r[i].1 == Get(g, k).GetOr([]) + [x]
    ensures UniqueKeys(g) ==> UniqueKeys(r)
  {
    match Find(g, k)
    case Some(i) => g[i := (k, g[i].1 + [x])]
    case None => g + [(k, [x])]
  }

  /** `xs.group_by(&key)`: one group per distinct key in first-appearance order, each group
      holding that key's elements in their original order. */
  function GroupBy<K(==,!new), X>(xs: seq<X>, key: X -> K): (g: Assoc<K, seq<X>>)
    ensures UniqueKeys(g)
    ensures Keys(g) == Distinct(MapKeys(xs, key))
    ensures forall i :: 0 <= i < |g| ==> g[i].1 == Select(xs, key, g[i].0)
  {
    if |xs| == 0 then []
    else
      var xs0 := xs[..|xs| - 1];
      var x := xs[|xs| - 1];
      var g0 := GroupBy(xs0, key);
      assert xs == xs0 + [x];
      GroupByStep(xs0, x, key, g0);
      AppendAt(g0, key(x), x)
  }

  lemma {:induction false} GroupByStep<K(!new), X>(xs0: seq<X>, x: X, key: X -> K, g0: Assoc<K, seq<X>>)
    requires UniqueKeys(g0) && Keys(g0) == Distinct(MapKeys(xs0, key))
    requires forall i :: 0 <= i < |g0| ==> g0[i].1 == Select(xs0, key, g0[i].0)
    ensures var g := AppendAt(g0, key(x), x);
      UniqueKeys(g) && Keys(g) == Distinct(MapKeys(xs0 + [x], key)) &&
      forall i :: 0 <= i < |g| ==> g[i].1 == Select(xs0 + [x], key, g[i].0)
  {
    var xs := xs0 + [x];
    assert MapKeys(xs, key) == MapKeys(xs0, key) + [key(x)];
    DistinctSnoc(MapKeys(xs0, key), key(x));
    assert xs[..|xs| - 1] == xs0;
    var g := AppendAt(g0, key(x), x);
    forall i | 0 <= i < |g| ensures g[i].1 == Select(xs, key, g[i].0) {
      if g[i].0 == key(x) && key(x) in Keys(g0) {
        var j :| 0 <= j < |g0| && Keys(g0)[j] == key(x);
        assert g0[j].0 == key(x);
      } else if g[i].0 == key(x) {
        SelectAbsent(xs0, key, key(x));
      } else {
        assert i < |g0|;
      }
    }
  }

  lemma {:induction false} SelectAbsent<K(!new), X>(xs: seq<X>, key: X -> K, k: K)
    requires k !in MapKeys(xs, key)
    ensures Select(xs, key, k) == []
  {
    if |xs| > 0 {
      assert MapKeys(xs, key) == MapKeys(xs[..|xs| - 1], key) + [key(xs[|xs| - 1])];
      SelectAbsent(xs[..|xs| - 1], key, k);
    }
  }

  /** Every element lands in exactly one group, so the group sizes add up to the input size. */
  function TotalSize<K, X>(g: Assoc<K, seq<X>>): nat {
    if |g| == 0 then 0 else TotalSize(g[..|g| - 1]) + |g[|g| - 1].1|
  }

  lemma {:induction false} GroupByPartitions<K(!new), X>(xs: seq<X>, key: X -> K)
    ensures TotalSize(GroupBy(xs, key)) == |xs|
    decreases |xs|
  {
    if |xs| > 0 {
      var xs0 := xs[..|xs| - 1];
      var x := xs[|xs| - 1];
      var g0 := GroupBy(xs0, key);
      GroupByPartitions(xs0, key);
      AppendAtSize(g0, key(x), x);
    }
  }

  lemma {:induction false} AppendAtSize<K(!new), X>(g: Assoc<K, seq<X>>, k: K, x: X)
    ensures TotalSize(AppendAt(g, k, x)) == TotalSize(g) + 1
  {
    match Find(g, k)
    case None =>
      assert AppendAt(g, k, x)[..|g|] == g;
    case Some(i) =>
      TotalSizeUpdate(g, i, (k, g[i].1 + [x]));
  }

  lemma {:induction false} TotalSizeUpdate<K(!new), X>(g: Assoc<K, seq<X>>, i: nat, e: (K, seq<X>))
    requires i < |g|
    ensures TotalSize(g[i := e]) == TotalSize(g) - |g[i].1| + |e.1|
    decreases |g|
  {
    var n := |g| - 1;
    if i < n {
      assert g[i := e][..n] == g[..n][i := e];
      TotalSizeUpdate(g[..n], i, e);
    } else {
      assert g[i := e][..n] == g[..n];
    }
  }
}

=== FILE: post_formatter.dfy ===
/** `Analysis::PostFormatter`: each entry's records flattened, its confidence boosted, its
    best version chosen; then confidences adjusted for implications and exclusions, and the
    entries ranked. */
module PostFormatter {
  import opened Wrappers
  import opened OrderedHash
  import opened RubyArray
  import opened RubyNumeric
  import opened RuleParser
  import opened Builder
  import opened Formatter

  /** The `field` of a flattened record: where evidence was found, which kind of synthetic
      record it is, or any other name a pattern's own `field` attribute gave it. */
  datatype Origin = Matched(field: Field) | Synthetic(kind: Reference) | Other(name: string)

  /** A field's name as records carry it (`field.to_s`). */
  function FieldName(f: Field): string {
    match f
    case Js => "js"
    case Url => "url"
    case Headers => "headers"
    case Cookies => "cookies"
    case Html => "html"
    case Css => "css"
    case CertIssuer => "cert_issuer"
    case Robots => "robots"
    case Meta => "meta"
    case Scripts => "scripts"
    case Implies => "implies"
    case Excludes => "excludes"
  }

  /** The string a record's `field` holds. */
  function OriginName(o: Origin): string {
    match o
    case Matched(f) => FieldName(f)
    case Synthetic(Implied) => "implied"
    case Synthetic(Excluded) => "excluded"
    case Other(name) => name
  }

  /** The origin a `field` string stands for. Comparing origins is comparing these strings:
      every name reads back as itself, and each field or kind has exactly one name. */
  function OriginOf(name: string): (o: Origin)
    ensures OriginName(o) == name
  {
    if name == "implied" then Synthetic(Implied)
    else if name == "excluded" then Synthetic(Excluded)
    else if name == "js" then Matched(Js)
    else if name == "url" then Matched(Url)
    else if name == "headers" then Matched(Headers)
    else if name == "cookies" then Matched(Cookies)
    else if name == "html" then Matched(Html)
    else if name == "css" then Matched(Css)
    else if name == "cert_issuer" then Matched(CertIssuer)
    else if name == "robots" then Matched(Robots)
    else if name == "meta" then Matched(Meta)
    else if name == "scripts" then Matched(Scripts)
    else if name == "implies" then Matched(Implies)
    else if name == "excludes" then Matched(Excludes)
    else Other(name)
  }

  /** Reading a field's or a kind's name gives that field or kind back. */
  lemma {:induction false} OriginOfName(o: Origin)
    requires !o.Other?
    ensures OriginOf(OriginName(o)) == o
  {
  }

  /** A record's flattened form: the key, the field, the pattern's confidence and the resolved
      version (never the pattern's template). */
  datatype Flat = Flat(key: Option<string>, origin: Origin, confidence: int, version: Option<string>)

  /** An entry as post-formatting leaves it. */
  datatype Report = Report(
    name: string, confidence: int, versions: seq<string>, bestVersion: Option<string>,
    tech: Option<Tech>, raw: seq<Flat>, implied: bool)

  /** A record as detection or the resolver stored it, before its pattern is merged in. */
  function Recorded(r: Raw): (f: Flat)
    ensures f.confidence == Confidence(r) && f.version == RawVersion(r)
    ensures f.origin.Synthetic? <==> r.Referred?
  {
    match r
    case Found(key, field, p, v) => Flat(key, Matched(field), p.confidence, v)
    case Referred(referrer, kind, c) => Flat(Some(referrer), Synthetic(kind), c, None)
  }

  /** The attributes a record's pattern carries beyond the four every pattern has; the
      pattern of a synthetic record holds only a confidence and a blank template. */
  function ExtraOf(r: Raw): Assoc<string, string> {
    if r.Found? then r.pattern.extra else []
  }

  /** The attribute `name` of a pattern (`pattern[name]`). */
  function Attr(extra: Assoc<string, string>, name: string): Option<string> {
    if |extra| == 0 then None
    else if extra[0].0 == name then Some(extra[0].1)
    else Attr(extra[1..], name)
  }

  lemma {:induction false} AttrIsGet(extra: Assoc<string, string>, name: string)
    ensures Attr(extra, name) == Get(extra, name)
    decreases |extra|
  {
    if |extra| > 0 && extra[0].0 != name {
      AttrIsGet(extra[1..], name);
      match Find(extra[1..], name)
      case None =>
        assert Find(extra, name).None?;
      case Some(i) =>
        assert Find(extra, name) == Some(i + 1);
        assert extra[i + 1] == extra[1..][i];
    }
  }

  /** A `field` or `key` attribute merged over the record's own. */
  function Overridden(f: Flat, extra: Assoc<string, string>): Flat {
    var origin := match Attr(extra, "field") case Some(name) => OriginOf(name) case None => f.origin;
    var key := match Attr(extra, "key") case Some(k) => Some(k) case None => f.key;
    f.(origin := origin, key := key)
  }

  /** `r.except('pattern').merge(r['pattern']).merge('version' => r['version'])`: the
      pattern's attributes merged over the record, so a signature's own `field` or `key`
      attribute replaces the record's; the template gives way to the resolved version, which
      synthetic records do not have. */
  function Flatten(r: Raw): (f: Flat)
    ensures f.confidence == Confidence(r) && f.version == RawVersion(r)
  {
    Overridden(Recorded(r), ExtraOf(r))
  }

  /** The flattened record's `field` is the string its pattern's `field` attribute holds,
      else the record's own; likewise its `key`. A synthetic record is left as stored. */
  lemma {:induction false} FlattenMergesPattern(r: Raw)
    ensures OriginName(Flatten(r).origin) == Get(ExtraOf(r), "field").GetOr(OriginName(Recorded(r).origin))
    ensures Flatten(r).key == if "key" in Keys(ExtraOf(r)) then Get(ExtraOf(r), "key") else Recorded(r).key
    ensures r.Referred? ==> Flatten(r) == Recorded(r)
  {
    AttrIsGet(ExtraOf(r), "field");
    AttrIsGet(ExtraOf(r), "key");
  }

  /** A match whose signature carries `field:implied` flattens to an implied record. */
  lemma {:induction false} RelabelledAsImplied(r: Raw)
    requires r.Found? && Get(r.pattern.extra, "field") == Some("implied")
    ensures Flatten(r).origin == Synthetic(Implied)
  {
    AttrIsGet(r.pattern.extra, "field");
  }

  function FlattenAll(raw: seq<Raw>): (fs: seq<Flat>)
    ensures |fs| == |raw| && forall i :: 0 <= i < |raw| ==> fs[i] == Flatten(raw[i])
  {
    MapSeq(raw, Flatten)
  }

  // ---------------------------------------------------------------- boost

  /** How many elements satisfy `p` (`count { … }`). */
  function Count<T>(xs: seq<T>, p: T -> bool): nat {
    if |xs| == 0 then 0 else Count(xs[..|xs| - 1], p) + (if p(xs[|xs| - 1]) then 1 else 0)
  }

  /** A record that is neither implied nor excluded, with confidence zero. */
  predicate IsZeroMatch(r: Flat) {
    !r.origin.Synthetic? && r.confidence == 0
  }

  predicate IsPositiveMatch(r: Flat) {
    !r.origin.Synthetic? && r.confidence > 0
  }

  /** `pure_confidence`: synthetic records count for nothing. */
  function Pure(r: Flat): int {
    if r.origin.Synthetic? then 0 else r.confidence
  }

  function PureSum(raw: seq<Flat>): int {
    if |raw| == 0 then 0 else PureSum(raw[..|raw| - 1]) + Pure(raw[|raw| - 1])
  }

  /** `boosted_confidence`: the sum of the matches' confidences, plus 25 for every
      zero-confidence match once some match has a positive confidence. */
  function Boosted(raw: seq<Flat>): int {
    (if Count(raw, IsPositiveMatch) > 0 then 25 * Count(raw, IsZeroMatch) else 0) + PureSum(raw)
  }

  /** Appending one record, split into its effect on the counts and on the sum. */
  lemma {:induction false} BoostedSnoc(raw: seq<Flat>, x: Flat)
    ensures Count(raw + [x], IsZeroMatch) == Count(raw, IsZeroMatch) + (if IsZeroMatch(x) then 1 else 0)
    ensures Count(raw + [x], IsPositiveMatch) == Count(raw, IsPositiveMatch) + (if IsPositiveMatch(x) then 1 else 0)
    ensures PureSum(raw + [x]) == PureSum(raw) + Pure(x)
  {
    assert (raw + [x])[..|raw|] == raw;
  }

  /** The boost depends only on which records are synthetic and on the confidences. */
  lemma {:induction false} BoostedByClass(a: seq<Flat>, b: seq<Flat>)
    requires |a| == |b|
    requires forall i :: 0 <= i < |a| ==> a[i].origin.Synthetic? == b[i].origin.Synthetic? && a[i].confidence == b[i].confidence
    ensures Boosted(a) == Boosted(b)
  {
    BoostPartsByClass(a, b);
  }

  lemma {:induction false} BoostPartsByClass(a: seq<Flat>, b: seq<Flat>)
    requires |a| == |b|
    requires forall i :: 0 <= i < |a| ==> a[i].origin.Synthetic? == b[i].origin.Synthetic? && a[i].confidence == b[i].confidence
    ensures Count(a, IsZeroMatch) == Count(b, IsZeroMatch)
    ensures Count(a, IsPositiveMatch) == Count(b, IsPositiveMatch)
    ensures PureSum(a) == PureSum(b)
    decreases |a|
  {
    if |a| > 0 {
      BoostPartsByClass(a[..|a| - 1], b[..|b| - 1]);
    }
  }

  /** Synthetic records never change the boosted confidence. */
  lemma {:induction false} BoostedIgnoresSynthetic(raw: seq<Flat>, x: Flat)
    requires x.origin.Synthetic?
    ensures Boosted(raw + [x]) == Boosted(raw)
  {
    BoostedSnoc(raw, x);
  }

  /** Once some match is positive, each further zero-confidence match adds exactly 25. */
  lemma {:induction false} ZeroMatchAddsBoost(raw: seq<Flat>, x: Flat)
    requires Count(raw, IsPositiveMatch) > 0 && IsZeroMatch(x)
    ensures Boosted(raw + [x]) == Boosted(raw) + 25
  {
    BoostedSnoc(raw, x);
  }

  /** Without a positive match, zero-confidence matches earn nothing; the first positive
      match releases the boost for all of them at once. */
  lemma {:induction false} FirstPositiveReleasesBoost(raw: seq<Flat>, x: Flat)
    requires Count(raw, IsPositiveMatch) == 0 && IsPositiveMatch(x)
    ensures Boosted(raw) == PureSum(raw)
    ensures Boosted(raw + [x]) == PureSum(raw) + x.confidence + 25 * Count(raw, IsZeroMatch)
  {
    BoostedSnoc(raw, x);
  }

  /** Records that are neither implied nor excluded once flattened, none with confidence
      zero, keep the formatter's plain sum: the boost only ever rewards zero-confidence
      matches. */
  lemma {:induction false} BoostedIsFormatterSum(raw: seq<Raw>)
    requires forall i :: 0 <= i < |raw| ==> !Flatten(raw[i]).origin.Synthetic? && Confidence(raw[i]) != 0
    ensures Boosted(FlattenAll(raw)) == SumOfConfidence(raw)
    ensures Count(FlattenAll(raw), IsZeroMatch) == 0
    decreases |raw|
  {
    if |raw| > 0 {
      var init := raw[..|raw| - 1];
      BoostedIsFormatterSum(init);
      assert FlattenAll(raw) == FlattenAll(init) + [Flatten(raw[|raw| - 1])];
      BoostedSnoc(FlattenAll(init), Flatten(raw[|raw| - 1]));
    }
  }

  /** `collect_versions` on the flattened records: the non-blank resolved versions. */
  function FlatVersions(raw: seq<Flat>): seq<string> {
    if |raw| == 0 then []
    else
      var v := raw[|raw| - 1].version;
      FlatVersions(raw[..|raw| - 1]) + (if Counted(v) then [v.value] else [])
  }

  /** Flattening keeps the versions the formatter collected. */
  lemma {:induction false} FlatVersionsKept(raw: seq<Raw>)
    ensures FlatVersions(FlattenAll(raw)) == CollectVersions(raw)
    decreases |raw|
  {
    if |raw| > 0 {
      var init := raw[..|raw| - 1];
      FlatVersionsKept(init);
      assert FlattenAll(raw)[..|raw| - 1] == FlattenAll(init);
    }
  }

  // ---------------------------------------------------------------- best version

  /** Entry `i` of a tally is strictly above every other. */
  predicate Dominates(t: Assoc<string, int>, i: nat)
    requires i < |t|
  {
    forall j :: 0 <= j < |t| && j != i ==> t[j].1 < t[i].1
  }

  function MaxValue(t: Assoc<string, int>): (m: int)
    requires |t| > 0
    ensures forall j :: 0 <= j < |t| ==> t[j].1 <= m
    ensures exists j :: 0 <= j < |t| && t[j].1 == m
  {
    if |t| == 1 then t[0].1
    else
      var init := t[..|t| - 1];
      assert forall j :: 0 <= j < |init| ==> init[j] == t[j];
      var m := MaxValue(init);
      if t[|t| - 1].1 > m then t[|t| - 1].1 else m
  }

  /** How many entries carry `m`. */
  function CountAt(t: Assoc<string, int>, m: int): nat {
    if |t| == 0 then 0 else CountAt(t[..|t| - 1], m) + (if t[|t| - 1].1 == m then 1 else 0)
  }

  lemma {:induction false} CountAtOne(t: Assoc<string, int>, m: int, i: nat)
    requires i < |t| && t[i].1 == m && forall j :: 0 <= j < |t| && j != i ==> t[j].1 != m
    ensures CountAt(t, m) == 1
    decreases |t|
  {
    var n := |t| - 1;
    if i < n {
      CountAtNone(t[..n], m, i);
      CountAtOne(t[..n], m, i);
    } else {
      CountAtNone(t[..n], m, n);
    }
  }

  lemma {:induction false} CountAtNone(t: Assoc<string, int>, m: int, skip: nat)
    requires forall j :: 0 <= j < |t| && j != skip ==> t[j].1 != m
    ensures skip >= |t| ==> CountAt(t, m) == 0
    decreases |t|
  {
    if |t| > 0 && skip >= |t| {
      CountAtNone(t[..|t| - 1], m, skip);
    }
  }

  lemma {:induction false} CountAtTwo(t: Assoc<string, int>, m: int, i: nat, j: nat)
    requires i < j < |t| && t[i].1 == m && t[j].1 == m
    ensures CountAt(t, m) >= 2
    decreases |t|
  {
    var n := |t| - 1;
    if j < n {
      CountAtTwo(t[..n], m, i, j);
    } else {
      CountAtPositive(t[..n], m, i);
    }
  }

  lemma {:induction false} CountAtPositive(t: Assoc<string, int>, m: int, i: nat)
    requires i < |t| && t[i].1 == m
    ensures CountAt(t, m) >= 1
    decreases |t|
  {
    if i < |t| - 1 {
      CountAtPositive(t[..|t| - 1], m, i);
    }
  }

  /** Position of the first entry carrying `m`. */
  function FirstAt(t: Assoc<string, int>, m: int): (i: nat)
    requires exists j :: 0 <= j < |t| && t[j].1 == m
    ensures i < |t| && t[i].1 == m
  {
    if t[0].1 == m then 0
    else
      assert exists j :: 0 <= j < |t[1..]| && t[1..][j].1 == m by {
        var j :| 0 <= j < |t| && t[j].1 == m;
        assert t[1..][j - 1] == t[j];
      }
      FirstAt(t[1..], m) + 1
  }

  /** `find_best_version_by_grouping`'s choice: the key whose tally is the maximum, when
      only one has it. */
  function UniqueMax(t: Assoc<string, int>): (r: Option<string>)
    ensures r.Some? <==> exists i :: 0 <= i < |t| && Dominates(t, i)
    ensures r.Some? ==> exists i :: 0 <= i < |t| && Dominates(t, i) && t[i].0 == r.value
  {
    if |t| == 0 then None
    else
      var m := MaxValue(t);
      UniqueMaxFacts(t, m);
      if CountAt(t, m) == 1 then Some(t[FirstAt(t, m)].0) else None
  }

  lemma {:induction false} UniqueMaxFacts(t: Assoc<string, int>, m: int)
    requires |t| > 0 && m == MaxValue(t)
    ensures CountAt(t, m) == 1 ==> Dominates(t, FirstAt(t, m))
    ensures (exists i :: 0 <= i < |t| && Dominates(t, i)) ==> CountAt(t, m) == 1
  {
    if CountAt(t, m) == 1 {
      var i := FirstAt(t, m);
      forall j | 0 <= j < |t| && j != i ensures t[j].1 < t[i].1 {
        if t[j].1 == m {
          if i < j { CountAtTwo(t, m, i, j); } else { CountAtTwo(t, m, j, i); }
        }
      }
    }
    if exists i :: 0 <= i < |t| && Dominates(t, i) {
      var i :| 0 <= i < |t| && Dominates(t, i);
      var w :| 0 <= w < |t| && t[w].1 == m;
      assert t[i].1 == m;
      CountAtOne(t, m, i);
    }
  }

  /** At most one entry dominates. */
  lemma {:induction false} DominatesUnique(t: Assoc<string, int>, i: nat, j: nat)
    requires i < |t| && j < |t| && Dominates(t, i) && Dominates(t, j)
    ensures i == j
  {
    assert t[j].1 < t[i].1 || j == i;
    assert t[i].1 < t[j].1 || i == j;
  }

  /** The entry that dominates is the one picked. */
  lemma {:induction false} DominatorIsPick(t: Assoc<string, int>, i: nat)
    requires i < |t| && Dominates(t, i)
    ensures UniqueMax(t) == Some(t[i].0)
  {
    var k :| 0 <= k < |t| && Dominates(t, k) && t[k].0 == UniqueMax(t).value;
    DominatesUnique(t, i, k);
  }

  function VersionOf(r: Flat): string {
    r.version.GetOr("")
  }

  /** `raw.select { |r| r['version'] && (!field || r['field'] == field) }`. */
  function Candidates(raw: seq<Flat>, field: Option<Field>): (c: seq<Flat>)
    ensures forall r :: r in c <==> r in raw && r.version.Some? && (field.None? || r.origin == Matched(field.value))
  {
    Filter(raw, (r: Flat) => r.version.Some? && (field.None? || r.origin == Matched(field.value)))
  }

  function Total(rs: seq<Flat>): int {
    if |rs| == 0 then 0 else Total(rs[..|rs| - 1]) + rs[|rs| - 1].confidence
  }

  function Size(rs: seq<Flat>): int {
    |rs|
  }

  /** Each group's tally under `weigh`. */
  function Tally(g: Assoc<string, seq<Flat>>, weigh: seq<Flat> -> int): (t: Assoc<string, int>)
    ensures |t| == |g| && forall i :: 0 <= i < |g| ==> t[i] == (g[i].0, weigh(g[i].1))
  {
    seq(|g|, i requires 0 <= i < |g| => (g[i].0, weigh(g[i].1)))
  }

  /** `find_best_version_via_field`: among the versioned records (of `field`, if given), the
      version with the unique greatest summed confidence, else the unique most frequent. */
  function ViaField(raw: seq<Flat>, field: Option<Field>): Option<string> {
    var g := GroupBy(Candidates(raw, field), VersionOf);
    match UniqueMax(Tally(g, Total))
    case Some(v) => Some(v)
    case None => UniqueMax(Tally(g, Size))
  }

  /** The first record with a version. */
  function FirstVersion(raw: seq<Flat>): (v: Option<string>)
    ensures v.Some? <==> exists i :: 0 <= i < |raw| && raw[i].version.Some?
    ensures v.Some? ==> exists i :: 0 <= i < |raw| && raw[i].version == v && forall j :: 0 <= j < i ==> raw[j].version.None?
  {
    if |raw| == 0 then None
    else if raw[0].version.Some? then raw[0].version
    else
      var v := FirstVersion(raw[1..]);
      assert forall i :: 1 <= i < |raw| ==> raw[1..][i - 1] == raw[i];
      v
  }

  /** `find_best_version`: all versioned records, then those found in `js`, then those in
      `scripts`, then simply the first version. */
  function BestVersion(raw: seq<Flat>): Option<string> {
    var all := ViaField(raw, None);
    if all.Some? then all
    else
      var js := ViaField(raw, Some(Js));
      if js.Some? then js
      else
        var scripts := ViaField(raw, Some(Scripts));
        if scripts.Some? then scripts
        else FirstVersion(raw)
  }

  /** Every group key is the version of some candidate, and so of some record. */
  lemma {:induction false} GroupKeyIsVersion(raw: seq<Flat>, field: Option<Field>, v: string)
    requires v in Keys(GroupBy(Candidates(raw, field), VersionOf))
    ensures exists k :: 0 <= k < |raw| && raw[k].version == Some(v)
  {
    var c := Candidates(raw, field);
    var j :| 0 <= j < |c| && MapKeys(c, VersionOf)[j] == v;
    assert c[j] in raw;
    var k :| 0 <= k < |raw| && raw[k] == c[j];
  }

  /** A key `UniqueMax` picks from a tally of the groups is a group key. */
  lemma {:induction false} TallyPickIsKey(g: Assoc<string, seq<Flat>>, weigh: seq<Flat> -> int)
    requires UniqueMax(Tally(g, weigh)).Some?
    ensures UniqueMax(Tally(g, weigh)).value in Keys(g)
  {
    var t := Tally(g, weigh);
    var i :| 0 <= i < |t| && Dominates(t, i) && t[i].0 == UniqueMax(t).value;
    assert Keys(g)[i] == t[i].0;
  }

  /** Whatever the grouping picks is a version some record has. */
  lemma {:induction false} ViaFieldPicksCandidate(raw: seq<Flat>, field: Option<Field>)
    ensures ViaField(raw, field).Some? ==> exists i :: 0 <= i < |raw| && raw[i].version == ViaField(raw, field)
  {
    var g := GroupBy(Candidates(raw, field), VersionOf);
    if UniqueMax(Tally(g, Total)).Some? {
      TallyPickIsKey(g, Total);
      GroupKeyIsVersion(raw, field, UniqueMax(Tally(g, Total)).value);
    } else if UniqueMax(Tally(g, Size)).Some? {
      TallyPickIsKey(g, Size);
      GroupKeyIsVersion(raw, field, UniqueMax(Tally(g, Size)).value);
    }
  }

  /** There is a best version exactly when some record has a version, and it is one of
      theirs. */
  lemma {:induction false} BestVersionIsAVersion(raw: seq<Flat>)
    ensures BestVersion(raw).Some? <==> exists i :: 0 <= i < |raw| && raw[i].version.Some?
    ensures BestVersion(raw).Some? ==> exists i :: 0 <= i < |raw| && raw[i].version == BestVersion(raw)
  {
    ViaFieldPicksCandidate(raw, None);
    ViaFieldPicksCandidate(raw, Some(Js));
    ViaFieldPicksCandidate(raw, Some(Scripts));
  }

  /** The summed confidence of the versioned records carrying `v`. */
  function Weight(raw: seq<Flat>, v: string): int {
    Total(Select(Candidates(raw, None), VersionOf, v))
  }

  /** A version whose records' confidences add up to more than any other version's is the
      best version. */
  lemma {:induction false} HeaviestVersionWins(raw: seq<Flat>, v: string)
    requires exists i :: 0 <= i < |raw| && raw[i].version == Some(v)
    requires forall j :: 0 <= j < |raw| && raw[j].version.Some? && raw[j].version != Some(v) ==>
      Weight(raw, raw[j].version.value) < Weight(raw, v)
    ensures BestVersion(raw) == Some(v)
  {
    var c := Candidates(raw, None);
    var g := GroupBy(c, VersionOf);
    var t := Tally(g, Total);
    VersionIsGroupKey(raw, v);
    var i :| 0 <= i < |g| && Keys(g)[i] == v;
    forall j | 0 <= j < |t| && j != i ensures t[j].1 < t[i].1 {
      LighterGroup(raw, v, i, j);
    }
    DominatorIsPick(t, i);
  }

  /** Under the premise of `HeaviestVersionWins`, every other group weighs less than the
      group of `v`. */
  lemma {:induction false} LighterGroup(raw: seq<Flat>, v: string, i: nat, j: nat)
    requires forall j :: 0 <= j < |raw| && raw[j].version.Some? && raw[j].version != Some(v) ==>
      Weight(raw, raw[j].version.value) < Weight(raw, v)
    requires i < |GroupBy(Candidates(raw, None), VersionOf)| && j < |GroupBy(Candidates(raw, None), VersionOf)| && i != j
    requires Keys(GroupBy(Candidates(raw, None), VersionOf))[i] == v
    ensures Tally(GroupBy(Candidates(raw, None), VersionOf), Total)[j].1 < Tally(GroupBy(Candidates(raw, None), VersionOf), Total)[i].1
  {
    var g := GroupBy(Candidates(raw, None), VersionOf);
    var w := g[j].0;
    assert Keys(g)[j] == w && Keys(g)[i] == g[i].0 == v;
    assert w != v;
    GroupKeyIsVersion(raw, None, w);
    var k :| 0 <= k < |raw| && raw[k].version == Some(w);
    assert Weight(raw, w) < Weight(raw, v);
  }

  /** A version some record has is a group key. */
  lemma {:induction false} VersionIsGroupKey(raw: seq<Flat>, v: string)
    requires exists i :: 0 <= i < |raw| && raw[i].version == Some(v)
    ensures v in Keys(GroupBy(Candidates(raw, None), VersionOf))
  {
    var c := Candidates(raw, None);
    var i0 :| 0 <= i0 < |raw| && raw[i0].version == Some(v);
    assert raw[i0] in c;
    var c0 :| 0 <= c0 < |c| && c[c0] == raw[i0];
    assert MapKeys(c, VersionOf)[c0] == v;
  }

  // ---------------------------------------------------------------- adjustment

  /** What makes post-formatting raise: an implied entry whose referrer is not in the data,
      whose confidence is then read from nil. */
  datatype PostCrash = MissingReferrer(key: Option<string>)

  /** `raw.detect { |r| r['field'] == kind }`. */
  function FirstOf(raw: seq<Flat>, kind: Reference): (r: Option<Flat>)
    ensures r.Some? <==> exists i :: 0 <= i < |raw| && raw[i].origin == Synthetic(kind)
    ensures r.Some? ==> r.value in raw && r.value.origin == Synthetic(kind)
  {
    if |raw| == 0 then None
    else if raw[0].origin == Synthetic(kind) then Some(raw[0])
    else
      assert forall i :: 1 <= i < |raw| ==> raw[1..][i - 1] == raw[i];
      FirstOf(raw[1..], kind)
  }

  /** What `detect` finds is the first record of the kind: every record before it is of
      another kind. */
  lemma {:induction false} FirstOfIsFirst(raw: seq<Flat>, kind: Reference)
    requires FirstOf(raw, kind).Some?
    ensures exists i :: 0 <= i < |raw| && raw[i] == FirstOf(raw, kind).value && forall j :: 0 <= j < i ==> raw[j].origin != Synthetic(kind)
  {
    if raw[0].origin != Synthetic(kind) {
      FirstOfIsFirst(raw[1..], kind);
      var i :| 0 <= i < |raw[1..]| && raw[1..][i] == FirstOf(raw[1..], kind).value &&
        forall j :: 0 <= j < i ==> raw[1..][j].origin != Synthetic(kind);
      assert raw[i + 1] == FirstOf(raw, kind).value;
      assert forall j :: 0 <= j < i + 1 ==> raw[j].origin != Synthetic(kind) by {
        forall j | 0 <= j < i + 1 ensures raw[j].origin != Synthetic(kind) {
          if j > 0 { assert raw[j] == raw[1..][j - 1]; }
        }
      }
    } else {
      assert raw[0] == FirstOf(raw, kind).value;
    }
  }

  /** The record names no technology among `keys`. */
  predicate Unknown(keys: seq<string>, ref: Flat) {
    ref.key.None? || ref.key.value !in keys
  }

  /** The entry's first implied record names a technology that is not in the data. */
  predicate Dangling(keys: seq<string>, raw: seq<Flat>) {
    FirstOf(raw, Implied).Some? && Unknown(keys, FirstOf(raw, Implied).value)
  }

  /** Some entry among the first `n` is dangling. */
  predicate AnyDangling(keys: seq<string>, d: Assoc<string, Report>, n: nat)
    requires n <= |d|
  {
    n > 0 && (AnyDangling(keys, d, n - 1) || Dangling(keys, d[n - 1].1.raw))
  }

  lemma {:induction false} AnyDanglingExists(keys: seq<string>, d: Assoc<string, Report>, n: nat)
    requires n <= |d|
    ensures AnyDangling(keys, d, n) <==> exists j :: 0 <= j < n && Dangling(keys, d[j].1.raw)
  {
    if n > 0 {
      AnyDanglingExists(keys, d, n - 1);
    }
  }

  /** `@data[ref['key']]`. */
  function Lookup(d: Assoc<string, Report>, key: Option<string>): (r: Option<Report>)
    ensures r.Some? <==> key.Some? && key.value in Keys(d)
  {
    if key.None? then None else Get(d, key.value)
  }

  /** The referrer's share: the record's confidence times the referrer's, over 100,
      truncated toward zero (`(a * b / 100.0).to_i`). */
  function Share(ref: Flat, referrer: Report): int {
    Hundredth(Mul(ref.confidence, referrer.confidence))
  }

  /** `boost_multiplier_via_referred(raw, 'implied')`: the share from the first implied
      record, read from `d` as it stands; nothing without such a record; a missing
      referrer raises. */
  function Multiplier(d: Assoc<string, Report>, raw: seq<Flat>, kind: Reference): (r: Result<int, PostCrash>)
    ensures r.Failure? <==> FirstOf(raw, kind).Some? && Unknown(Keys(d), FirstOf(raw, kind).value)
    ensures r.Success? && FirstOf(raw, kind).Some? ==> r.value == Share(FirstOf(raw, kind).value, Lookup(d, FirstOf(raw, kind).value.key).value)
    ensures FirstOf(raw, kind).None? ==> r == Success(0)
  {
    match FirstOf(raw, kind)
    case None => Success(0)
    case Some(ref) =>
      match Lookup(d, ref.key)
      case None => Failure(MissingReferrer(ref.key))
      case Some(referrer) => Success(Share(ref, referrer))
  }

  /** `boost_multiplier_via_referred(raw, 'excluded', check: true)`: likewise, but nothing
      when the referrer is missing. */
  function CheckedMultiplier(d: Assoc<string, Report>, raw: seq<Flat>, kind: Reference): (m: int)
    ensures FirstOf(raw, kind).None? || Unknown(Keys(d), FirstOf(raw, kind).value) ==> m == 0
    ensures FirstOf(raw, kind).Some? && !Unknown(Keys(d), FirstOf(raw, kind).value) ==>
      m == Share(FirstOf(raw, kind).value, Lookup(d, FirstOf(raw, kind).value.key).value)
  {
    match FirstOf(raw, kind)
    case None => 0
    case Some(ref) =>
      match Lookup(d, ref.key)
      case None => 0
      case Some(referrer) => Share(ref, referrer)
  }

  /** `adjust_confidence_for_references` on entry `i`: the implied multiplier added, then the
      excluded one taken off (`subtract`) or, as the legacy pass does with its negated
      exclusions, added; each read from the data as it stands at that moment. */
  function AdjustAt(d: Assoc<string, Report>, i: nat, subtract: bool): (r: Result<Assoc<string, Report>, PostCrash>)
    requires i < |d|
    ensures r.Failure? <==> Dangling(Keys(d), d[i].1.raw)
    ensures r.Success? ==> |r.value| == |d| && forall j :: 0 <= j < |d| && j != i ==> r.value[j] == d[j]
    ensures r.Success? ==> r.value[i] == (d[i].0, d[i].1.(confidence := r.value[i].1.confidence))
    ensures r.Success? ==> r.value[i].1.confidence == Settled(d, i, CheckedMultiplier(d, d[i].1.raw, Implied), subtract)
  {
    match Multiplier(d, d[i].1.raw, Implied)
    case Failure(e) => Failure(e)
    case Success(up) =>
      CheckedAgrees(d, d[i].1.raw, Implied);
      Success(d[i := (d[i].0, d[i].1.(confidence := Settled(d, i, up, subtract)))])
  }

  /** Where the unchecked multiplier succeeds, the checked one agrees with it. */
  lemma {:induction false} CheckedAgrees(d: Assoc<string, Report>, raw: seq<Flat>, kind: Reference)
    requires Multiplier(d, raw, kind).Success?
    ensures CheckedMultiplier(d, raw, kind) == Multiplier(d, raw, kind).value
  {
  }

  /** Entry `i`'s confidence once the implied share `up` is added and the excluded share,
      read with that addition in place, is applied. Without an excluded record, or when
      its referrer is missing, only `up` is added; a referrer other than the entry itself
      is read as it stands in `d`; the entry excluding itself reads its raised confidence. */
  function Settled(d: Assoc<string, Report>, i: nat, up: int, subtract: bool): (c: int)
    requires i < |d|
    ensures FirstOf(d[i].1.raw, Excluded).None? || Unknown(Keys(d), FirstOf(d[i].1.raw, Excluded).value) ==>
              c == d[i].1.confidence + up
    ensures FirstOf(d[i].1.raw, Excluded).Some? && !Unknown(Keys(d), FirstOf(d[i].1.raw, Excluded).value)
            && FirstOf(d[i].1.raw, Excluded).value.key != Some(d[i].0) ==>
              var s := Share(FirstOf(d[i].1.raw, Excluded).value, Lookup(d, FirstOf(d[i].1.raw, Excluded).value.key).value);
              c == d[i].1.confidence + up + (if subtract then -s else s)
    ensures UniqueKeys(d) && FirstOf(d[i].1.raw, Excluded).Some? && FirstOf(d[i].1.raw, Excluded).value.key == Some(d[i].0) ==>
              var s := Share(FirstOf(d[i].1.raw, Excluded).value, d[i].1.(confidence := d[i].1.confidence + up));
              c == d[i].1.confidence + up + (if subtract then -s else s)
  {
    var self := d[i].1.(confidence := d[i].1.confidence + up);
    var down := CheckedMultiplier(d[i := (d[i].0, self)], d[i].1.raw, Excluded);
    assert Keys(d)[i] == d[i].0;
    if FirstOf(d[i].1.raw, Excluded).Some? then
      LookupRaised(d, i, self, FirstOf(d[i].1.raw, Excluded).value.key);
      d[i].1.confidence + up + (if subtract then -down else down)
    else
      d[i].1.confidence + up + (if subtract then -down else down)
  }

  /** Raising entry `i` in place changes what a lookup finds only under the entry's own
      name, where (keys being unique) the raised entry is found. */
  lemma {:induction false} LookupRaised(d: Assoc<string, Report>, i: nat, self: Report, key: Option<string>)
    requires i < |d|
    ensures key != Some(d[i].0) ==> Lookup(d[i := (d[i].0, self)], key) == Lookup(d, key)
    ensures UniqueKeys(d) && key == Some(d[i].0) ==> Lookup(d[i := (d[i].0, self)], key) == Some(self)
  {
    if key.Some? && key.value != d[i].0 {
      FindUpdateOther(d, i, (d[i].0, self), key.value);
    } else if key.Some? && UniqueKeys(d) {
      assert Keys(d)[i] == d[i].0;
      assert Find(d, d[i].0) == Some(i);
      PutReplaces(d, i, d[i].0, self);
    }
  }

  /** Entries `0 .. n-1` adjusted in order; the first dangling implication raises. */
  function AdjustUpTo(d: Assoc<string, Report>, n: nat, subtract: bool): (r: Result<Assoc<string, Report>, PostCrash>)
    requires n <= |d|
    ensures r.Failure? <==> AnyDangling(Keys(d), d, n)
    ensures r.Success? ==> |r.value| == |d| && Keys(r.value) == Keys(d)
    ensures r.Success? ==> forall j :: 0 <= j < |d| ==> r.value[j] == (d[j].0, d[j].1.(confidence := r.value[j].1.confidence))
    ensures r.Success? ==> forall j :: n <= j < |d| ==> r.value[j] == d[j]
  {
    if n == 0 then Success(d)
    else
      match AdjustUpTo(d, n - 1, subtract)
      case Failure(e) => Failure(e)
      case Success(d') =>
        AdjustStep(d, d', n - 1, subtract);
        AdjustAt(d', n - 1, subtract)
  }

  /** Step `i` of the pass, on data that differs from `d` only in the confidences of the
      entries before `i`. */
  lemma AdjustStep(d: Assoc<string, Report>, d': Assoc<string, Report>, i: nat, subtract: bool)
    requires i < |d| == |d'| && Keys(d') == Keys(d)
    requires forall j :: 0 <= j < |d| ==> d'[j] == (d[j].0, d[j].1.(confidence := d'[j].1.confidence))
    requires forall j :: i <= j < |d| ==> d'[j] == d[j]
    ensures AdjustAt(d', i, subtract).Failure? <==> Dangling(Keys(d), d[i].1.raw)
    ensures AdjustAt(d', i, subtract).Success? ==> |AdjustAt(d', i, subtract).value| == |d| && Keys(AdjustAt(d', i, subtract).value) == Keys(d)
    ensures AdjustAt(d', i, subtract).Success? ==> forall j :: 0 <= j < |d| ==>
      AdjustAt(d', i, subtract).value[j] == (d[j].0, d[j].1.(confidence := AdjustAt(d', i, subtract).value[j].1.confidence))
    ensures AdjustAt(d', i, subtract).Success? ==> forall j :: i < j < |d| ==> AdjustAt(d', i, subtract).value[j] == d[j]
  {
    var r := AdjustAt(d', i, subtract);
    if r.Success? {
      assert forall j :: 0 <= j < |d| ==> Keys(r.value)[j] == r.value[j].0 == d'[j].0 == Keys(d)[j];
    }
  }

  /** Adjusting all entries, in order. */
  function Adjust(d: Assoc<string, Report>, subtract: bool): (r: Result<Assoc<string, Report>, PostCrash>)
    ensures r.Success? ==> |r.value| == |d| && forall j :: 0 <= j < |d| ==> r.value[j] == (d[j].0, d[j].1.(confidence := r.value[j].1.confidence))
  {
    AdjustUpTo(d, |d|, subtract)
  }

  /** The pass raises exactly when some entry's first implied record names a technology
      that is not in the data. */
  lemma {:induction false} AdjustFailsOnDangling(d: Assoc<string, Report>, subtract: bool)
    ensures Adjust(d, subtract).Failure? <==> exists j :: 0 <= j < |d| && Dangling(Keys(d), d[j].1.raw)
  {
    AnyDanglingExists(Keys(d), d, |d|);
  }

  /** One step of the fold: entry `n - 1` adjusted on top of the first `n - 1`. */
  lemma AdjustUpToStep(d: Assoc<string, Report>, subtract: bool, n: nat)
    requires 0 < n <= |d| && AdjustUpTo(d, n - 1, subtract).Success?
    ensures AdjustUpTo(d, n, subtract) == AdjustAt(AdjustUpTo(d, n - 1, subtract).value, n - 1, subtract)
  {
  }

  /** Once entry `j` is adjusted, later steps leave it alone. */
  lemma {:induction false} AdjustUpToSettles(d: Assoc<string, Report>, subtract: bool, j: nat, n: nat)
    requires j < n <= |d| && AdjustUpTo(d, n, subtract).Success?
    ensures AdjustUpTo(d, j + 1, subtract).Success?
    ensures AdjustUpTo(d, n, subtract).value[j] == AdjustUpTo(d, j + 1, subtract).value[j]
    decreases n
  {
    if n > j + 1 {
      AdjustUpToKeeps(d, subtract, j, n);
      AdjustUpToSettles(d, subtract, j, n - 1);
    }
  }

  /** Step `n - 1` of a pass leaves an earlier entry `j` as the previous steps left it. */
  lemma AdjustUpToKeeps(d: Assoc<string, Report>, subtract: bool, j: nat, n: nat)
    requires j + 1 < n <= |d| && AdjustUpTo(d, n, subtract).Success?
    ensures AdjustUpTo(d, n - 1, subtract).Success?
    ensures AdjustUpTo(d, n, subtract).value[j] == AdjustUpTo(d, n - 1, subtract).value[j]
  {
    AdjustUpToPrevious(d, subtract, n);
  }

  /** A pass over `n` entries that finishes has finished its first `n - 1` steps. */
  lemma AdjustUpToPrevious(d: Assoc<string, Report>, subtract: bool, n: nat)
    requires 0 < n <= |d| && AdjustUpTo(d, n, subtract).Success?
    ensures AdjustUpTo(d, n - 1, subtract).Success?
    ensures AdjustUpTo(d, n, subtract) == AdjustAt(AdjustUpTo(d, n - 1, subtract).value, n - 1, subtract)
  {
  }

  /** Entry `i` of the finished pass is entry `i` as the step that adjusts it leaves it,
      applied to the data as the earlier steps left it. */
  lemma {:induction false} AdjustSettledAt(d: Assoc<string, Report>, subtract: bool, i: nat)
    requires i < |d| && Adjust(d, subtract).Success?
    ensures AdjustUpTo(d, i, subtract).Success?
    ensures AdjustUpTo(d, i, subtract).value[i] == d[i]
    ensures AdjustAt(AdjustUpTo(d, i, subtract).value, i, subtract).Success?
    ensures Adjust(d, subtract).value[i] == AdjustAt(AdjustUpTo(d, i, subtract).value, i, subtract).value[i]
  {
    AdjustUpToSettles(d, subtract, i, |d|);
    AdjustUpToStep(d, subtract, i + 1);
  }

  /** A step on an entry without synthetic records changes nothing. */
  lemma AdjustAtUnreferenced(d: Assoc<string, Report>, i: nat, subtract: bool)
    requires i < |d|
    requires FirstOf(d[i].1.raw, Implied).None? && FirstOf(d[i].1.raw, Excluded).None?
    ensures AdjustAt(d, i, subtract) == Success(d)
  {
    assert d[i := (d[i].0, d[i].1.(confidence := d[i].1.confidence))] == d;
  }

  /** An entry with no synthetic records keeps its confidence. */
  lemma {:induction false} AdjustKeepsUnreferenced(d: Assoc<string, Report>, subtract: bool, i: nat)
    requires i < |d| && Adjust(d, subtract).Success?
    requires FirstOf(d[i].1.raw, Implied).None? && FirstOf(d[i].1.raw, Excluded).None?
    ensures Adjust(d, subtract).value[i] == d[i]
  {
    AdjustSettledAt(d, subtract, i);
    AdjustAtUnreferenced(AdjustUpTo(d, i, subtract).value, i, subtract);
  }

  /** The data as the step on entry `i` of the finished pass `r` reads it: the entries ahead
      of `i` already adjusted, entry `i` itself as `self`, the rest as they came in. */
  function LiveView(d: Assoc<string, Report>, r: Assoc<string, Report>, i: nat, self: Report): (v: Assoc<string, Report>)
    requires |r| == |d| && i < |d|
    ensures |v| == |d| && v[i] == (d[i].0, self)
    ensures forall j :: 0 <= j < i ==> v[j] == r[j]
    ensures forall j :: i < j < |d| ==> v[j] == d[j]
  {
    r[..i] + [(d[i].0, self)] + d[i + 1..]
  }

  /** Entry `i` of the view replaced, the view of another `self`. */
  lemma {:induction false} LiveViewAt(d: Assoc<string, Report>, r: Assoc<string, Report>, i: nat, self: Report)
    requires |r| == |d| && i < |d|
    ensures LiveView(d, r, i, d[i].1)[i := (d[i].0, self)] == LiveView(d, r, i, self)
  {
  }

  /** Both shares are read live. The implied one is read from the data with the entries
      ahead of `i` adjusted and the rest, `i` included, untouched; the excluded one likewise,
      but with the implied share already added to entry `i` itself. */
  lemma {:induction false} AdjustReadsLive(d: Assoc<string, Report>, subtract: bool, i: nat, r: Assoc<string, Report>, up: int, down: int)
    requires i < |d| && Adjust(d, subtract) == Success(r)
    requires up == LiveShare(d, r, i, d[i].1, Implied)
    requires down == LiveShare(d, r, i, d[i].1.(confidence := d[i].1.confidence + up), Excluded)
    ensures r[i].1.confidence == d[i].1.confidence + up + (if subtract then -down else down)
  {
    AdjustOnView(d, subtract, i, r);
    SettledOnView(d, r, i, subtract, up);
  }

  /** Entry `i` of the finished pass is the step on entry `i` applied to the live view. */
  lemma {:induction false} AdjustOnView(d: Assoc<string, Report>, subtract: bool, i: nat, r: Assoc<string, Report>)
    requires i < |d| && Adjust(d, subtract) == Success(r)
    ensures |r| == |d|
    ensures r[i].1.confidence == Settled(LiveView(d, r, i, d[i].1), i, LiveShare(d, r, i, d[i].1, Implied), subtract)
  {
    AdjustSettledAt(d, subtract, i);
    var s := AdjustUpTo(d, i, subtract).value;
    forall j | 0 <= j < |d| ensures s[j] == LiveView(d, r, i, d[i].1)[j] {
      AdjustSeenBefore(d, subtract, i, j);
    }
    assert s == LiveView(d, r, i, d[i].1);
  }

  /** The share a synthetic record of `kind` on entry `i` contributes, read from the live
      view with entry `i` itself as `self`. */
  function LiveShare(d: Assoc<string, Report>, r: Assoc<string, Report>, i: nat, self: Report, kind: Reference): int
    requires |r| == |d| && i < |d|
  {
    CheckedMultiplier(LiveView(d, r, i, self), d[i].1.raw, kind)
  }

  /** The step on entry `i`, applied to the live view, settles as the view reads: the
      excluded share is read with entry `i` raised by the implied share `up`. */
  lemma {:induction false} SettledOnView(d: Assoc<string, Report>, r: Assoc<string, Report>, i: nat, subtract: bool, up: int)
    requires |r| == |d| && i < |d|
    ensures var down := LiveShare(d, r, i, d[i].1.(confidence := d[i].1.confidence + up), Excluded);
      Settled(LiveView(d, r, i, d[i].1), i, up, subtract) == d[i].1.confidence + up + (if subtract then -down else down)
  {
    var s := LiveView(d, r, i, d[i].1);
    var self := d[i].1.(confidence := d[i].1.confidence + up);
    assert s[i] == d[i];
    var raised := s[i := (s[i].0, s[i].1.(confidence := s[i].1.confidence + up))];
    assert raised == LiveView(d, r, i, self) by {
      assert raised == s[i := (d[i].0, self)];
      LiveViewAt(d, r, i, self);
    }
    SettledRaised(s, i, up, subtract);
  }

  /** `Settled` spelled out: the excluded share is read with entry `i` raised by `up`. */
  lemma {:induction false} SettledRaised(d: Assoc<string, Report>, i: nat, up: int, subtract: bool)
    requires i < |d|
    ensures var down := CheckedMultiplier(d[i := (d[i].0, d[i].1.(confidence := d[i].1.confidence + up))], d[i].1.raw, Excluded);
      Settled(d, i, up, subtract) == d[i].1.confidence + up + (if subtract then -down else down)
  {
  }

  /** The share a synthetic record contributes, named by its referrer `j`: the referrer's
      adjusted confidence when it comes ahead of the entry, `self` when it is the entry,
      and its incoming confidence when it comes later. */
  lemma {:induction false} LiveShareOf(d: Assoc<string, Report>, r: Assoc<string, Report>, i: nat, self: Report,
                                       kind: Reference, j: nat, ref: Flat)
    requires UniqueKeys(d) && |r| == |d| && Keys(r) == Keys(d) && i < |d| && j < |d|
    requires FirstOf(d[i].1.raw, kind) == Some(ref) && ref.key == Some(d[j].0)
    ensures CheckedMultiplier(LiveView(d, r, i, self), d[i].1.raw, kind) ==
      Share(ref, if j < i then r[j].1 else if j == i then self else d[j].1)
  {
    var v := LiveView(d, r, i, self);
    assert Keys(v) == Keys(d) by {
      forall a | 0 <= a < |d| ensures Keys(v)[a] == Keys(d)[a] {
        if a < i { assert v[a].0 == Keys(r)[a]; }
      }
    }
    LookupSameKeys(d, v, j);
  }

  /** On data with the keys of `d`, which has no repeated key, the key of entry `j` reads
      as entry `j`. */
  lemma {:induction false} LookupSameKeys(d: Assoc<string, Report>, s: Assoc<string, Report>, j: nat)
    requires UniqueKeys(d) && j < |d| && |s| == |d| && Keys(s) == Keys(d)
    ensures Lookup(s, Some(d[j].0)) == Some(s[j].1)
  {
    assert UniqueKeys(s) by {
      forall a, b | 0 <= a < b < |s| ensures s[a].0 != s[b].0 {
        assert s[a].0 == Keys(s)[a] == Keys(d)[a] == d[a].0;
        assert s[b].0 == Keys(s)[b] == Keys(d)[b] == d[b].0;
      }
    }
    assert s[j].0 == Keys(s)[j] == Keys(d)[j] == d[j].0;
  }

  /** Before entry `i` is adjusted, the entries ahead of it hold their final values and the
      rest their original ones. */
  lemma {:induction false} AdjustSeenBefore(d: Assoc<string, Report>, subtract: bool, i: nat, j: nat)
    requires i < |d| && j < |d| && Adjust(d, subtract).Success?
    ensures AdjustUpTo(d, i, subtract).Success?
    ensures AdjustUpTo(d, i, subtract).value[j] == if j < i then Adjust(d, subtract).value[j] else d[j]
  {
    AdjustUpToSettles(d, subtract, i, |d|);
    if j < i {
      AdjustUpToSettles(d, subtract, j, |d|);
      AdjustUpToSettles(d, subtract, j, i);
    }
  }

  /** A matching signature that carries `field:implied` but no `key`, on a field without
      keys such as `html`, makes post-formatting raise: its record is read as an implication
      whose referrer, nil, is not in the data. */
  lemma {:induction false} RelabelledImplicationRaises(d: Assoc<string, Entry>, j: nat)
    requires j < |d| && |d[j].1.raw| > 0
    requires d[j].1.raw[0].Found? && d[j].1.raw[0].key.None?
    requires Get(d[j].1.raw[0].pattern.extra, "field") == Some("implied") && "key" !in Keys(d[j].1.raw[0].pattern.extra)
    ensures PostProcess(d).Failure?
  {
    var r := d[j].1.raw[0];
    var flat := FlattenAll(d[j].1.raw);
    RelabelledAsImplied(r);
    FlattenMergesPattern(r);
    assert flat[0] == Flatten(r);
    assert FirstOf(flat, Implied) == Some(Flatten(r));
    assert Dangling(Keys(d), flat);
  }

  // ---------------------------------------------------------------- ranking

  /** `confidence / (implied ? 1.5 : 1)`, the sort key, as Ruby computes it. */
  function SortKey(r: Report): real {
    if r.implied then r.confidence as real / 1.5 else r.confidence as real
  }

  /** The sort key times three, which keeps it an integer. */
  function Rank(r: Report): int {
    if r.implied then 2 * r.confidence else 3 * r.confidence
  }

  /** Scaling by three keeps the order of the sort keys. */
  lemma {:induction false} RankScalesSortKey(a: Report, b: Report)
    ensures Rank(a) as real == 3.0 * SortKey(a)
    ensures Rank(a) <= Rank(b) <==> SortKey(a) <= SortKey(b)
  {
  }

  /** Highest key first. */
  predicate Ranked(xs: seq<Report>) {
    forall i, j :: 0 <= i < j < |xs| ==> Rank(xs[i]) >= Rank(xs[j])
  }

  function Insert(x: Report, xs: seq<Report>): (r: seq<Report>)
    requires Ranked(xs)
    ensures Ranked(r) && multiset(r) == multiset(xs) + multiset{x}
    ensures |r| > 0 && (r[0] == x || (|xs| > 0 && r[0] == xs[0]))
  {
    if |xs| == 0 || Rank(x) >= Rank(xs[0]) then
      RankedCons(x, xs);
      [x] + xs
    else
      var rest := Insert(x, xs[1..]);
      assert xs == [xs[0]] + xs[1..];
      RankedCons(xs[0], rest);
      [xs[0]] + rest
  }

  /** A report that ranks at least as high as the head of a ranked list can go in front. */
  lemma RankedCons(h: Report, t: seq<Report>)
    requires Ranked(t) && (|t| == 0 || Rank(h) >= Rank(t[0]))
    ensures Ranked([h] + t)
  {
    forall i, j | 0 <= i < j < |t| + 1 ensures Rank(([h] + t)[i]) >= Rank(([h] + t)[j]) {
      if i == 0 && j > 1 {
        assert Rank(t[0]) >= Rank(t[j - 1]);
      }
    }
  }

  /** `sort_by { |info| -key }`: a permutation in non-increasing order of the key. Ruby's
      sort is not stable, so the order among equal keys is not part of the contract. */
  function Rankings(xs: seq<Report>): (r: seq<Report>)
    ensures Ranked(r) && multiset(r) == multiset(xs)
  {
    if |xs| == 0 then []
    else
      assert xs == xs[..|xs| - 1] + [xs[|xs| - 1]];
      Insert(xs[|xs| - 1], Rankings(xs[..|xs| - 1]))
  }

  // ---------------------------------------------------------------- the pass

  /** `boost_confidence_and_transform` on one entry: its records flattened, its name and
      technology kept; the versions are those the formatter collected, the best version is
      one of the records' versions and exists exactly when some record has one, and without
      zero confidences or implied and excluded records the confidence is the formatter's
      plain sum. */
  function Transform(e: Entry): (r: Report)
    ensures r.name == e.name && r.tech == e.tech && r.implied == e.implied
    ensures |r.raw| == |e.raw| && forall i :: 0 <= i < |e.raw| ==> r.raw[i] == Flatten(e.raw[i])
    ensures r.versions == CollectVersions(e.raw)
    ensures r.bestVersion.Some? <==> exists i :: 0 <= i < |e.raw| && RawVersion(e.raw[i]).Some?
    ensures r.bestVersion.Some? ==> exists i :: 0 <= i < |e.raw| && RawVersion(e.raw[i]) == r.bestVersion
    ensures (forall i :: 0 <= i < |e.raw| ==> !Flatten(e.raw[i]).origin.Synthetic? && Confidence(e.raw[i]) != 0) ==>
      r.confidence == SumOfConfidence(e.raw)
  {
    var raw := FlattenAll(e.raw);
    FlatVersionsKept(e.raw);
    BestVersionOfRecords(e.raw);
    assert (forall i :: 0 <= i < |e.raw| ==> !Flatten(e.raw[i]).origin.Synthetic? && Confidence(e.raw[i]) != 0) ==>
      Boosted(raw) == SumOfConfidence(e.raw) by {
      if forall i :: 0 <= i < |e.raw| ==> !Flatten(e.raw[i]).origin.Synthetic? && Confidence(e.raw[i]) != 0 {
        BoostedIsFormatterSum(e.raw);
      }
    }
    Report(e.name, Boosted(raw), FlatVersions(raw), BestVersion(raw), e.tech, raw, e.implied)
  }

  /** `BestVersionIsAVersion` read on the records before flattening. */
  lemma {:induction false} BestVersionOfRecords(raw: seq<Raw>)
    ensures BestVersion(FlattenAll(raw)).Some? <==> exists i :: 0 <= i < |raw| && RawVersion(raw[i]).Some?
    ensures BestVersion(FlattenAll(raw)).Some? ==> exists i :: 0 <= i < |raw| && RawVersion(raw[i]) == BestVersion(FlattenAll(raw))
  {
    var flat := FlattenAll(raw);
    BestVersionIsAVersion(flat);
    assert forall i :: 0 <= i < |raw| ==> flat[i].version == RawVersion(raw[i]);
  }

  function TransformAll(d: Assoc<string, Entry>): (r: Assoc<string, Report>)
    ensures |r| == |d| && forall i :: 0 <= i < |d| ==> r[i] == (d[i].0, Transform(d[i].1))
    ensures Keys(r) == Keys(d)
  {
    var r := seq(|d|, i requires 0 <= i < |d| => (d[i].0, Transform(d[i].1)));
    assert forall i :: 0 <= i < |d| ==> Keys(r)[i] == Keys(d)[i];
    r
  }

  /** `PostFormatter#process`: every entry reported once, ranked by key; raises exactly when
      some entry's first implied record names a technology that is not in the data. */
  function PostProcess(d: Assoc<string, Entry>): (r: Result<seq<Report>, PostCrash>)
    ensures r.Failure? <==> exists j :: 0 <= j < |d| && Dangling(Keys(d), FlattenAll(d[j].1.raw))
    ensures r.Success? ==> |r.value| == |d| && Ranked(r.value)
    ensures r.Success? <==> Adjust(TransformAll(d), true).Success?
    ensures r.Success? ==> multiset(r.value) == multiset(Values(Adjust(TransformAll(d), true).value))
  {
    var t := TransformAll(d);
    AdjustFailsOnDangling(t, true);
    var a :- Adjust(t, true);
    var out := Rankings(Values(a));
    assert |out| == |multiset(out)| == |multiset(Values(a))| == |d|;
    Success(out)
  }
}

=== FILE: processor.dfy ===
/** The detection pass (`Analysis::Processor`): every technology's compiled patterns are run
    against one snapshot of a page, and each pattern that matches yields one piece of
    evidence. The regex engine and the version resolver are parameters. */
module Processor {
  import opened Wrappers
  import opened OrderedHash
  import opened RubyString
  import opened RubyArray
  import opened Regex
  import opened RuleParser
  import opened Builder
  import opened VersionTemplate

  /** A value read from a snapshot: a string, a number or boolean taken from a script
      global, or nil. */
  datatype Value = Str(s: string) | Num(n: int) | Bool(b: bool) | Nil

  /** A keyed part of a snapshot (`cookies`, `meta`, `headers`, or one technology's `js`):
      each key with its values, in order. */
  type KeyedData = Assoc<string, seq<Value>>

  /** The page data `process` reads. `scalars` holds `url`, `html`, `css`, `robots` and
      `cert_issuer`, `scripts` the script sources, `keyed` the keyed parts; whatever is
      missing reads as nil. `js` maps a technology's name to the script globals read for it
      (the `js` entry of its part); `None` is a snapshot without a `js` part at all. */
  datatype Snapshot = Snapshot(
    scalars: map<Field, Value>,
    scripts: Option<seq<Value>>,
    keyed: map<Field, KeyedData>,
    js: Option<Assoc<string, KeyedData>>)

  /** What makes `process` raise. */
  datatype Crash =
    | InvalidRegex(source: string)     // `Regexp.new` rejects the source
    | NotMatchable(value: Value)       // `Regexp#match` given `true`, `false` or a number
    | ShapeMismatch(field: Field)      // a keyed field iterated as a list, or the reverse
    | NoJsData                         // the snapshot has no `js` part

  /** One match: the key it was found under (keyed fields only), the technology, the field,
      the pattern, and the version the pattern's template resolved to, if any. */
  datatype Evidence = Evidence(key: Option<string>, tech: Tech, field: Field, pattern: Pattern, version: Option<string>)

  /** How a version template is resolved against the groups of a match. */
  type Resolver = (string, Captures) -> string

  /** `MAPPING` flattened in order: the one-to-one fields, `scripts`, then the keyed ones. */
  const Mapping: seq<Field> := [Url, Html, Css, Robots, CertIssuer, Scripts, Cookies, Meta, Headers, Js]

  predicate OneToOneField(f: Field) {
    f == Url || f == Html || f == Css || f == Robots || f == CertIssuer
  }

  predicate ManyToManyField(f: Field) {
    f == Cookies || f == Meta || f == Headers || f == Js
  }

  /** `value` is truthy and, unless it is `true` itself, matches: when
      `add_tech_if_regex_match` reports. A number never matches a regex. */
  predicate Hit(e: Engine, p: Pattern, value: Value) {
    value == Bool(true) || (value.Str? && Matches(e, p.regex, value.s))
  }

  /** `version_for`: nothing for a blank template; otherwise the template resolved against
      the groups of the match, or nothing when the value does not match. */
  function VersionFor(e: Engine, p: Pattern, value: Value, resolve: Resolver): (r: Result<Option<string>, Crash>)
    ensures r.Failure? <==> Strip(p.version) != "" && (value.Bool? || value.Num?)
    ensures Strip(p.version) == "" ==> r == Success(None)
    ensures r.Success? && r.value.Some? ==>
      value.Str? && e.exec(p.regex, value.s).Some? && r.value.value == resolve(p.version, e.exec(p.regex, value.s).value)
    ensures value.Str? && Strip(p.version) != "" ==> r.Success? && (r.value.Some? <==> Matches(e, p.regex, value.s))
  {
    if Strip(p.version) == "" then Success(None)
    else
      match value
      case Str(s) =>
        (match e.exec(p.regex, s)
         case None => Success(None)
         case Some(caps) => Success(Some(resolve(p.version, caps))))
      case Nil => Success(None)
      case _ => Failure(NotMatchable(value))
  }

  /** `add_tech_if_regex_match`, with its `nil` as no evidence: the regex is compiled first,
      whatever the value; evidence is reported exactly on a hit. */
  function AddIfMatch(e: Engine, f: Field, p: Pattern, tech: Tech, value: Value, key: Option<string>, resolve: Resolver)
    : (r: Result<seq<Evidence>, Crash>)
    ensures r.Failure? <==> !e.compiles(p.regex) || (value == Bool(true) && Strip(p.version) != "")
    ensures r.Failure? && !e.compiles(p.regex) ==> r.error == InvalidRegex(p.regex)
    ensures r.Success? ==> (|r.value| == 1 <==> Hit(e, p, value)) && |r.value| <= 1
    ensures r.Success? ==> MapSeq(r.value, Unversioned) == HitOf(e, tech, f, key, value)(p)
    ensures r.Success? ==> forall ev :: ev in r.value ==>
      ev.key == key && ev.tech == tech && ev.field == f && ev.pattern == p && Hit(e, p, value)
    ensures r.Success? && |r.value| == 1 && r.value[0].version.Some? ==> value.Str? && Strip(p.version) != ""
  {
    if !e.compiles(p.regex) then Failure(InvalidRegex(p.regex))
    else if value == Nil || value == Bool(false) then Success([])
    else if value != Bool(true) && !(value.Str? && Matches(e, p.regex, value.s)) then Success([])
    else
      var v :- VersionFor(e, p, value, resolve);
      assert MapSeq([Evidence(key, tech, f, p, v)], Unversioned) == [Evidence(key, tech, f, p, None)];
      Success([Evidence(key, tech, f, p, v)])
  }

  /** The pattern a piece of evidence was found with. */
  function PatternOf(ev: Evidence): Pattern {
    ev.pattern
  }

  /** Evidence with the resolved version left out. */
  function Unversioned(ev: Evidence): Evidence {
    ev.(version := None)
  }

  /** `tech[field].map { |pattern| add_tech_if_regex_match(…, value) }`: a keyed field with
      entries cannot be iterated as patterns. */
  function ForValue(e: Engine, tech: Tech, f: Field, value: Value, resolve: Resolver): (r: Result<seq<Evidence>, Crash>)
    ensures tech.fields.At(f).Keyed? ==> r == (if |tech.fields.At(f).entries| == 0 then Success([]) else Failure(ShapeMismatch(f)))
    ensures tech.fields.At(f).Listed? ==>
      var ps := tech.fields.At(f).patterns;
      (r.Success? <==> forall i :: 0 <= i < |ps| ==> AddIfMatch(e, f, ps[i], tech, value, None, resolve).Success?)
    ensures r.Success? ==> forall ev :: ev in r.value ==>
      ev.key.None? && ev.tech == tech && ev.field == f && tech.fields.At(f).Listed? &&
      ev.pattern in tech.fields.At(f).patterns && Hit(e, ev.pattern, value)
    ensures r.Success? ==> MapSeq(r.value, Unversioned) == FlatMap(ListedPatterns(tech.fields.At(f)), HitOf(e, tech, f, None, value))
  {
    match tech.fields.At(f)
    case Keyed(entries) => if |entries| == 0 then Success([]) else Failure(ShapeMismatch(f))
    case Listed(ps) =>
      var r := FlatMapAll(ps, TryPattern(e, tech, f, None, value, resolve));
      assert r.Success? ==> MapSeq(r.value, Unversioned) == FlatMap(ps, HitOf(e, tech, f, None, value)) by {
        if r.Success? {
          FlatMapAllProj(ps, TryPattern(e, tech, f, None, value, resolve), Unversioned, HitOf(e, tech, f, None, value));
        }
      }
      r
  }

  /** `add_tech_if_regex_match` for each pattern in turn against one value. */
  function TryPattern(e: Engine, tech: Tech, f: Field, key: Option<string>, value: Value, resolve: Resolver)
    : Pattern -> Result<seq<Evidence>, Crash>
  {
    p => AddIfMatch(e, f, p, tech, value, key, resolve)
  }

  /** `add_tech_if_regex_match` for one keyed pattern against each value in turn. */
  function TryValue(e: Engine, tech: Tech, f: Field, key: string, p: Pattern, resolve: Resolver)
    : Value -> Result<seq<Evidence>, Crash>
  {
    v => AddIfMatch(e, f, p, tech, v, Some(key), resolve)
  }

  /** The patterns of a listed field that report for `value` are exactly those that hit it,
      in the field's order. */
  lemma {:induction false} ForValueSelectsHits(e: Engine, tech: Tech, f: Field, value: Value, resolve: Resolver)
    requires tech.fields.At(f).Listed? && ForValue(e, tech, f, value, resolve).Success?
    ensures MapSeq(ForValue(e, tech, f, value, resolve).value, PatternOf)
         == Filter(tech.fields.At(f).patterns, p => Hit(e, p, value))
  {
    var ps := tech.fields.At(f).patterns;
    var add := TryPattern(e, tech, f, None, value, resolve);
    var keep := p => Hit(e, p, value);
    forall i | 0 <= i < |ps| && add(ps[i]).Success?
      ensures MapSeq(add(ps[i]).value, PatternOf) == (if keep(ps[i]) then [ps[i]] else [])
    {
      var out := add(ps[i]).value;
      if keep(ps[i]) {
        assert |out| == 1 && out[0] in out;
      } else {
        assert |out| == 0;
      }
    }
    FlatMapAllFilter(ps, add, PatternOf, keep);
  }

  /** `one_to_many`: every value of the list (a missing list reads as empty), each run
      through all the field's patterns. */
  function ForValues(e: Engine, tech: Tech, f: Field, values: seq<Value>, resolve: Resolver): (r: Result<seq<Evidence>, Crash>)
    ensures r.Success? <==> forall i :: 0 <= i < |values| ==> ForValue(e, tech, f, values[i], resolve).Success?
    ensures |values| == 0 ==> r == Success([])
    ensures r.Success? ==> forall ev :: ev in r.value ==>
      ev.key.None? && ev.tech == tech && ev.field == f && tech.fields.At(f).Listed? &&
      ev.pattern in tech.fields.At(f).patterns && exists i :: 0 <= i < |values| && Hit(e, ev.pattern, values[i])
    ensures r.Success? ==> MapSeq(r.value, Unversioned) == FlatMap(values, ValueHits(e, tech, f, ListedPatterns(tech.fields.At(f))))
  {
    var r := FlatMapAll(values, ValueStep(e, tech, f, resolve));
    assert r.Success? ==> MapSeq(r.value, Unversioned) == FlatMap(values, ValueHits(e, tech, f, ListedPatterns(tech.fields.At(f)))) by {
      if r.Success? {
        FlatMapAllProj(values, ValueStep(e, tech, f, resolve), Unversioned, ValueHits(e, tech, f, ListedPatterns(tech.fields.At(f))));
      }
    }
    r
  }

  function ValueStep(e: Engine, tech: Tech, f: Field, resolve: Resolver): Value -> Result<seq<Evidence>, Crash> {
    v => ForValue(e, tech, f, v, resolve)
  }

  /** The values of every entry whose key matches the regex `key`, in order. */
  function ValuesUnder(e: Engine, key: string, d: KeyedData): (vs: seq<Value>)
    ensures forall v :: v in vs <==> exists i :: 0 <= i < |d| && Matches(e, key, d[i].0) && v in d[i].1
  {
    if |d| == 0 then []
    else
      var init := d[..|d| - 1];
      var (k, values) := d[|d| - 1];
      assert forall i :: 0 <= i < |init| ==> init[i] == d[i];
      ValuesUnder(e, key, init) + (if Matches(e, key, k) then values else [])
  }

  /** The values a keyed pattern is matched against: those stored under `key` itself, or,
      for a pattern marked `key_regex`, those of every key the regex `key` matches. */
  function Selected(e: Engine, key: string, p: Pattern, d: KeyedData): seq<Value> {
    if KeyIsRegex(p) then ValuesUnder(e, key, d) else Get(d, key).GetOr([])
  }

  /** `select_items_for_maybe_regex_key`: the values stored under `key` itself, or, for a
      pattern marked `key_regex`, the values of every key the regex `key` matches (the regex
      is compiled once per entry, so only a nonempty part can make it raise). */
  function SelectItems(e: Engine, key: string, p: Pattern, d: KeyedData): (r: Result<seq<Value>, Crash>)
    ensures r.Success? ==> r.value == Selected(e, key, p, d)
    ensures !KeyIsRegex(p) ==> r == Success(Get(d, key).GetOr([]))
    ensures KeyIsRegex(p) ==> (r.Failure? <==> |d| > 0 && !e.compiles(key))
    ensures KeyIsRegex(p) && r.Success? ==>
      forall v :: v in r.value <==> exists i :: 0 <= i < |d| && Matches(e, key, d[i].0) && v in d[i].1
  {
    if !KeyIsRegex(p) then Success(Get(d, key).GetOr([]))
    else if |d| > 0 && !e.compiles(key) then Failure(InvalidRegex(key))
    else Success(ValuesUnder(e, key, d))
  }

  /** Some value the pattern is matched against under `key` hits it. */
  predicate KeyedHit(e: Engine, key: string, p: Pattern, d: KeyedData) {
    exists v :: v in Selected(e, key, p, d) && Hit(e, p, v)
  }

  /** One pattern of a keyed field: its items, each matched and reported under `key`. */
  function ForKeyedPattern(e: Engine, tech: Tech, f: Field, key: string, p: Pattern, d: KeyedData, resolve: Resolver)
    : (r: Result<seq<Evidence>, Crash>)
    ensures r.Success? ==> forall ev :: ev in r.value ==>
      ev.key == Some(key) && ev.tech == tech && ev.field == f && ev.pattern == p && KeyedHit(e, key, p, d)
    ensures r.Success? ==> MapSeq(r.value, Unversioned) == PatternHits(e, tech, f, key, d)(p)
  {
    var items :- SelectItems(e, key, p, d);
    var add := TryValue(e, tech, f, key, p, resolve);
    var r := FlatMapAll(items, add);
    assert r.Success? ==> MapSeq(r.value, Unversioned) == PatternHits(e, tech, f, key, d)(p) by {
      if r.Success? {
        FlatMapAllProj(items, add, Unversioned, ItemHits(e, tech, f, key, p));
      }
    }
    assert r.Success? ==> forall ev :: ev in r.value ==> KeyedHit(e, key, p, d) by {
      if r.Success? {
        forall ev | ev in r.value ensures KeyedHit(e, key, p, d) {
          var i :| 0 <= i < |items| && add(items[i]).Success? && ev in add(items[i]).value;
          assert items[i] in Selected(e, key, p, d) && Hit(e, p, items[i]);
        }
      }
    }
    r
  }

  /** `tech` carries `p` under `key` in the keyed field `f`. */
  predicate KeyedPattern(tech: Tech, f: Field, key: string, p: Pattern) {
    tech.fields.At(f).Keyed? &&
    exists i :: 0 <= i < |tech.fields.At(f).entries| &&
      tech.fields.At(f).entries[i].0 == key && p in tech.fields.At(f).entries[i].1
  }

  function ForEntry(e: Engine, tech: Tech, f: Field, entry: (string, seq<Pattern>), d: KeyedData, resolve: Resolver)
    : (r: Result<seq<Evidence>, Crash>)
    ensures r.Success? ==> forall ev :: ev in r.value ==>
      ev.key == Some(entry.0) && ev.tech == tech && ev.field == f && ev.pattern in entry.1 &&
      KeyedHit(e, entry.0, ev.pattern, d)
    ensures r.Success? ==> MapSeq(r.value, Unversioned) == EntryHits(e, tech, f, d)(entry)
  {
    var r := FlatMapAll(entry.1, KeyedPatternStep(e, tech, f, entry.0, d, resolve));
    assert r.Success? ==> MapSeq(r.value, Unversioned) == EntryHits(e, tech, f, d)(entry) by {
      if r.Success? {
        FlatMapAllProj(entry.1, KeyedPatternStep(e, tech, f, entry.0, d, resolve), Unversioned, PatternHits(e, tech, f, entry.0, d));
      }
    }
    r
  }

  function KeyedPatternStep(e: Engine, tech: Tech, f: Field, key: string, d: KeyedData, resolve: Resolver)
    : Pattern -> Result<seq<Evidence>, Crash>
  {
    p => ForKeyedPattern(e, tech, f, key, p, d, resolve)
  }

  function EntryStep(e: Engine, tech: Tech, f: Field, d: KeyedData, resolve: Resolver)
    : ((string, seq<Pattern>)) -> Result<seq<Evidence>, Crash>
  {
    (en: (string, seq<Pattern>)) => ForEntry(e, tech, f, en, d, resolve)
  }

  /** `many_to_many`: nothing when the part is missing; otherwise every key of the field's
      map, every pattern under it, every item it selects. A listed field with patterns cannot
      be iterated as a map. */
  function ForKeyed(e: Engine, tech: Tech, f: Field, data: Option<KeyedData>, resolve: Resolver): (r: Result<seq<Evidence>, Crash>)
    ensures data.None? ==> r == Success([])
    ensures data.Some? && tech.fields.At(f).Listed? ==>
      r == (if |tech.fields.At(f).patterns| == 0 then Success([]) else Failure(ShapeMismatch(f)))
    ensures r.Success? ==> forall ev :: ev in r.value ==>
      ev.key.Some? && ev.tech == tech && ev.field == f && KeyedPattern(tech, f, ev.key.value, ev.pattern)
    ensures r.Success? ==> forall ev :: ev in r.value ==> data.Some? && KeyedHit(e, ev.key.value, ev.pattern, data.value)
    ensures r.Success? ==>
      MapSeq(r.value, Unversioned) == if data.None? then [] else FlatMap(KeyedEntries(tech.fields.At(f)), EntryHits(e, tech, f, data.value))
  {
    if data.None? then Success([])
    else
      match tech.fields.At(f)
      case Listed(ps) => if |ps| == 0 then Success([]) else Failure(ShapeMismatch(f))
      case Keyed(entries) =>
        EntriesSound(e, tech, f, entries, data.value, resolve);
        EntriesHit(e, tech, f, entries, data.value, resolve);
        FlatMapAll(entries, EntryStep(e, tech, f, data.value, resolve))
  }

  lemma EntriesSound(e: Engine, tech: Tech, f: Field, entries: Assoc<string, seq<Pattern>>, d: KeyedData, resolve: Resolver)
    requires tech.fields.At(f) == Keyed(entries)
    ensures var r := FlatMapAll(entries, EntryStep(e, tech, f, d, resolve));
      r.Success? ==> forall ev :: ev in r.value ==>
        ev.key.Some? && ev.tech == tech && ev.field == f && KeyedPattern(tech, f, ev.key.value, ev.pattern) &&
        KeyedHit(e, ev.key.value, ev.pattern, d)
  {
    var r := FlatMapAll(entries, EntryStep(e, tech, f, d, resolve));
    if r.Success? {
      forall ev | ev in r.value
        ensures ev.key.Some? && ev.tech == tech && ev.field == f && KeyedPattern(tech, f, ev.key.value, ev.pattern) &&
          KeyedHit(e, ev.key.value, ev.pattern, d)
      {
        var i :| 0 <= i < |entries| && EntryStep(e, tech, f, d, resolve)(entries[i]).Success? &&
                 ev in EntryStep(e, tech, f, d, resolve)(entries[i]).value;
        assert entries[i].0 == ev.key.value && ev.pattern in entries[i].1;
      }
    }
  }

  lemma EntriesHit(e: Engine, tech: Tech, f: Field, entries: Assoc<string, seq<Pattern>>, d: KeyedData, resolve: Resolver)
    ensures var r := FlatMapAll(entries, EntryStep(e, tech, f, d, resolve));
      r.Success? ==> MapSeq(r.value, Unversioned) == FlatMap(entries, EntryHits(e, tech, f, d))
  {
    if FlatMapAll(entries, EntryStep(e, tech, f, d, resolve)).Success? {
      FlatMapAllProj(entries, EntryStep(e, tech, f, d, resolve), Unversioned, EntryHits(e, tech, f, d));
    }
  }

  /** A scalar part of the snapshot; a missing one reads as nil. */
  function Scalar(snap: Snapshot, f: Field): Value {
    if f in snap.scalars then snap.scalars[f] else Nil
  }

  function KeyedPart(snap: Snapshot, f: Field): Option<KeyedData> {
    if f in snap.keyed then Some(snap.keyed[f]) else None
  }

  /** `@data['js'][tech['name']]`: raises when the snapshot has no `js` part at all. */
  function JsPart(snap: Snapshot, name: string): (r: Result<Option<KeyedData>, Crash>)
    ensures r.Failure? <==> snap.js.None?
  {
    match snap.js
    case None => Failure(NoJsData)
    case Some(js) => Success(Get(js, name))
  }

  /** The keyed part a technology's keyed field is read from: its own `js` globals for `js`. */
  function KeyedSource(snap: Snapshot, f: Field, name: string): Option<KeyedData> {
    if f != Js then KeyedPart(snap, f)
    else if snap.js.Some? then Get(snap.js.value, name)
    else None
  }

  /** Every piece of evidence names the pattern it was found with, under the key it was
      found under, as the technology's compiled field carries it, and some value the page
      holds there hits that pattern. */
  predicate Sound(e: Engine, snap: Snapshot, ev: Evidence) {
    ev.field in Mapping &&
    (OneToOneField(ev.field) ==>
      ev.key.None? && ev.tech.fields.At(ev.field).Listed? && ev.pattern in ev.tech.fields.At(ev.field).patterns &&
      Hit(e, ev.pattern, Scalar(snap, ev.field))) &&
    (ev.field == Scripts ==>
      ev.key.None? && ev.tech.fields.At(ev.field).Listed? && ev.pattern in ev.tech.fields.At(ev.field).patterns &&
      exists i :: 0 <= i < |snap.scripts.GetOr([])| && Hit(e, ev.pattern, snap.scripts.GetOr([])[i])) &&
    (ManyToManyField(ev.field) ==>
      ev.key.Some? && KeyedPattern(ev.tech, ev.field, ev.key.value, ev.pattern) &&
      KeyedSource(snap, ev.field, ev.tech.name).Some? &&
      KeyedHit(e, ev.key.value, ev.pattern, KeyedSource(snap, ev.field, ev.tech.name).value))
  }

  /** One field of one technology, by the method `MAPPING` assigns it. */
  function ForField(e: Engine, tech: Tech, snap: Snapshot, f: Field, resolve: Resolver): (r: Result<seq<Evidence>, Crash>)
    requires f in Mapping
    ensures f == Js && snap.js.None? ==> r.Failure?
    ensures r.Success? ==> forall ev :: ev in r.value ==> ev.tech == tech && ev.field == f && Sound(e, snap, ev)
    ensures r.Success? ==> MapSeq(r.value, Unversioned) == FieldHits(e, tech, snap, f)
  {
    if OneToOneField(f) then
      ScalarSound(e, tech, snap, f, resolve);
      ForValue(e, tech, f, Scalar(snap, f), resolve)
    else if f == Scripts then
      ScriptsSound(e, tech, snap, resolve);
      ForValues(e, tech, f, snap.scripts.GetOr([]), resolve)
    else
      var data := if f == Js then JsPart(snap, tech.name) else Success(KeyedPart(snap, f));
      if data.Failure? then Failure(data.error)
      else
        KeyedSound(e, tech, snap, f, data.value, resolve);
        ForKeyed(e, tech, f, data.value, resolve)
  }

  /** Evidence of a one-to-one field is sound: the field's value hits its pattern. */
  lemma ScalarSound(e: Engine, tech: Tech, snap: Snapshot, f: Field, resolve: Resolver)
    requires f in Mapping && OneToOneField(f)
    ensures var r := ForValue(e, tech, f, Scalar(snap, f), resolve);
      r.Success? ==> forall ev :: ev in r.value ==> ev.tech == tech && ev.field == f && Sound(e, snap, ev)
  {
    var r := ForValue(e, tech, f, Scalar(snap, f), resolve);
    if r.Success? {
      forall ev | ev in r.value ensures ev.tech == tech && ev.field == f && Sound(e, snap, ev) {
        assert ev.field == f && !ManyToManyField(ev.field) && ev.field != Scripts;
      }
    }
  }

  /** Script evidence is sound: some script source hits its pattern. */
  lemma ScriptsSound(e: Engine, tech: Tech, snap: Snapshot, resolve: Resolver)
    ensures var r := ForValues(e, tech, Scripts, snap.scripts.GetOr([]), resolve);
      r.Success? ==> forall ev :: ev in r.value ==> ev.tech == tech && ev.field == Scripts && Sound(e, snap, ev)
  {
    var vs := snap.scripts.GetOr([]);
    var r := ForValues(e, tech, Scripts, vs, resolve);
    if r.Success? {
      forall ev | ev in r.value ensures ev.tech == tech && ev.field == Scripts && Sound(e, snap, ev) {
        var i :| 0 <= i < |vs| && Hit(e, ev.pattern, vs[i]);
        ScriptSound(e, snap, ev, i);
      }
    }
  }

  /** Script evidence whose pattern one of the script sources hits is sound. */
  lemma ScriptSound(e: Engine, snap: Snapshot, ev: Evidence, i: nat)
    requires ev.field == Scripts && ev.key.None? && ev.tech.fields.At(Scripts).Listed?
    requires ev.pattern in ev.tech.fields.At(Scripts).patterns
    requires i < |snap.scripts.GetOr([])| && Hit(e, ev.pattern, snap.scripts.GetOr([])[i])
    ensures Sound(e, snap, ev)
  {
  }

  /** Keyed evidence is sound: some value selected under its key hits its pattern. */
  lemma KeyedSound(e: Engine, tech: Tech, snap: Snapshot, f: Field, data: Option<KeyedData>, resolve: Resolver)
    requires ManyToManyField(f) && data == KeyedSource(snap, f, tech.name)
    ensures var r := ForKeyed(e, tech, f, data, resolve);
      r.Success? ==> forall ev :: ev in r.value ==> ev.tech == tech && ev.field == f && Sound(e, snap, ev)
  {
    var r := ForKeyed(e, tech, f, data, resolve);
    if r.Success? {
      forall ev | ev in r.value ensures Sound(e, snap, ev) {
        KeyedEvidenceSound(e, snap, ev);
      }
    }
  }

  /** Keyed evidence of a pattern the technology files under its key, some value of which
      in the part the technology reads hits it, is sound. */
  lemma KeyedEvidenceSound(e: Engine, snap: Snapshot, ev: Evidence)
    requires ManyToManyField(ev.field) && ev.key.Some? && KeyedPattern(ev.tech, ev.field, ev.key.value, ev.pattern)
    requires KeyedSource(snap, ev.field, ev.tech.name).Some?
    requires KeyedHit(e, ev.key.value, ev.pattern, KeyedSource(snap, ev.field, ev.tech.name).value)
    ensures Sound(e, snap, ev)
  {
  }

  /** The evidence one field of `MAPPING` gives for a technology. */
  function FieldStep(e: Engine, tech: Tech, snap: Snapshot, resolve: Resolver): Field -> Result<seq<Evidence>, Crash> {
    f => if f in Mapping then ForField(e, tech, snap, f, resolve) else Success([])
  }

  lemma FieldsHit(e: Engine, tech: Tech, snap: Snapshot, resolve: Resolver)
    ensures forall i :: 0 <= i < |Mapping| && FieldStep(e, tech, snap, resolve)(Mapping[i]).Success? ==>
      MapSeq(FieldStep(e, tech, snap, resolve)(Mapping[i]).value, Unversioned) == FieldHitsOf(e, tech, snap)(Mapping[i])
  {
  }

  /** All the evidence for one technology, field by field in `MAPPING` order. */
  function ForTech(e: Engine, tech: Tech, snap: Snapshot, resolve: Resolver): (r: Result<seq<Evidence>, Crash>)
    ensures snap.js.None? ==> r.Failure?
    ensures r.Success? ==> forall ev :: ev in r.value ==> ev.tech == tech && Sound(e, snap, ev)
    ensures r.Success? ==> MapSeq(r.value, Unversioned) == FlatMap(Mapping, FieldHitsOf(e, tech, snap))
  {
    TechNeedsJs(e, tech, snap, resolve);
    TechSound(e, tech, snap, resolve);
    TechHits(e, tech, snap, resolve);
    FlatMapAll(Mapping, FieldStep(e, tech, snap, resolve))
  }

  /** `js` is one of the fields, so a snapshot without a `js` part makes every technology raise. */
  lemma TechNeedsJs(e: Engine, tech: Tech, snap: Snapshot, resolve: Resolver)
    ensures snap.js.None? ==> FlatMapAll(Mapping, FieldStep(e, tech, snap, resolve)).Failure?
  {
    if snap.js.None? {
      assert Mapping[9] == Js;
    }
  }

  lemma TechSound(e: Engine, tech: Tech, snap: Snapshot, resolve: Resolver)
    ensures var r := FlatMapAll(Mapping, FieldStep(e, tech, snap, resolve));
      r.Success? ==> forall ev :: ev in r.value ==> ev.tech == tech && Sound(e, snap, ev)
  {
  }

  lemma TechHits(e: Engine, tech: Tech, snap: Snapshot, resolve: Resolver)
    ensures var r := FlatMapAll(Mapping, FieldStep(e, tech, snap, resolve));
      r.Success? ==> MapSeq(r.value, Unversioned) == FlatMap(Mapping, FieldHitsOf(e, tech, snap))
  {
    if FlatMapAll(Mapping, FieldStep(e, tech, snap, resolve)).Success? {
      FieldsHit(e, tech, snap, resolve);
      FlatMapAllProj(Mapping, FieldStep(e, tech, snap, resolve), Unversioned, FieldHitsOf(e, tech, snap));
    }
  }

  /** `process`, with `resolve` standing for the version loop: every technology, in order,
      and all its evidence; the first raise aborts the pass. */
  function Detect(e: Engine, techs: Assoc<string, Tech>, snap: Snapshot, resolve: Resolver): (r: Result<seq<Evidence>, Crash>)
    ensures r.Success? <==> forall i :: 0 <= i < |techs| ==> ForTech(e, techs[i].1, snap, resolve).Success?
    ensures r.Success? ==> forall ev :: ev in r.value ==> ev.tech in Values(techs) && Sound(e, snap, ev)
    ensures |techs| > 0 && snap.js.None? ==> r.Failure?
    ensures r.Success? ==> MapSeq(r.value, Unversioned) == PageHits(e, techs, snap)
  {
    DetectHits(e, techs, snap, resolve);
    DetectNamesTechs(e, techs, snap, resolve);
    FlatMapAll(techs, TechStep(e, snap, resolve))
  }

  lemma DetectNamesTechs(e: Engine, techs: Assoc<string, Tech>, snap: Snapshot, resolve: Resolver)
    ensures var r := FlatMapAll(techs, TechStep(e, snap, resolve));
      r.Success? ==> forall ev :: ev in r.value ==> ev.tech in Values(techs)
  {
    var r := FlatMapAll(techs, TechStep(e, snap, resolve));
    if r.Success? {
      forall ev | ev in r.value ensures ev.tech in Values(techs) {
        var i :| 0 <= i < |techs| && TechStep(e, snap, resolve)(techs[i]).Success? &&
                 ev in TechStep(e, snap, resolve)(techs[i]).value;
        assert Values(techs)[i] == techs[i].1;
      }
    }
  }

  lemma DetectHits(e: Engine, techs: Assoc<string, Tech>, snap: Snapshot, resolve: Resolver)
    ensures var r := FlatMapAll(techs, TechStep(e, snap, resolve));
      r.Success? ==> MapSeq(r.value, Unversioned) == PageHits(e, techs, snap)
  {
    if FlatMapAll(techs, TechStep(e, snap, resolve)).Success? {
      FlatMapAllProj(techs, TechStep(e, snap, resolve), Unversioned, TechHitsOf(e, snap));
    }
  }

  function TechStep(e: Engine, snap: Snapshot, resolve: Resolver): ((string, Tech)) -> Result<seq<Evidence>, Crash> {
    (t: (string, Tech)) => ForTech(e, t.1, snap, resolve)
  }

  // ---------------------------------------------------------------- what the page offers

  /** The patterns of a listed field; a keyed field has none to run as a list. */
  function ListedPatterns(c: FieldPatterns): seq<Pattern> {
    if c.Listed? then c.patterns else []
  }

  /** The entries of a keyed field; a listed field has none to run as a map. */
  function KeyedEntries(c: FieldPatterns): Assoc<string, seq<Pattern>> {
    if c.Keyed? then c.entries else []
  }

  /** Pattern `p` against value `v`: one piece of evidence, its version left out, exactly on
      a hit. */
  function HitOf(e: Engine, tech: Tech, f: Field, key: Option<string>, v: Value): Pattern -> seq<Evidence> {
    p => if Hit(e, p, v) then [Evidence(key, tech, f, p, None)] else []
  }

  /** Value `v` against every pattern of a list, in the list's order. */
  function ValueHits(e: Engine, tech: Tech, f: Field, ps: seq<Pattern>): Value -> seq<Evidence> {
    v => FlatMap(ps, HitOf(e, tech, f, None, v))
  }

  /** The keyed pattern `p`, filed under `key`, against value `v`. */
  function ItemHits(e: Engine, tech: Tech, f: Field, key: string, p: Pattern): Value -> seq<Evidence> {
    v => HitOf(e, tech, f, Some(key), v)(p)
  }

  /** A keyed pattern under `key` against every value it selects, in order. */
  function PatternHits(e: Engine, tech: Tech, f: Field, key: string, d: KeyedData): Pattern -> seq<Evidence> {
    p => FlatMap(Selected(e, key, p, d), ItemHits(e, tech, f, key, p))
  }

  /** Every pattern filed under one key, in order. */
  function EntryHits(e: Engine, tech: Tech, f: Field, d: KeyedData): ((string, seq<Pattern>)) -> seq<Evidence> {
    (en: (string, seq<Pattern>)) => FlatMap(en.1, PatternHits(e, tech, f, en.0, d))
  }

  /** What field `f` of `tech` finds on the page, versions aside: for a one-to-one field,
      its value against every pattern; for `scripts`, every source in order against every
      pattern; for a keyed field, every key, every pattern under it and every value that
      pattern selects from the part the technology reads. */
  function FieldHits(e: Engine, tech: Tech, snap: Snapshot, f: Field): seq<Evidence> {
    var c := tech.fields.At(f);
    if OneToOneField(f) then FlatMap(ListedPatterns(c), HitOf(e, tech, f, None, Scalar(snap, f)))
    else if f == Scripts then FlatMap(snap.scripts.GetOr([]), ValueHits(e, tech, f, ListedPatterns(c)))
    else
      match KeyedSource(snap, f, tech.name)
      case None => []
      case Some(d) => FlatMap(KeyedEntries(c), EntryHits(e, tech, f, d))
  }

  function FieldHitsOf(e: Engine, tech: Tech, snap: Snapshot): Field -> seq<Evidence> {
    f => if f in Mapping then FieldHits(e, tech, snap, f) else []
  }

  function TechHitsOf(e: Engine, snap: Snapshot): ((string, Tech)) -> seq<Evidence> {
    (t: (string, Tech)) => FlatMap(Mapping, FieldHitsOf(e, t.1, snap))
  }

  /** Everything the page offers: every technology in order, its fields in `MAPPING` order. */
  function PageHits(e: Engine, techs: Assoc<string, Tech>, snap: Snapshot): seq<Evidence> {
    FlatMap(techs, TechHitsOf(e, snap))
  }

  /** Whether evidence is reported, and which, does not depend on how versions are
      resolved: two resolvers give the same evidence, versions aside, or the same raise. */
  lemma {:induction false} AddIfMatchIgnoresVersion(e: Engine, f: Field, p: Pattern, tech: Tech, value: Value, key: Option<string>,
                                                    r1: Resolver, r2: Resolver)
    ensures Agree(AddIfMatch(e, f, p, tech, value, key, r1), AddIfMatch(e, f, p, tech, value, key, r2), Unversioned)
  {
    var a, b := AddIfMatch(e, f, p, tech, value, key, r1), AddIfMatch(e, f, p, tech, value, key, r2);
    if a.Success? && |a.value| == 1 {
      assert MapSeq(a.value, Unversioned) == [Evidence(key, tech, f, p, None)] == MapSeq(b.value, Unversioned);
    }
  }

  lemma {:induction false} ForValueIgnoresVersion(e: Engine, tech: Tech, f: Field, value: Value, r1: Resolver, r2: Resolver)
    ensures Agree(ForValue(e, tech, f, value, r1), ForValue(e, tech, f, value, r2), Unversioned)
  {
    if tech.fields.At(f).Listed? {
      var ps := tech.fields.At(f).patterns;
      forall i | 0 <= i < |ps|
        ensures Agree(AddIfMatch(e, f, ps[i], tech, value, None, r1), AddIfMatch(e, f, ps[i], tech, value, None, r2), Unversioned)
      {
        AddIfMatchIgnoresVersion(e, f, ps[i], tech, value, None, r1, r2);
      }
      FlatMapAllAgree(ps, TryPattern(e, tech, f, None, value, r1), TryPattern(e, tech, f, None, value, r2), Unversioned);
    }
  }

  lemma {:induction false} ForValuesIgnoresVersion(e: Engine, tech: Tech, f: Field, values: seq<Value>, r1: Resolver, r2: Resolver)
    ensures Agree(ForValues(e, tech, f, values, r1), ForValues(e, tech, f, values, r2), Unversioned)
  {
    forall i | 0 <= i < |values|
      ensures Agree(ForValue(e, tech, f, values[i], r1), ForValue(e, tech, f, values[i], r2), Unversioned)
    {
      ForValueIgnoresVersion(e, tech, f, values[i], r1, r2);
    }
    FlatMapAllAgree(values, ValueStep(e, tech, f, r1), ValueStep(e, tech, f, r2), Unversioned);
  }

  lemma {:induction false} ForKeyedPatternIgnoresVersion(e: Engine, tech: Tech, f: Field, key: string, p: Pattern, d: KeyedData,
                                                         r1: Resolver, r2: Resolver)
    ensures Agree(ForKeyedPattern(e, tech, f, key, p, d, r1), ForKeyedPattern(e, tech, f, key, p, d, r2), Unversioned)
  {
    var items := SelectItems(e, key, p, d);
    if items.Success? {
      var vs := items.value;
      forall i | 0 <= i < |vs|
        ensures Agree(AddIfMatch(e, f, p, tech, vs[i], Some(key), r1), AddIfMatch(e, f, p, tech, vs[i], Some(key), r2), Unversioned)
      {
        AddIfMatchIgnoresVersion(e, f, p, tech, vs[i], Some(key), r1, r2);
      }
      FlatMapAllAgree(vs, TryValue(e, tech, f, key, p, r1), TryValue(e, tech, f, key, p, r2), Unversioned);
    }
  }

  lemma {:induction false} ForEntryIgnoresVersion(e: Engine, tech: Tech, f: Field, entry: (string, seq<Pattern>), d: KeyedData,
                                                  r1: Resolver, r2: Resolver)
    ensures Agree(ForEntry(e, tech, f, entry, d, r1), ForEntry(e, tech, f, entry, d, r2), Unversioned)
  {
    forall i | 0 <= i < |entry.1|
      ensures Agree(ForKeyedPattern(e, tech, f, entry.0, entry.1[i], d, r1), ForKeyedPattern(e, tech, f, entry.0, entry.1[i], d, r2), Unversioned)
    {
      ForKeyedPatternIgnoresVersion(e, tech, f, entry.0, entry.1[i], d, r1, r2);
    }
    FlatMapAllAgree(entry.1, KeyedPatternStep(e, tech, f, entry.0, d, r1), KeyedPatternStep(e, tech, f, entry.0, d, r2), Unversioned);
  }

  lemma {:induction false} ForKeyedIgnoresVersion(e: Engine, tech: Tech, f: Field, data: Option<KeyedData>, r1: Resolver, r2: Resolver)
    ensures Agree(ForKeyed(e, tech, f, data, r1), ForKeyed(e, tech, f, data, r2), Unversioned)
  {
    if data.Some? && tech.fields.At(f).Keyed? {
      var entries := tech.fields.At(f).entries;
      forall i | 0 <= i < |entries|
        ensures Agree(ForEntry(e, tech, f, entries[i], data.value, r1), ForEntry(e, tech, f, entries[i], data.value, r2), Unversioned)
      {
        ForEntryIgnoresVersion(e, tech, f, entries[i], data.value, r1, r2);
      }
      FlatMapAllAgree(entries, EntryStep(e, tech, f, data.value, r1), EntryStep(e, tech, f, data.value, r2), Unversioned);
    }
  }

  lemma {:induction false} ForFieldIgnoresVersion(e: Engine, tech: Tech, snap: Snapshot, f: Field, r1: Resolver, r2: Resolver)
    requires f in Mapping
    ensures Agree(ForField(e, tech, snap, f, r1), ForField(e, tech, snap, f, r2), Unversioned)
  {
    if OneToOneField(f) {
      ForValueIgnoresVersion(e, tech, f, Scalar(snap, f), r1, r2);
    } else if f == Scripts {
      ForValuesIgnoresVersion(e, tech, f, snap.scripts.GetOr([]), r1, r2);
    } else if f == Js {
      if snap.js.Some? {
        ForKeyedIgnoresVersion(e, tech, f, JsPart(snap, tech.name).value, r1, r2);
      }
    } else {
      ForKeyedIgnoresVersion(e, tech, f, KeyedPart(snap, f), r1, r2);
    }
  }

  lemma {:induction false} ForTechIgnoresVersion(e: Engine, tech: Tech, snap: Snapshot, r1: Resolver, r2: Resolver)
    ensures Agree(ForTech(e, tech, snap, r1), ForTech(e, tech, snap, r2), Unversioned)
  {
    ForFieldsIgnoreVersion(e, tech, snap, r1, r2);
    FlatMapAllAgree(Mapping, FieldStep(e, tech, snap, r1), FieldStep(e, tech, snap, r2), Unversioned);
  }

  lemma ForFieldsIgnoreVersion(e: Engine, tech: Tech, snap: Snapshot, r1: Resolver, r2: Resolver)
    ensures forall i :: 0 <= i < |Mapping| ==> Agree(FieldStep(e, tech, snap, r1)(Mapping[i]), FieldStep(e, tech, snap, r2)(Mapping[i]), Unversioned)
  {
    forall i | 0 <= i < |Mapping| ensures Agree(FieldStep(e, tech, snap, r1)(Mapping[i]), FieldStep(e, tech, snap, r2)(Mapping[i]), Unversioned) {
      ForFieldIgnoresVersion(e, tech, snap, Mapping[i], r1, r2);
    }
  }

  /** The detection pass does not depend on the version loop: with any two resolvers it
      raises the same error or reports the same evidence in the same order, versions aside.
      So the legacy pass, which differs only in its version loop, detects the same. */
  lemma {:induction false} DetectIgnoresVersion(e: Engine, techs: Assoc<string, Tech>, snap: Snapshot, r1: Resolver, r2: Resolver)
    ensures Agree(Detect(e, techs, snap, r1), Detect(e, techs, snap, r2), Unversioned)
  {
    forall i | 0 <= i < |techs|
      ensures Agree(ForTech(e, techs[i].1, snap, r1), ForTech(e, techs[i].1, snap, r2), Unversioned)
    {
      ForTechIgnoresVersion(e, techs[i].1, snap, r1, r2);
    }
    FlatMapAllAgree(techs, TechStep(e, snap, r1), TechStep(e, snap, r2), Unversioned);
  }

  /** `Processor.call`: detection with `processor.rb`'s own version loop. */
  function Process(e: Engine, techs: Assoc<string, Tech>, snap: Snapshot): Result<seq<Evidence>, Crash> {
    Detect(e, techs, snap, ClassVersion)
  }
}

=== FILE: regex.dfy ===
/** The regular-expression engine is not modelled: every regex in the rules is compiled
    case-insensitively and used only through this interface, supplied by the caller. */
module Regex {
  import opened Wrappers

  /** The capture groups of one match, in group order; `None` is a group that did not take
      part in the match (Ruby's nil). */
  type Captures = seq<Option<string>>

  /** `compiles(src)`: `Regexp.new(src, Regexp::IGNORECASE)` does not raise.
      `exec(src, subject)`: the groups of the first match of that regex in `subject`, or
      `None` when it does not match. */
  datatype Engine = Engine(compiles: string -> bool, exec: (string, string) -> Option<Captures>)

  /** `subject =~ regex`. Defined through `exec`, so a match always has captures and
      captures always come from a match. */
  predicate Matches(e: Engine, src: string, subject: string) {
    e.exec(src, subject).Some?
  }
}

=== FILE: ruby_array.dfy ===
/** The `Array` idioms the detection pass is built from: a nested `map` whose results are
    flattened, where any call may raise, and `select`. */
module RubyArray {
  import opened Wrappers

  /** `xs.map { |x| f(x) }.flatten(1)` where `f` may raise: the first failure, in order,
      aborts the rest. */
  function FlatMapAll<A, B(!new), E>(xs: seq<A>, f: A -> Result<seq<B>, E>): (r: Result<seq<B>, E>)
    ensures r.Success? <==> forall i :: 0 <= i < |xs| ==> f(xs[i]).Success?
    ensures r.Success? ==> forall y :: y in r.value <==> exists i :: 0 <= i < |xs| && f(xs[i]).Success? && y in f(xs[i]).value
    ensures r.Failure? ==> exists i :: 0 <= i < |xs| && f(xs[i]) == Failure(r.error) && forall j :: 0 <= j < i ==> f(xs[j]).Success?
  {
    if |xs| == 0 then Success([])
    else
      var init := xs[..|xs| - 1];
      assert forall i :: 0 <= i < |init| ==> init[i] == xs[i];
      var ys :- FlatMapAll(init, f);
      var y :- f(xs[|xs| - 1]);
      Success(ys + y)
  }

  function MapSeq<A, B>(xs: seq<A>, f: A -> B): (r: seq<B>)
    ensures |r| == |xs| && forall i :: 0 <= i < |xs| ==> r[i] == f(xs[i])
  {
    seq(|xs|, i requires 0 <= i < |xs| => f(xs[i]))
  }

  lemma {:induction false} MapSeqAppend<A, B>(xs: seq<A>, ys: seq<A>, f: A -> B)
    ensures MapSeq(xs + ys, f) == MapSeq(xs, f) + MapSeq(ys, f)
  {
    assert |MapSeq(xs + ys, f)| == |MapSeq(xs, f) + MapSeq(ys, f)|;
    forall i | 0 <= i < |xs| + |ys| ensures MapSeq(xs + ys, f)[i] == (MapSeq(xs, f) + MapSeq(ys, f))[i] {
      if i < |xs| {
        assert (xs + ys)[i] == xs[i];
      } else {
        assert (xs + ys)[i] == ys[i - |xs|];
      }
    }
  }

  /** `xs.select { |x| keep(x) }`. */
  function Filter<T(!new)>(xs: seq<T>, keep: T -> bool): (r: seq<T>)
    ensures |r| <= |xs|
    ensures forall x :: x in r <==> x in xs && keep(x)
  {
    if |xs| == 0 then []
    else
      var init := xs[..|xs| - 1];
      var last := xs[|xs| - 1];
      assert xs == init + [last];
      Filter(init, keep) + (if keep(last) then [last] else [])
  }

  /** `xs.flat_map { |x| f(x) }` for an `f` that cannot raise. */
  function FlatMap<A, B>(xs: seq<A>, f: A -> seq<B>): seq<B>
    decreases |xs|
  {
    if |xs| == 0 then [] else FlatMap(xs[..|xs| - 1], f) + f(xs[|xs| - 1])
  }

  /** When each element yields, up to `proj`, what `g` gives it, the flattened map is, up to
      `proj`, the flat map of `g`. */
  lemma {:induction false} FlatMapAllProj<A, B(!new), C, E>(xs: seq<A>, f: A -> Result<seq<B>, E>, proj: B -> C, g: A -> seq<C>)
    requires FlatMapAll(xs, f).Success?
    requires forall i :: 0 <= i < |xs| && f(xs[i]).Success? ==> MapSeq(f(xs[i]).value, proj) == g(xs[i])
    ensures MapSeq(FlatMapAll(xs, f).value, proj) == FlatMap(xs, g)
  {
    if |xs| > 0 {
      var init := xs[..|xs| - 1];
      var last := xs[|xs| - 1];
      assert forall i :: 0 <= i < |init| ==> init[i] == xs[i];
      FlatMapAllProj(init, f, proj, g);
      MapSeqAppend(FlatMapAll(init, f).value, f(last).value, proj);
    }
  }

  /** When each element that yields at all yields exactly what `g` gives it, the flattened
      map is the flat map of `g`. */
  lemma {:induction false} FlatMapAllExact<A, B(!new), E>(xs: seq<A>, f: A -> Result<seq<B>, E>, g: A -> seq<B>)
    requires FlatMapAll(xs, f).Success?
    requires forall i :: 0 <= i < |xs| && f(xs[i]).Success? ==> f(xs[i]).value == g(xs[i])
    ensures FlatMapAll(xs, f).value == FlatMap(xs, g)
  {
    if |xs| > 0 {
      var init := xs[..|xs| - 1];
      assert forall i :: 0 <= i < |init| ==> init[i] == xs[i];
      FlatMapAllExact(init, f, g);
    }
  }

  /** Two computations agree up to `proj`: both fail with the same error, or both succeed
      with results equal once every element is projected. */
  predicate Agree<B, C(==), E(==)>(a: Result<seq<B>, E>, b: Result<seq<B>, E>, proj: B -> C) {
    a.Success? == b.Success? &&
    (a.Failure? ==> a.error == b.error) &&
    (a.Success? ==> MapSeq(a.value, proj) == MapSeq(b.value, proj))
  }

  /** Element-wise agreement carries over to the flattened map. */
  lemma {:induction false} FlatMapAllAgree<A, B(!new), C, E>(xs: seq<A>, f: A -> Result<seq<B>, E>, g: A -> Result<seq<B>, E>, proj: B -> C)
    requires forall i :: 0 <= i < |xs| ==> Agree(f(xs[i]), g(xs[i]), proj)
    ensures Agree(FlatMapAll(xs, f), FlatMapAll(xs, g), proj)
  {
    if |xs| > 0 {
      var init := xs[..|xs| - 1];
      var last := xs[|xs| - 1];
      assert forall i :: 0 <= i < |init| ==> init[i] == xs[i];
      FlatMapAllAgree(init, f, g, proj);
      var a, b := FlatMapAll(init, f), FlatMapAll(init, g);
      if a.Success? && f(last).Success? {
        MapSeqAppend(a.value, f(last).value, proj);
        MapSeqAppend(b.value, g(last).value, proj);
      }
    }
  }

  /** When each element yields, up to `proj`, itself if `keep` holds and nothing otherwise,
      the flattened map is, up to `proj`, the selection of the kept elements. */
  lemma {:induction false} FlatMapAllFilter<A(!new), B(!new), E>(xs: seq<A>, f: A -> Result<seq<B>, E>, proj: B -> A, keep: A -> bool)
    requires FlatMapAll(xs, f).Success?
    requires forall i :: 0 <= i < |xs| && f(xs[i]).Success? ==>
      MapSeq(f(xs[i]).value, proj) == (if keep(xs[i]) then [xs[i]] else [])
    ensures MapSeq(FlatMapAll(xs, f).value, proj) == Filter(xs, keep)
  {
    if |xs| > 0 {
      var init := xs[..|xs| - 1];
      var last := xs[|xs| - 1];
      assert forall i :: 0 <= i < |init| ==> init[i] == xs[i];
      assert xs == init + [last];
      FlatMapAllFilter(init, f, proj, keep);
      MapSeqAppend(FlatMapAll(init, f).value, f(last).value, proj);
    }
  }
}

=== FILE: ruby_numeric.dfy ===
/** `(x / 100.0).to_i` on an integer `x`: Ruby's `Float#to_i` truncates toward zero, whereas
    Dafny's `/` is Euclidean, so the two disagree on negative numerators. */
module RubyNumeric {

  /** `(x / 100.0).to_i`: division by 100 truncating toward zero, so the remainder has the
      sign of the dividend. */
  function Hundredth(x: int): (q: int)
    ensures x >= 0 ==> 0 <= x - 100 * q < 100
    ensures x < 0 ==> -100 < x - 100 * q <= 0
  {
    if x >= 0 then x / 100 else -((-x) / 100)
  }

  /** Truncation is odd-symmetric: negating the dividend negates the quotient. This is what
      makes "store the negated confidence and add" agree with "store it and subtract". */
  lemma {:induction false} HundredthNegate(x: int)
    ensures Hundredth(-x) == -Hundredth(x)
  {
  }

  /** Integer multiplication as repeated addition on the second factor. A product of two
      unknowns is a nonlinear problem for the solver; this form keeps each unfolding linear,
      and `MulIsProduct` shows it is the ordinary product. */
  function Mul(a: int, b: int): int
    decreases if b < 0 then -b else b
  {
    if b == 0 then 0 else if b > 0 then Mul(a, b - 1) + a else Mul(a, b + 1) - a
  }

  lemma {:induction false} MulIsProduct(a: int, b: int)
    ensures Mul(a, b) == a * b
    decreases if b < 0 then -b else b
  {
    if b > 0 {
      MulIsProduct(a, b - 1);
    } else if b < 0 {
      MulIsProduct(a, b + 1);
    }
  }

  /** Negating one factor negates the product. */
  lemma {:induction false} MulNegate(a: int, b: int)
    ensures Mul(-a, b) == -Mul(a, b)
    decreases if b < 0 then -b else b
  {
    if b > 0 {
      MulNegate(a, b - 1);
    } else if b < 0 {
      MulNegate(a, b + 1);
    }
  }

  /** Unlike Euclidean division, truncation rounds a negative quotient up. */
  lemma {:induction false} HundredthDiffersFromFloor()
    ensures Hundredth(-150) == -1
    ensures -150 / 100 == -2
  {
  }
}

=== FILE: ruby_string.dfy ===
/** The few `String` methods of Ruby's core library that the rule compiler and the
    version-template resolver depend on, with their edge cases: `split` dropping trailing
    empty fields, `split(sep, 2)`, `sub`/`gsub` with a pattern that matches only its own text and
    the escapes of their replacement string, `strip`, `downcase` and `to_i`. */
module RubyString {
  import opened Wrappers

  predicate OccursAt(s: string, p: string, i: nat) {
    i + |p| <= |s| && s[i..i + |p|] == p
  }

  predicate Contains(s: string, p: string) {
    exists i: nat | i <= |s| :: OccursAt(s, p, i)
  }

  lemma {:induction false} OccursInTail(s: string, p: string, j: nat)
    requires |s| > 0
    ensures OccursAt(s[1..], p, j) <==> OccursAt(s, p, j + 1)
  {
    if j + |p| <= |s[1..]| {
      assert s[1..][j..j + |p|] == s[j + 1..j + 1 + |p|];
    }
  }

  lemma {:induction false} OccursInSuffix(s: string, p: string, k: nat, j: nat)
    requires k <= |s|
    ensures OccursAt(s[k..], p, j) <==> OccursAt(s, p, j + k)
  {
    if j + |p| <= |s[k..]| {
      assert s[k..][j..j + |p|] == s[j + k..j + k + |p|];
    }
  }

  lemma {:induction false} OccursInPrefix(s: string, p: string, k: nat, j: nat)
    requires k <= |s| && OccursAt(s[..k], p, j)
    ensures OccursAt(s, p, j)
  {
    assert s[..k][j..j + |p|] == s[j..j + |p|];
  }

  /** Index of the first occurrence of a non-empty `p` in `s`. */
  function IndexOf(s: string, p: string): (r: Option<nat>)
    requires |p| > 0
    ensures r.Some? ==> OccursAt(s, p, r.value)
    ensures r.Some? ==> forall j: nat :: j < r.value ==> !OccursAt(s, p, j)
    ensures r.None? <==> !Contains(s, p)
    decreases |s|
  {
    if |s| < |p| then None
    else if s[..|p|] == p then Some(0)
    else
      var r := IndexOf(s[1..], p);
      assert forall j: nat :: OccursAt(s[1..], p, j) <==> OccursAt(s, p, j + 1) by {
        forall j: nat ensures OccursAt(s[1..], p, j) <==> OccursAt(s, p, j + 1) {
          OccursInTail(s, p, j);
        }
      }
      assert !OccursAt(s, p, 0);
      match r
      case None =>
        assert !Contains(s, p) by {
          forall j: nat ensures !OccursAt(s, p, j) {
            if j > 0 {
              assert !OccursAt(s[1..], p, j - 1);
            }
          }
        }
        None
      case Some(i) =>
        assert forall j: nat :: j < i + 1 ==> !OccursAt(s, p, j) by {
          forall j: nat | j < i + 1 ensures !OccursAt(s, p, j) {
            if j > 0 {
              assert !OccursAt(s[1..], p, j - 1);
            }
          }
        }
        Some(i + 1)
  }

  /** Every field between occurrences of `sep`, empty ones included (`split(sep, -1)`). */
  function RawSplit(s: string, sep: string): (parts: seq<string>)
    requires |sep| > 0
    ensures |parts| >= 1
    ensures forall k :: 0 <= k < |parts| ==> !Contains(parts[k], sep)
    decreases |s|
  {
    match IndexOf(s, sep)
    case None => [s]
    case Some(i) =>
      var rest := RawSplit(s[i + |sep|..], sep);
      assert !Contains(s[..i], sep) by {
        forall j: nat | OccursAt(s[..i], sep, j) ensures false {
          OccursInPrefix(s, sep, i, j);
        }
      }
      [s[..i]] + rest
  }

  /** The first occurrence is the one with none before it. */
  lemma {:induction false} IndexOfIsFirst(t: string, p: string, i: nat)
    requires |p| > 0 && OccursAt(t, p, i)
    requires forall j: nat :: j < i ==> !OccursAt(t, p, j)
    ensures IndexOf(t, p) == Some(i)
  {
    assert Contains(t, p) by { assert i + |p| <= |t|; }
  }

  lemma {:induction false} JoinedIndex(s: string, sep: string, seg: string)
    requires |sep| == 2 && sep[0] != sep[1]
    ensures IndexOf(s + sep + seg, sep) == match IndexOf(s, sep) case Some(i) => Some(i) case None => Some(|s|)
  {
    var t := s + sep + seg;
    match IndexOf(s, sep)
    case None =>
      assert t[|s|..|s| + 2] == sep;
      forall j: nat | j < |s| ensures !OccursAt(t, sep, j) {
        if j + 2 <= |s| {
          assert t[j..j + 2] == s[j..j + 2];
          assert !OccursAt(s, sep, j);
        } else {
          assert t[j + 1] == sep[0];
        }
      }
      IndexOfIsFirst(t, sep, |s|);
    case Some(i) =>
      assert t[i..i + 2] == s[i..i + 2];
      forall j: nat | j < i ensures !OccursAt(t, sep, j) {
        assert t[j..j + 2] == s[j..j + 2];
        assert !OccursAt(s, sep, j);
      }
      IndexOfIsFirst(t, sep, i);
  }

  lemma {:induction false} SliceOfConcat(a: string, b: string, k: nat)
    requires k <= |a|
    ensures (a + b)[k..] == a[k..] + b
    ensures (a + b)[..k] == a[..k]
  {
  }

  /** One step of `RawSplit` on a string whose first separator is at `i`. */
  lemma {:induction false} RawSplitAt(t: string, sep: string, i: nat)
    requires |sep| > 0 && IndexOf(t, sep) == Some(i)
    ensures i + |sep| <= |t|
    ensures RawSplit(t, sep) == [t[..i]] + RawSplit(t[i + |sep|..], sep)
  {
  }

  /** Appending `sep + seg` adds exactly one field, provided a two-character separator
      cannot overlap itself across the join. */
  lemma {:induction false} RawSplitSnoc(s: string, sep: string, seg: string)
    requires |sep| == 2 && sep[0] != sep[1] && !Contains(seg, sep)
    ensures RawSplit(s + sep + seg, sep) == RawSplit(s, sep) + [seg]
    decreases |s|
  {
    var t := s + sep + seg;
    JoinedIndex(s, sep, seg);
    var found := IndexOf(s, sep);
    if found.None? {
      RawSplitAt(t, sep, |s|);
      SliceOfConcat(s + sep, seg, |s| + 2);
      SliceOfConcat(s, sep, |s|);
      SliceOfConcat(s + sep, seg, |s|);
      assert RawSplit(seg, sep) == [seg];
      assert RawSplit(s, sep) == [s];
    } else {
      var i := found.value;
      RawSplitAt(s, sep, i);
      RawSplitAt(t, sep, i);
      var rest := s[i + 2..];
      SliceOfConcat(s, sep, i + 2);
      SliceOfConcat(s + sep, seg, i + 2);
      SliceOfConcat(s, sep, i);
      SliceOfConcat(s + sep, seg, i);
      RawSplitSnoc(rest, sep, seg);
    }
  }

  function Join(parts: seq<string>, sep: string): string {
    if |parts| == 0 then ""
    else if |parts| == 1 then parts[0]
    else parts[0] + sep + Join(parts[1..], sep)
  }

  /** Joining the fields back with the separator gives the original string. */
  lemma {:induction false} JoinRawSplit(s: string, sep: string)
    requires |sep| > 0
    ensures Join(RawSplit(s, sep), sep) == s
    decreases |s|
  {
    match IndexOf(s, sep)
    case None =>
    case Some(i) =>
      var tail := s[i + |sep|..];
      var rest := RawSplit(tail, sep);
      JoinRawSplit(tail, sep);
      assert RawSplit(s, sep) == [s[..i]] + rest;
      assert ([s[..i]] + rest)[1..] == rest;
      assert Join([s[..i]] + rest, sep) == s[..i] + sep + Join(rest, sep);
      assert s == s[..i] + sep + tail by {
        assert s[i..i + |sep|] == sep;
      }
  }

  function DropTrailingEmpty(parts: seq<string>): (r: seq<string>)
    ensures |r| <= |parts| && r == parts[..|r|]
    ensures |r| > 0 ==> r[|r| - 1] != ""
    ensures forall k :: |r| <= k < |parts| ==> parts[k] == ""
  {
    if |parts| == 0 then []
    else if parts[|parts| - 1] == "" then DropTrailingEmpty(parts[..|parts| - 1])
    else parts
  }

  /** `s.split(sep)` for a literal separator: trailing empty fields are removed, so the empty
      string (and a string made only of separators) yields no fields at all. */
  function Split(s: string, sep: string): (parts: seq<string>)
    requires |sep| > 0
    ensures forall k :: 0 <= k < |parts| ==> !Contains(parts[k], sep)
    ensures s == "" ==> parts == []
  {
    DropTrailingEmpty(RawSplit(s, sep))
  }

  /** Splitting loses nothing unless the string ends with the separator. */
  lemma {:induction false} JoinSplit(s: string, sep: string)
    requires |sep| > 0
    requires !(|s| >= |sep| && s[|s| - |sep|..] == sep)
    ensures Join(Split(s, sep), sep) == s
    decreases |s|
  {
    JoinRawSplit(s, sep);
    if s != "" {
      LastFieldNonEmpty(s, sep);
    }
  }

  lemma {:induction false} LastFieldNonEmpty(s: string, sep: string)
    requires |sep| > 0 && s != ""
    requires !(|s| >= |sep| && s[|s| - |sep|..] == sep)
    ensures RawSplit(s, sep)[|RawSplit(s, sep)| - 1] != ""
    decreases |s|
  {
    match IndexOf(s, sep)
    case None =>
    case Some(i) =>
      var tail := s[i + |sep|..];
      var rest := RawSplit(tail, sep);
      assert RawSplit(s, sep) == [s[..i]] + rest;
      if tail != "" {
        if |tail| >= |sep| {
          assert tail[|tail| - |sep|..] == s[|s| - |sep|..];
        }
        LastFieldNonEmpty(tail, sep);
      }
  }

  /** `s.split(sep, 2)`: at most two fields, split at the first separator; the empty string
      gives no fields. */
  function SplitOnce(s: string, sep: string): (parts: seq<string>)
    requires |sep| > 0
    ensures s == "" <==> parts == []
    ensures |parts| <= 2
    ensures |parts| == 1 ==> parts[0] == s && !Contains(s, sep)
    ensures |parts| == 2 ==> s == parts[0] + sep + parts[1] && !Contains(parts[0], sep)
  {
    if s == "" then []
    else
      match IndexOf(s, sep)
      case None => [s]
      case Some(i) =>
        assert !Contains(s[..i], sep) by {
          forall j: nat | OccursAt(s[..i], sep, j) ensures false {
            OccursInPrefix(s, sep, i, j);
          }
        }
        assert s[i..i + |sep|] == sep;
        assert s == s[..i] + sep + s[i + |sep|..];
        [s[..i], s[i + |sep|..]]
  }

  /** Every non-overlapping occurrence of `p`, left to right, replaced by `r` as written:
      `gsub` when `r` has no escapes (see `GsubPlain`). */
  function ReplaceAll(s: string, p: string, r: string): string
    requires |p| > 0
    decreases |s|
  {
    match IndexOf(s, p)
    case None => s
    case Some(i) => s[..i] + r + ReplaceAll(s[i + |p|..], p, r)
  }

  /** Replacing every occurrence is splitting on the pattern and joining with the
      replacement. */
  lemma {:induction false} ReplaceAllIsJoin(s: string, p: string, r: string)
    requires |p| > 0
    ensures ReplaceAll(s, p, r) == Join(RawSplit(s, p), r)
    decreases |s|
  {
    match IndexOf(s, p)
    case None =>
    case Some(i) =>
      var tail := s[i + |p|..];
      var rest := RawSplit(tail, p);
      ReplaceAllIsJoin(tail, p, r);
      assert RawSplit(s, p) == [s[..i]] + rest;
      assert ([s[..i]] + rest)[1..] == rest;
  }

  /** Replacing a pattern by itself changes nothing. */
  lemma {:induction false} ReplaceAllSelf(s: string, p: string)
    requires |p| > 0
    ensures ReplaceAll(s, p, p) == s
  {
    ReplaceAllIsJoin(s, p, p);
    JoinRawSplit(s, p);
  }

  /** A string without the pattern is left alone. */
  lemma {:induction false} ReplaceAllAbsent(s: string, p: string, r: string)
    requires |p| > 0 && !Contains(s, p)
    ensures ReplaceAll(s, p, r) == s
  {
  }

  /** A single occurrence: `gsub` replaces just that one. */
  lemma {:induction false} ReplaceAllSingle(a: string, p: string, b: string, r: string)
    requires |p| > 0 && IndexOf(a + p + b, p) == Some(|a|) && !Contains(b, p)
    ensures ReplaceAll(a + p + b, p, r) == a + r + b
  {
    var s := a + p + b;
    assert s[..|a|] == a && s[|a| + |p|..] == b;
    ReplaceAllAbsent(b, p, r);
  }

  // ---------------------------------------------------------------- sub and gsub

  /** The characters that make an escape after a backslash in a replacement string. */
  predicate EscapeChar(c: char) {
    '0' <= c <= '9' || c == '&' || c == '`' || c == '\'' || c == '+' || c == '\\' || c == 'k'
  }

  /** A replacement string in which no backslash starts an escape. */
  predicate Plain(r: string) {
    forall i :: 0 <= i < |r| - 1 && r[i] == '\\' ==> !EscapeChar(r[i + 1])
  }

  /** What `sub` and `gsub` insert for the replacement string `r` when the pattern has no
      groups: `\0` and `\&` give the matched text, `` \` `` the text before the match, `\'`
      the text after it, `\\` one backslash; `\1` to `\9` and `\+` name groups that do not
      exist and give nothing; any other backslash, a trailing one included, stays as it is. */
  function Expand(r: string, matched: string, pre: string, post: string): string
    decreases |r|
  {
    if |r| == 0 then ""
    else if r[0] == '\\' && |r| > 1 then Escaped(r[1], matched, pre, post) + Expand(r[2..], matched, pre, post)
    else [r[0]] + Expand(r[1..], matched, pre, post)
  }

  /** What the backslash and the character `c` after it give in a replacement. */
  function Escaped(c: char, matched: string, pre: string, post: string): string {
    if c == '0' || c == '&' then matched
    else if c == '`' then pre
    else if c == '\'' then post
    else if c == '\\' then "\\"
    else if '1' <= c <= '9' || c == '+' then ""
    else ['\\', c]
  }

  /** A plain replacement is inserted as written. */
  lemma {:induction false} ExpandPlain(r: string, matched: string, pre: string, post: string)
    requires Plain(r)
    ensures Expand(r, matched, pre, post) == r
    decreases |r|
  {
    if |r| > 0 {
      if r[0] == '\\' && |r| > 1 {
        assert !EscapeChar(r[1]);
        assert Plain(r[2..]) by {
          forall i | 0 <= i < |r[2..]| - 1 && r[2..][i] == '\\' ensures !EscapeChar(r[2..][i + 1]) {
            assert r[i + 2] == '\\';
          }
        }
        ExpandPlain(r[2..], matched, pre, post);
        assert r == [r[0], r[1]] + r[2..];
      } else {
        assert Plain(r[1..]) by {
          forall i | 0 <= i < |r[1..]| - 1 && r[1..][i] == '\\' ensures !EscapeChar(r[1..][i + 1]) {
            assert r[i + 1] == '\\';
          }
        }
        ExpandPlain(r[1..], matched, pre, post);
        assert r == [r[0]] + r[1..];
      }
    }
  }

  /** `x` with every backslash doubled, the way to write `x` as a replacement. */
  function Escape(x: string): (r: string)
    ensures |r| >= |x|
  {
    if |x| == 0 then ""
    else (if x[0] == '\\' then "\\\\" else [x[0]]) + Escape(x[1..])
  }

  /** Doubling every backslash makes any text come out literally. */
  lemma {:induction false} ExpandEscape(x: string, matched: string, pre: string, post: string)
    ensures Expand(Escape(x), matched, pre, post) == x
  {
    if |x| > 0 {
      var r := Escape(x);
      ExpandEscape(x[1..], matched, pre, post);
      if x[0] == '\\' {
        assert r[2..] == Escape(x[1..]);
      } else {
        assert r[1..] == Escape(x[1..]);
      }
      assert x == [x[0]] + x[1..];
    }
  }

  /** `s.sub(p, r)` for a pattern that matches exactly the text `p`: the first occurrence
      replaced by `r` expanded against it (see `SubFirst`). */
  function Sub(s: string, p: string, r: string): (t: string)
    requires |p| > 0
    ensures !Contains(s, p) ==> t == s
  {
    match IndexOf(s, p)
    case None => s
    case Some(i) => s[..i] + Expand(r, p, s[..i], s[i + |p|..]) + s[i + |p|..]
  }

  /** `sub` replaces the leftmost occurrence and keeps the text around it. */
  lemma {:induction false} SubFirst(s: string, p: string, r: string, i: nat)
    requires |p| > 0 && OccursAt(s, p, i)
    requires forall j: nat :: j < i ==> !OccursAt(s, p, j)
    ensures Sub(s, p, r) == s[..i] + Expand(r, p, s[..i], s[i + |p|..]) + s[i + |p|..]
  {
    var k := IndexOf(s, p).value;
    assert !(k < i) && !(i < k);
  }

  /** `s.gsub(p, r)` for a pattern that matches exactly the text `p`: every non-overlapping
      occurrence, left to right, replaced by `r` expanded against that occurrence. */
  function Gsub(s: string, p: string, r: string): string
    requires |p| > 0
  {
    ExpandJoin(RawSplit(s, p), p, r, "")
  }

  /** The fields `parts` of a text, which stood between occurrences of `p`, put back
      together with the replacement `r` expanded between each two of them; `done` is the
      text that came before the first field, read by `` \` ``. */
  function ExpandJoin(parts: seq<string>, p: string, r: string, done: string): string {
    if |parts| == 0 then ""
    else if |parts| == 1 then parts[0]
    else parts[0] + Expand(r, p, done + parts[0], Join(parts[1..], p)) + ExpandJoin(parts[1..], p, r, done + parts[0] + p)
  }

  /** With a plain replacement, `gsub` is the literal replacement of every occurrence. */
  lemma {:induction false} GsubPlain(s: string, p: string, r: string)
    requires |p| > 0 && Plain(r)
    ensures Gsub(s, p, r) == ReplaceAll(s, p, r)
  {
    ExpandJoinPlain(RawSplit(s, p), p, r, "");
    ReplaceAllIsJoin(s, p, r);
  }

  lemma {:induction false} ExpandJoinPlain(parts: seq<string>, p: string, r: string, done: string)
    requires Plain(r)
    ensures ExpandJoin(parts, p, r, done) == Join(parts, r)
    decreases |parts|
  {
    if |parts| > 1 {
      ExpandPlain(r, p, done + parts[0], Join(parts[1..], p));
      ExpandJoinPlain(parts[1..], p, r, done + parts[0] + p);
    }
  }

  /** Without an occurrence, `gsub` changes nothing. */
  lemma {:induction false} GsubAbsent(s: string, p: string, r: string)
    requires |p| > 0 && !Contains(s, p)
    ensures Gsub(s, p, r) == s
  {
    assert RawSplit(s, p) == [s];
  }

  /** Whitespace for `String#strip`: NUL, tab, line feed, vertical tab, form feed, carriage
      return and space. */
  predicate IsStripSpace(c: char) {
    c == '\0' || c == '\t' || c == '\n' || c == '\U{000B}' || c == '\U{000C}' || c == '\r' || c == ' '
  }

  predicate AllStripSpace(s: string) {
    forall i :: 0 <= i < |s| ==> IsStripSpace(s[i])
  }

  function LStrip(s: string): (r: string)
    ensures |r| <= |s| && r == s[|s| - |r|..]
    ensures AllStripSpace(s[..|s| - |r|])
    ensures |r| > 0 ==> !IsStripSpace(r[0])
  {
    if |s| > 0 && IsStripSpace(s[0]) then LStrip(s[1..]) else s
  }

  function RStrip(s: string): (r: string)
    ensures |r| <= |s| && r == s[..|r|]
    ensures AllStripSpace(s[|r|..])
    ensures |r| > 0 ==> !IsStripSpace(r[|r| - 1])
  {
    if |s| > 0 && IsStripSpace(s[|s| - 1]) then RStrip(s[..|s| - 1]) else s
  }

  /** `s.strip`: the string between its leading and trailing whitespace. */
  function Strip(s: string): (r: string)
    ensures |r| <= |s|
    ensures |r| > 0 ==> !IsStripSpace(r[0]) && !IsStripSpace(r[|r| - 1])
  {
    RStrip(LStrip(s))
  }

  /** A string with no whitespace at either end is its own `strip`. */
  lemma {:induction false} StripUnspaced(s: string)
    requires |s| > 0 && !IsStripSpace(s[0]) && !IsStripSpace(s[|s| - 1])
    ensures Strip(s) == s
  {
  }

  /** `s.strip.empty?` holds exactly for strings made of whitespace. */
  lemma {:induction false} StripEmptyIffBlank(s: string)
    ensures Strip(s) == "" <==> AllStripSpace(s)
  {
    var l := LStrip(s);
    var n := |s| - |l|;
    if Strip(s) == "" {
      assert l[0..] == l;
      forall j | 0 <= j < |s| ensures IsStripSpace(s[j]) {
        assert s[..n][j] == s[j];
      }
    }
  }

  function DowncaseChar(c: char): (d: char)
    ensures 'A' <= c <= 'Z' ==> 'a' <= d <= 'z' && d as int == c as int + 32
    ensures !('A' <= c <= 'Z') ==> d == c
  {
    if 'A' <= c <= 'Z' then (c as int + 32) as char else c
  }

  /** `s.downcase`, for the ASCII letters only. */
  function Downcase(s: string): (d: string)
    ensures |d| == |s|
    ensures forall i :: 0 <= i < |s| ==> d[i] == DowncaseChar(s[i])
  {
    seq(|s|, i requires 0 <= i < |s| => DowncaseChar(s[i]))
  }

  /** Down-casing twice is the same as once: every stored hash key is its own down-cased form. */
  lemma {:induction false} DowncaseIdempotent(s: string)
    ensures Downcase(Downcase(s)) == Downcase(s)
  {
  }

  predicate IsDigit(c: char) {
    '0' <= c <= '9'
  }

  predicate AllDigits(s: string) {
    forall i :: 0 <= i < |s| ==> IsDigit(s[i])
  }

  /** The white space `String#to_i` skips before the number: not NUL, unlike `strip`. */
  predicate IsIntSpace(c: char) {
    c == ' ' || c == '\t' || c == '\n' || c == '\U{000B}' || c == '\U{000C}' || c == '\r'
  }

  function SkipIntSpace(s: string): (r: string)
    ensures |r| <= |s| && r == s[|s| - |r|..]
    ensures |r| > 0 ==> !IsIntSpace(r[0])
  {
    if |s| > 0 && IsIntSpace(s[0]) then SkipIntSpace(s[1..]) else s
  }

  /** The digits of the leading number of `s`; a single `_` between two digits is skipped. */
  function DigitRun(s: string): (ds: string)
    ensures AllDigits(ds)
    ensures |ds| <= |s|
    ensures |s| == 0 || !IsDigit(s[0]) ==> ds == []
    ensures |s| > 0 && IsDigit(s[0]) ==> |ds| > 0 && ds[0] == s[0]
  {
    if |s| == 0 || !IsDigit(s[0]) then []
    else if |s| >= 3 && s[1] == '_' && IsDigit(s[2]) then [s[0]] + DigitRun(s[2..])
    else [s[0]] + DigitRun(s[1..])
  }

  function DigitValue(c: char): nat
    requires IsDigit(c)
  {
    c as int - '0' as int
  }

  function DecimalValue(ds: string): nat
    requires AllDigits(ds)
  {
    if |ds| == 0 then 0 else 10 * DecimalValue(ds[..|ds| - 1]) + DigitValue(ds[|ds| - 1])
  }

  /** `s.to_i`: optional white space, an optional sign, then the longest run of decimal
      digits; 0 when there is no digit. */
  function ToI(s: string): int {
    var t := SkipIntSpace(s);
    if |t| > 0 && t[0] == '-' then -(DecimalValue(DigitRun(t[1..])) as int)
    else if |t| > 0 && t[0] == '+' then DecimalValue(DigitRun(t[1..]))
    else DecimalValue(DigitRun(t))
  }

  /** `n.to_s`, the decimal numeral of a natural number. */
  function NatToString(n: nat): (s: string)
    ensures |s| > 0 && AllDigits(s)
  {
    var d := ['0' + (n % 10) as char];
    if n < 10 then d else NatToString(n / 10) + d
  }

  lemma {:induction false} DigitRunOfDigits(s: string)
    requires AllDigits(s)
    ensures DigitRun(s) == s
    decreases |s|
  {
    if |s| > 0 {
      DigitRunOfDigits(s[1..]);
      assert s == [s[0]] + s[1..];
    }
  }

  lemma {:induction false} DecimalValueOfNumeral(n: nat)
    ensures DecimalValue(NatToString(n)) == n
  {
    var s := NatToString(n);
    assert s[..|s| - 1] == if n < 10 then [] else NatToString(n / 10);
    if n >= 10 {
      DecimalValueOfNumeral(n / 10);
    }
  }

  /** `to_i` reads back what `to_s` wrote, with or without a minus sign. */
  lemma {:induction false} ToIOfNumeral(n: nat)
    ensures ToI(NatToString(n)) == n
    ensures ToI("-" + NatToString(n)) == -(n as int)
  {
    var s := NatToString(n);
    DigitRunOfDigits(s);
    DecimalValueOfNumeral(n);
    assert ("-" + s)[1..] == s;
  }
}

=== FILE: rule_parser.dfy ===
/** The rule compiler (`Wappalyzer::Builder::RuleParser`): a raw technology definition's
    matcher fields, each a string, a list of strings or a map of them, become lists or keyed
    lists of parsed patterns. A pattern string is `regex\;name:value\;name:value...`. */
module RuleParser {
  import opened Wrappers
  import opened OrderedHash
  import opened RubyString

  /** The twelve matcher fields a definition can carry. */
  datatype Field = Js | Url | Headers | Cookies | Html | Css | CertIssuer | Robots | Meta | Scripts | Implies | Excludes

  /** `REQUIRE_PARSING` in the order `process` visits it: the one case-sensitive field first. */
  const ParseOrder: seq<Field> := [Js, Url, Headers, Cookies, Html, Css, CertIssuer, Robots, Meta, Scripts, Implies, Excludes]

  /** Only `js` keeps the case of its map keys (they name script globals). */
  predicate CaseSensitive(f: Field) {
    f == Js
  }

  /** A parsed pattern. `value` and `regex` both start as the normalised first segment;
      `extra` holds the other named attributes (such as `key_regex`) in order. */
  datatype Pattern = Pattern(value: string, regex: string, confidence: int, version: string, extra: Assoc<string, string>)

  /** `pattern['key_regex']` is truthy: every stored attribute value is a string, and in
      Ruby even the empty string is true. */
  predicate KeyIsRegex(p: Pattern) {
    "key_regex" in Keys(p.extra)
  }

  /** `nil.to_sym` raised on an attribute segment with no name. */
  datatype ParseError = AttributeWithoutName(segment: string)

  const Separator: string := "\\;"

  /** The textual rewrites applied to the regex source. The first one, `\/` to `\/`, writes
      back the very same two characters. */
  function Normalise(src: string): string {
    Gsub(Gsub(Gsub(src, "\\/", "\\/"), "[^]", "."), "[\\s\\S]*", ".*")
  }

  /** The `\/` rewrite is an identity: only the other two change anything. */
  lemma {:induction false} NormaliseSkipsSlash(src: string)
    ensures Normalise(src) == ReplaceAll(ReplaceAll(src, "[^]", "."), "[\\s\\S]*", ".*")
  {
    assert Plain("\\/") by {
      assert !EscapeChar('/');
    }
    GsubPlain(src, "\\/", "\\/");
    ReplaceAllSelf(src, "\\/");
    GsubPlain(src, "[^]", ".");
    GsubPlain(ReplaceAll(src, "[^]", "."), "[\\s\\S]*", ".*");
  }

  /** A source without either idiom is kept verbatim. */
  lemma {:induction false} NormaliseKeepsPlainSource(src: string)
    requires !Contains(src, "[^]") && !Contains(src, "[\\s\\S]*")
    ensures Normalise(src) == src
  {
    NormaliseSkipsSlash(src);
    ReplaceAllAbsent(src, "[^]", ".");
    ReplaceAllAbsent(src, "[\\s\\S]*", ".*");
  }

  predicate AllColons(s: string) {
    forall i :: 0 <= i < |s| ==> s[i] == ':'
  }

  /** One attribute segment: its name is the text before the first `:`, its value the text
      after it, or nil when there is no `:`. A segment made only of colons (the empty one
      included) has no name at all. */
  function Attribute(seg: string): (r: Result<(string, Option<string>), ParseError>)
    ensures r.Failure? <==> AllColons(seg)
    ensures r.Success? ==> !Contains(r.value.0, ":")
    ensures r.Success? && r.value.1.None? ==> r.value.0 == seg && !Contains(seg, ":")
    ensures r.Success? && r.value.1.Some? ==> seg == r.value.0 + ":" + r.value.1.value
  {
    if AllColons(seg) then Failure(AttributeWithoutName(seg))
    else
      match IndexOf(seg, ":")
      case None => Success((seg, None))
      case Some(i) =>
        assert !Contains(seg[..i], ":") by {
          forall j: nat | OccursAt(seg[..i], ":", j) ensures false {
            OccursInPrefix(seg, ":", i, j);
          }
        }
        assert seg[i..i + 1] == ":";
        assert seg == seg[..i] + ":" + seg[i + 1..];
        Success((seg[..i], Some(seg[i + 1..])))
  }

  /** `Attribute` is what the source computes with `split(':')[0]` for the name and
      `split(':', 2)[1]` for the value, and it fails exactly where `split` yields no field. */
  lemma {:induction false} AttributeAgreesWithSplit(seg: string)
    ensures Attribute(seg).Failure? <==> Split(seg, ":") == []
    ensures Attribute(seg).Success? ==> Split(seg, ":") != [] && Attribute(seg).value.0 == Split(seg, ":")[0]
    ensures Attribute(seg).Success? ==>
      Attribute(seg).value.1 == if |SplitOnce(seg, ":")| == 2 then Some(SplitOnce(seg, ":")[1]) else None
  {
    if AllColons(seg) {
      ColonsGiveNoFields(seg);
    } else {
      if Split(seg, ":") == [] {
        NoFieldsMeansColons(seg);
      }
      FirstFieldBeforeColon(seg, Split(seg, ":"), SplitOnce(seg, ":"));
    }
  }

  lemma {:induction false} NoFieldsMeansColons(seg: string)
    requires Split(seg, ":") == []
    ensures AllColons(seg)
  {
    var raw := RawSplit(seg, ":");
    JoinRawSplit(seg, ":");
    assert forall k :: 0 <= k < |raw| ==> raw[k] == "";
    JoinOfEmpties(raw, ":");
  }

  lemma {:induction false} JoinOfEmpties(parts: seq<string>, sep: string)
    requires |sep| == 1 && sep[0] == ':'
    requires forall k :: 0 <= k < |parts| ==> parts[k] == ""
    ensures AllColons(Join(parts, sep))
  {
    if |parts| > 1 {
      JoinOfEmpties(parts[1..], sep);
    }
  }

  lemma {:induction false} ColonsGiveNoFields(seg: string)
    requires AllColons(seg)
    ensures Split(seg, ":") == []
    decreases |seg|
  {
    if seg != "" {
      assert OccursAt(seg, ":", 0);
      assert IndexOf(seg, ":") == Some(0);
      ColonsGiveNoFields(seg[1..]);
      var rest := RawSplit(seg[1..], ":");
      assert RawSplit(seg, ":") == [""] + rest;
      assert DropTrailingEmpty(rest) == [];
      DropEmptyPrefix(rest);
    }
  }

  lemma {:induction false} DropEmptyPrefix(rest: seq<string>)
    requires DropTrailingEmpty(rest) == []
    ensures DropTrailingEmpty([""] + rest) == []
    decreases |rest|
  {
    if |rest| > 0 {
      assert ([""] + rest)[..|rest|] == [""] + rest[..|rest| - 1];
      DropEmptyPrefix(rest[..|rest| - 1]);
    }
  }

  lemma {:induction false} FirstFieldBeforeColon(seg: string, names: seq<string>, halves: seq<string>)
    requires names == Split(seg, ":") && |names| > 0 && halves == SplitOnce(seg, ":")
    ensures |halves| > 0 && names[0] == halves[0]
    ensures |halves| == 1 ==> names[0] == seg
  {
    assert names[0] == RawSplit(seg, ":")[0];
  }

  type Attrs = Assoc<string, Option<string>>

  /** What segment 0 assigns: its normalised text under `value`, then under `regex`. */
  function SourceAttrs(segs: seq<string>): (a: Attrs)
    ensures UniqueKeys(a)
  {
    if |segs| == 0 then [] else [("value", Some(Normalise(segs[0]))), ("regex", Some(Normalise(segs[0])))]
  }

  /** The segments after the first, left to right, each assigning its attribute over
      `start`; a later assignment to a name replaces the earlier one in place. */
  function Assign(start: Attrs, segs: seq<string>): (r: Result<Attrs, ParseError>)
    ensures r.Failure? <==> exists k :: 0 <= k < |segs| && AllColons(segs[k])
    ensures r.Success? && UniqueKeys(start) ==> UniqueKeys(r.value)
  {
    var named :- MapAll(segs, Attribute);
    Success(Merge(start, named))
  }

  function AttributeSegments(segs: seq<string>): seq<string> {
    if |segs| == 0 then [] else segs[1..]
  }

  /** An attribute assigned a string (absent and nil attributes are dropped). */
  function Attr(attrs: Attrs, name: string): Option<string> {
    var g := Get(attrs, name);
    if g.Some? && g.value.Some? then Some(g.value.value) else None
  }

  const Reserved: seq<string> := ["confidence", "version", "value", "regex"]

  /** The non-nil attributes other than the four reserved ones, in order. */
  function Extras(attrs: Attrs): (r: Assoc<string, string>)
    ensures forall k, v :: (k, v) in r <==> k !in Reserved && (k, Some(v)) in attrs
    ensures UniqueKeys(attrs) ==> UniqueKeys(r)
  {
    if |attrs| == 0 then []
    else
      var init := attrs[..|attrs| - 1];
      var (k, v) := attrs[|attrs| - 1];
      assert attrs == init + [(k, v)];
      var r := Extras(init);
      if v.Some? && k !in Reserved then
        assert Keys(r + [(k, v.value)]) == Keys(r) + [k];
        r + [(k, v.value)]
      else r
  }

  /** `parse_pattern`: split on `\;`, assign the attributes, convert `confidence` with
      `to_i`, drop nil values and fill in the defaults. */
  function ParsePattern(s: string): Result<Pattern, ParseError> {
    var segs := Split(s, Separator);
    var attrs :- Assign(SourceAttrs(segs), AttributeSegments(segs));
    Success(Pattern(
      value := Attr(attrs, "value").GetOr(""),
      regex := Attr(attrs, "regex").GetOr(""),
      confidence := match Attr(attrs, "confidence") case Some(c) => ToI(c) case None => 100,
      version := Attr(attrs, "version").GetOr(""),
      extra := Extras(attrs)))
  }

  /** A pattern is rejected exactly when one of its attribute segments is made only of
      colons, the empty segment between two separators included. */
  lemma {:induction false} ParsePatternFails(s: string)
    ensures ParsePattern(s).Failure? <==> exists k :: 1 <= k < |Split(s, Separator)| && AllColons(Split(s, Separator)[k])
  {
    var segs := Split(s, Separator);
    var rest := AttributeSegments(segs);
    if exists k :: 0 <= k < |rest| && AllColons(rest[k]) {
      var k :| 0 <= k < |rest| && AllColons(rest[k]);
      assert rest[k] == segs[k + 1];
    }
    if exists k :: 1 <= k < |segs| && AllColons(segs[k]) {
      var k :| 1 <= k < |segs| && AllColons(segs[k]);
      assert rest[k - 1] == segs[k];
    }
  }

  /** How one attribute is written in a signature: `name:value`. */
  function AttrText(a: (string, string)): string {
    a.0 + ":" + a.1
  }

  /** The pattern string `src\;name:text\;...`, as rule authors write it. */
  function Render(src: string, attrs: seq<(string, string)>): string {
    if |attrs| == 0 then src
    else Render(src, attrs[..|attrs| - 1]) + Separator + AttrText(attrs[|attrs| - 1])
  }

  /** A name an attribute segment can carry: non-empty and colon-free. */
  predicate Named(a: (string, string)) {
    a.0 != "" && !Contains(a.0, ":")
  }

  predicate AllNamed(attrs: seq<(string, string)>) {
    forall i :: 0 <= i < |attrs| ==> Named(attrs[i])
  }

  /** Attribute names are non-empty and colon-free, and no part holds the separator. */
  predicate Renderable(src: string, attrs: seq<(string, string)>) {
    && !Contains(src, Separator)
    && AllNamed(attrs)
    && forall i :: 0 <= i < |attrs| ==> !Contains(AttrText(attrs[i]), Separator)
  }

  /** The value of the last attribute called `name`, or `default`. */
  function LastOr(attrs: seq<(string, string)>, name: string, default: string): string {
    LastValue(attrs, name).GetOr(default)
  }

  /** Parsing a rendered pattern recovers it: value and regex are the normalised source
      unless an attribute overrides them, confidence is the `to_i` of the last `confidence`
      attribute or 100, version is the last `version` attribute or empty, and `key_regex`
      is set exactly when such an attribute was written. */
  lemma {:induction false} ParseRendered(src: string, attrs: seq<(string, string)>)
    requires Renderable(src, attrs)
    ensures ParsePattern(Render(src, attrs)).Success?
    ensures var p := ParsePattern(Render(src, attrs)).value;
      && p.value == LastOr(attrs, "value", Normalise(src))
      && p.regex == LastOr(attrs, "regex", Normalise(src))
      && p.confidence == (if "confidence" in Keys(attrs) then ToI(LastOr(attrs, "confidence", "")) else 100)
      && p.version == LastOr(attrs, "version", "")
      && (KeyIsRegex(p) <==> "key_regex" in Keys(attrs))
  {
    SplitRendered(src, attrs);
    var segs := Split(Render(src, attrs), Separator);
    if |attrs| == 0 && src == "" {
      NormaliseKeepsPlainSource("");
    } else {
      assert AttributeSegments(segs) == AttrTexts(attrs);
      var start := SourceAttrs(segs);
      AssignRendered(start, attrs, "value");
      AssignRendered(start, attrs, "regex");
      AssignRendered(start, attrs, "confidence");
      AssignRendered(start, attrs, "version");
      AssignRendered(start, attrs, "key_regex");
      SourceAttr(segs, "value");
      SourceAttr(segs, "regex");
      SourceAttr(segs, "confidence");
      SourceAttr(segs, "version");
      SourceAttr(segs, "key_regex");
      KeyRegexIffAttr(Assign(start, AttrTexts(attrs)).value);
    }
  }

  /** `key_regex` survives into the extras exactly when it was assigned a string. */
  lemma {:induction false} KeyRegexIffAttr(a: Attrs)
    requires UniqueKeys(a)
    ensures "key_regex" in Keys(Extras(a)) <==> Attr(a, "key_regex").Some?
  {
    var k := "key_regex";
    assert k !in Reserved;
    var r := Extras(a);
    if k in Keys(r) {
      var j :| 0 <= j < |r| && Keys(r)[j] == k;
      assert r[j] in r;
      assert (k, Some(r[j].1)) in a;
    }
    if Attr(a, k).Some? {
      var v := Attr(a, k).value;
      assert (k, Some(v)) in a;
      assert (k, v) in r;
    }
  }

  /** The attribute segments of a rendered pattern. */
  function AttrTexts(attrs: seq<(string, string)>): (segs: seq<string>)
    ensures |segs| == |attrs|
    ensures forall k :: 0 <= k < |attrs| ==> segs[k] == AttrText(attrs[k])
  {
    seq(|attrs|, k requires 0 <= k < |attrs| => AttrText(attrs[k]))
  }

  lemma {:induction false} SplitRendered(src: string, attrs: seq<(string, string)>)
    requires Renderable(src, attrs)
    ensures Split(Render(src, attrs), Separator) == if |attrs| == 0 && src == "" then [] else [src] + AttrTexts(attrs)
  {
    RawSplitRendered(src, attrs);
    var segs := [src] + AttrTexts(attrs);
    if |attrs| > 0 {
      var last := attrs[|attrs| - 1];
      assert segs[|segs| - 1] == AttrText(last);
      assert |segs[|segs| - 1]| > 0;
    } else if src != "" {
      assert segs == [src];
    } else {
      assert RawSplit(src, Separator) == [""];
    }
  }

  lemma {:induction false} RawSplitRendered(src: string, attrs: seq<(string, string)>)
    requires Renderable(src, attrs)
    ensures RawSplit(Render(src, attrs), Separator) == [src] + AttrTexts(attrs)
    decreases |attrs|
  {
    if |attrs| == 0 {
      assert IndexOf(src, Separator) == None;
    } else {
      var init := attrs[..|attrs| - 1];
      var last := attrs[|attrs| - 1];
      RenderableInit(src, attrs);
      RawSplitRendered(src, init);
      RawSplitSnoc(Render(src, init), Separator, AttrText(last));
      AttrTextsSnoc(attrs);
    }
  }

  lemma {:induction false} RenderableInit(src: string, attrs: seq<(string, string)>)
    requires Renderable(src, attrs) && |attrs| > 0
    ensures Renderable(src, attrs[..|attrs| - 1])
    ensures !Contains(AttrText(attrs[|attrs| - 1]), Separator)
  {
    var init := attrs[..|attrs| - 1];
    assert forall i :: 0 <= i < |init| ==> init[i] == attrs[i];
  }

  lemma {:induction false} AttrTextsSnoc(attrs: seq<(string, string)>)
    requires |attrs| > 0
    ensures AttrTexts(attrs) == AttrTexts(attrs[..|attrs| - 1]) + [AttrText(attrs[|attrs| - 1])]
  {
  }

  lemma {:induction false} AttributeOfRendered(name: string, text: string)
    requires name != "" && !Contains(name, ":")
    ensures Attribute(name + ":" + text) == Success((name, Some(text)))
  {
    var seg := name + ":" + text;
    assert !AllColons(seg) by {
      assert seg[0] == name[0];
      assert !OccursAt(name, ":", 0);
    }
    assert OccursAt(seg, ":", |name|) by { assert seg[|name|..|name| + 1] == ":"; }
    forall j: nat | j < |name| ensures !OccursAt(seg, ":", j) {
      assert seg[j..j + 1] == name[j..j + 1];
      assert !OccursAt(name, ":", j);
    }
    IndexOfIsFirst(seg, ":", |name|);
    assert seg[..|name|] == name && seg[|name| + 1..] == text;
  }

  lemma {:induction false} AttrPut(a: Attrs, k: string, v: string, n: string)
    ensures Attr(Put(a, k, Some(v)), n) == if n == k then Some(v) else Attr(a, n)
  {
  }

  lemma {:induction false} SourceAttr(segs: seq<string>, n: string)
    requires |segs| > 0
    ensures Attr(SourceAttrs(segs), n) == if n == "value" || n == "regex" then Some(Normalise(segs[0])) else None
  {
    SourceAttrOf(Some(Normalise(segs[0])), n);
  }

  /** Both names that segment 0 assigns read as the value it assigns them. */
  lemma {:induction false} SourceAttrOf(v: Option<string>, n: string)
    ensures Attr([("value", v), ("regex", v)], n) == if n == "value" || n == "regex" then v else None
  {
    var a0: Attrs := [];
    var a1 := Put(a0, "value", v);
    assert Put(a1, "regex", v) == [("value", v), ("regex", v)];
    assert Get(a1, n) == if n == "value" then Some(v) else None;
    assert Get(Put(a1, "regex", v), n) == if n == "regex" then Some(v) else Get(a1, n);
  }

  /** One more attribute segment assigns one more attribute. */
  lemma {:induction false} AssignSnoc(start: Attrs, texts: seq<string>, last: (string, string))
    requires Named(last) && Assign(start, texts).Success?
    ensures Assign(start, texts + [AttrText(last)]) == Success(Put(Assign(start, texts).value, last.0, Some(last.1)))
  {
    var seg := AttrText(last);
    AttributeOfRendered(last.0, last.1);
    var named := MapAll(texts, Attribute).value;
    MapAllSnoc(texts, seg, Attribute);
    assert (named + [(last.0, Some(last.1))])[..|named|] == named;
  }

  /** Assigning rendered attributes over `start`: a written name reads as its last value,
      any other name as in `start`. */
  lemma {:induction false} AssignRendered(start: Attrs, attrs: seq<(string, string)>, n: string)
    requires AllNamed(attrs)
    ensures Assign(start, AttrTexts(attrs)).Success?
    ensures Attr(Assign(start, AttrTexts(attrs)).value, n) == if n in Keys(attrs) then LastValue(attrs, n) else Attr(start, n)
  {
    if |attrs| > 0 {
      var init := attrs[..|attrs| - 1];
      var last := attrs[|attrs| - 1];
      assert attrs == init + [last];
      assert Named(last);
      assert AllNamed(init) by {
        assert forall i :: 0 <= i < |init| ==> init[i] == attrs[i];
      }
      var texts := AttrTexts(init);
      assert AttrTexts(attrs) == texts + [AttrText(last)];
      AssignRendered(start, init, n);
      AssignSnoc(start, texts, last);
      AttrPut(Assign(start, texts).value, last.0, last.1, n);
      LastValueSnoc(init, last, n);
    }
  }

  /** A raw matcher field: absent (nil), a string, a list of strings, or a map from key to a
      list of strings (a bare string under a key is its one-element list, as `[val].flatten`
      makes it). */
  datatype RawPatterns = Absent | RawString(s: string) | RawList(items: seq<string>) | RawMap(entries: seq<(string, seq<string>)>)

  /** A compiled matcher field: a flat list, or a list per key. */
  datatype FieldPatterns = Listed(patterns: seq<Pattern>) | Keyed(entries: Assoc<string, seq<Pattern>>)

  function StoredKey(k: string, caseSensitive: bool): string {
    if caseSensitive then k else Downcase(k)
  }

  function StoredKeys(entries: seq<(string, seq<string>)>, caseSensitive: bool): (ks: seq<string>)
    ensures |ks| == |entries|
    ensures forall i :: 0 <= i < |entries| ==> ks[i] == StoredKey(entries[i].0, caseSensitive)
  {
    seq(|entries|, i requires 0 <= i < |entries| => StoredKey(entries[i].0, caseSensitive))
  }

  /** One map entry: its key as stored, with its patterns parsed in order. */
  function ParseEntry(e: (string, seq<string>), caseSensitive: bool, parse: string -> Result<Pattern, ParseError>)
    : (r: Result<(string, seq<Pattern>), ParseError>)
    ensures r.Success? <==> MapAll(e.1, parse).Success?
    ensures r.Success? ==> r.value == (StoredKey(e.0, caseSensitive), MapAll(e.1, parse).value)
    ensures r.Failure? ==> r == Failure(MapAll(e.1, parse).error)
  {
    var ps :- MapAll(e.1, parse);
    Success((StoredKey(e.0, caseSensitive), ps))
  }

  /** The map form: keys are stored down-cased unless the field is case-sensitive; two keys
      that collide once down-cased keep the first one's position and the last one's list. The
      first entry holding a pattern that does not parse aborts the whole field. */
  function ParseKeyed(entries: seq<(string, seq<string>)>, caseSensitive: bool, parse: string -> Result<Pattern, ParseError>)
    : (r: Result<Assoc<string, seq<Pattern>>, ParseError>)
    ensures r.Success? <==> forall i :: 0 <= i < |entries| ==> MapAll(entries[i].1, parse).Success?
    ensures r.Success? ==> UniqueKeys(r.value) && Keys(r.value) == Distinct(StoredKeys(entries, caseSensitive))
    ensures r.Failure? ==> exists i :: 0 <= i < |entries| && MapAll(entries[i].1, parse) == Failure(r.error)
                                     && forall j :: 0 <= j < i ==> MapAll(entries[j].1, parse).Success?
  {
    var pairs :- MapAll(entries, e => ParseEntry(e, caseSensitive, parse));
    assert Keys(pairs) == StoredKeys(entries, caseSensitive);
    Success(FromPairs(pairs))
  }

  /** A stored key reads as the parsed list of the last entry that stores under it. */
  lemma {:induction false} ParseKeyedLast(entries: seq<(string, seq<string>)>, caseSensitive: bool,
                                          parse: string -> Result<Pattern, ParseError>, i: nat)
    requires ParseKeyed(entries, caseSensitive, parse).Success? && i < |entries|
    requires forall j :: i < j < |entries| ==> StoredKey(entries[j].0, caseSensitive) != StoredKey(entries[i].0, caseSensitive)
    ensures MapAll(entries[i].1, parse).Success?
    ensures Get(ParseKeyed(entries, caseSensitive, parse).value, StoredKey(entries[i].0, caseSensitive))
            == Some(MapAll(entries[i].1, parse).value)
  {
    var pairs := MapAll(entries, e => ParseEntry(e, caseSensitive, parse)).value;
    assert pairs[i] == (StoredKey(entries[i].0, caseSensitive), MapAll(entries[i].1, parse).value);
    LastValueAt(pairs, i);
  }

  /** Outside `js`, every stored key is already in lower case. */
  lemma {:induction false} KeyedKeysDowncased(entries: seq<(string, seq<string>)>, parse: string -> Result<Pattern, ParseError>)
    requires ParseKeyed(entries, false, parse).Success?
    ensures forall k :: k in Keys(ParseKeyed(entries, false, parse).value) ==> Downcase(k) == k
  {
    var ks := StoredKeys(entries, false);
    forall k | k in Keys(ParseKeyed(entries, false, parse).value) ensures Downcase(k) == k {
      assert k in ks;
      var i :| 0 <= i < |ks| && ks[i] == k;
      DowncaseIdempotent(entries[i].0);
    }
  }

  /** `transform`, with `parse` standing for `parse_pattern`: nil or empty becomes the empty
      list; a string or a list becomes a flat list of its patterns in order; a non-empty map
      becomes a keyed matcher. */
  function Transform(raw: RawPatterns, caseSensitive: bool, parse: string -> Result<Pattern, ParseError>)
    : (r: Result<FieldPatterns, ParseError>)
    ensures raw.Absent? || (raw.RawString? && raw.s == "") || (raw.RawList? && raw.items == []) || (raw.RawMap? && raw.entries == [])
            ==> r == Success(Listed([]))
    ensures raw.RawString? && raw.s != "" ==> r == (match parse(raw.s) case Success(p) => Success(Listed([p])) case Failure(e) => Failure(e))
    ensures raw.RawList? && r.Success? ==> r.value.Listed? && |r.value.patterns| == |raw.items|
    ensures raw.RawList? ==> (r.Success? <==> forall i :: 0 <= i < |raw.items| ==> parse(raw.items[i]).Success?)
    ensures raw.RawList? && r.Success? ==> forall i :: 0 <= i < |raw.items| ==> parse(raw.items[i]) == Success(r.value.patterns[i])
    ensures raw.RawMap? && raw.entries != [] ==> r == (match ParseKeyed(raw.entries, caseSensitive, parse) case Success(kd) => Success(Keyed(kd)) case Failure(e) => Failure(e))
  {
    match raw
    case Absent => Success(Listed([]))
    case RawString(s) =>
      if s == "" then Success(Listed([]))
      else
        var p :- parse(s);
        Success(Listed([p]))
    case RawList(items) =>
      if |items| == 0 then Success(Listed([]))
      else
        var ps :- MapAll(items, parse);
        Success(Listed(ps))
    case RawMap(entries) =>
      if |entries| == 0 then Success(Listed([]))
      else
        var kd :- ParseKeyed(entries, caseSensitive, parse);
        Success(Keyed(kd))
  }

  /** All twelve fields of a compiled definition. */
  datatype Fields = Fields(
    js: FieldPatterns, url: FieldPatterns, headers: FieldPatterns, cookies: FieldPatterns,
    html: FieldPatterns, css: FieldPatterns, certIssuer: FieldPatterns, robots: FieldPatterns,
    meta: FieldPatterns, scripts: FieldPatterns, implies: FieldPatterns, excludes: FieldPatterns)
  {
    function At(f: Field): FieldPatterns {
      match f
      case Js => js
      case Url => url
      case Headers => headers
      case Cookies => cookies
      case Html => html
      case Css => css
      case CertIssuer => certIssuer
      case Robots => robots
      case Meta => meta
      case Scripts => scripts
      case Implies => implies
      case Excludes => excludes
    }
  }

  /** `@data[f.to_s]`: a field the definition does not mention reads as nil. */
  function RawOf(data: map<Field, RawPatterns>, f: Field): RawPatterns {
    if f in data then data[f] else Absent
  }

  /** The place of each field in `ParseOrder`; every field has one. */
  function Position(f: Field): (i: nat)
    ensures i < |ParseOrder| && ParseOrder[i] == f
  {
    match f
    case Js => 0
    case Url => 1
    case Headers => 2
    case Cookies => 3
    case Html => 4
    case Css => 5
    case CertIssuer => 6
    case Robots => 7
    case Meta => 8
    case Scripts => 9
    case Implies => 10
    case Excludes => 11
  }

  /** One field of `process`: `transform` of its raw value, case-sensitive for `js` only. */
  function TransformField(data: map<Field, RawPatterns>, f: Field, parse: string -> Result<Pattern, ParseError>)
    : Result<FieldPatterns, ParseError>
  {
    Transform(RawOf(data, f), CaseSensitive(f), parse)
  }

  /** Fields built from the per-field results listed in `ParseOrder`. */
  function FromOrder(ps: seq<FieldPatterns>): (flds: Fields)
    requires |ps| == |ParseOrder|
    ensures forall f: Field :: flds.At(f) == ps[Position(f)]
  {
    Fields(ps[0], ps[1], ps[2], ps[3], ps[4], ps[5], ps[6], ps[7], ps[8], ps[9], ps[10], ps[11])
  }

  /** The twelve fields, each produced by `step`, taken in `ParseOrder`; the first failing
      field aborts the rest. */
  function EachField<E>(step: Field -> Result<FieldPatterns, E>): (r: Result<Fields, E>)
    ensures r.Success? <==> forall f: Field :: step(f).Success?
    ensures r.Success? ==> forall f: Field :: step(f) == Success(r.value.At(f))
    ensures r.Failure? ==> exists i :: 0 <= i < |ParseOrder| && step(ParseOrder[i]) == Failure(r.error)
                                     && forall j :: 0 <= j < i ==> step(ParseOrder[j]).Success?
  {
    var ps :- MapAll(ParseOrder, step);
    var flds := FromOrder(ps);
    forall f: Field ensures step(f) == Success(flds.At(f)) {
      assert step(ParseOrder[Position(f)]) == Success(ps[Position(f)]);
    }
    Success(flds)
  }

  /** `process`, with `parse` standing for `parse_pattern`: every one of the twelve fields,
      and only those, passed through `transform` (case-sensitively for `js` alone), in
      `ParseOrder`; the first field that fails aborts. */
  function Process(data: map<Field, RawPatterns>, parse: string -> Result<Pattern, ParseError>): (r: Result<Fields, ParseError>)
    ensures r.Success? <==> forall f: Field :: TransformField(data, f, parse).Success?
    ensures r.Success? ==> forall f: Field :: TransformField(data, f, parse) == Success(r.value.At(f))
    ensures r.Failure? ==> exists i :: 0 <= i < |ParseOrder| && TransformField(data, ParseOrder[i], parse) == Failure(r.error)
                                     && forall j :: 0 <= j < i ==> TransformField(data, ParseOrder[j], parse).Success?
  {
    var step := f => TransformField(data, f, parse);
    assert forall f :: step(f) == TransformField(data, f, parse);
    EachField(step)
  }

  /** `RuleParser.call`: the definition's fields compiled with `parse_pattern` itself. */
  function Compile(data: map<Field, RawPatterns>): Result<Fields, ParseError> {
    Process(data, ParsePattern)
  }
}

=== FILE: scraper.dfy ===
/** `Analysis::WebpageScraper`: the pure helpers that shape what the browser reports into the
    page snapshot the detection pass reads. Driving the browser, fetching the page and
    parsing HTML are not part of this model; their results are the inputs here. */
module WebpageScraper {
  import opened Wrappers
  import opened OrderedHash
  import opened RubyArray
  import opened RubyString
  import opened Processor
  import RuleParser

  // ---------------------------------------------------------------- group_arr

  /** One element of the array `group_arr` receives: a Ruby array of strings, such as a meta
      tag's name and content, or a cookie line split at its first '='. */
  type Row = seq<string>

  /** `row.first`: nil for an empty row. */
  function First(row: Row): Option<string> {
    if |row| == 0 then None else Some(row[0])
  }

  /** `row.last`: nil for an empty row. */
  function Last(row: Row): Value {
    if |row| == 0 then Nil else Str(row[|row| - 1])
  }

  /** `key.to_s.downcase`: nil reads as the empty string. */
  function KeyName(k: Option<string>): string {
    Downcase(k.GetOr(""))
  }

  /** The name a row is filed under. */
  function RowKey(row: Row): string {
    KeyName(First(row))
  }

  /** One group renamed and reduced to its rows' last elements. */
  function Named(g: (Option<string>, seq<Row>)): (string, seq<Value>) {
    (KeyName(g.0), MapSeq(g.1, Last))
  }

  /** `group_arr(arr)`: the rows grouped by their first element; each group is named by
      that element down-cased and holds its rows' last elements in order. `to_h` keeps one
      entry per name, in the order the names first occur. */
  function GroupArr(arr: seq<Row>): (r: KeyedData)
    ensures UniqueKeys(r)
    ensures Keys(r) == Distinct(MapKeys(arr, RowKey))
  {
    var g := GroupBy(arr, First);
    var pairs := MapSeq(g, Named);
    assert Keys(pairs) == MapSeq(Keys(g), KeyName);
    assert MapKeys(arr, RowKey) == MapSeq(MapKeys(arr, First), KeyName);
    DistinctOfImage(MapKeys(arr, First), KeyName);
    FromPairs(pairs)
  }

  /** Taking distinct elements before or after mapping gives the same distinct images. */
  lemma {:induction false} DistinctOfImage<A(!new), B(!new)>(xs: seq<A>, f: A -> B)
    ensures Distinct(MapSeq(Distinct(xs), f)) == Distinct(MapSeq(xs, f))
    decreases |xs|
  {
    if |xs| > 0 {
      var init := xs[..|xs| - 1];
      assert xs == init + [xs[|xs| - 1]];
      DistinctOfImage(init, f);
      DistinctOfImageSnoc(init, xs[|xs| - 1], f);
    }
  }

  /** One step of `DistinctOfImage`: appending an element keeps both sides equal. */
  lemma {:induction false} DistinctOfImageSnoc<A(!new), B(!new)>(init: seq<A>, x: A, f: A -> B)
    requires Distinct(MapSeq(Distinct(init), f)) == Distinct(MapSeq(init, f))
    ensures Distinct(MapSeq(Distinct(init + [x]), f)) == Distinct(MapSeq(init + [x], f))
  {
    DistinctSnoc(init, x);
    MapSeqAppend(init, [x], f);
    DistinctSnoc(MapSeq(init, f), f(x));
    if x in Distinct(init) {
      var j :| 0 <= j < |init| && init[j] == x;
      assert MapSeq(init, f)[j] == f(x);
    } else {
      MapSeqAppend(Distinct(init), [x], f);
      DistinctSnoc(MapSeq(Distinct(init), f), f(x));
    }
  }

  /** When the first elements filed under a name all agree, selecting rows by first element
      and by name select the same rows. */
  lemma {:induction false} SelectByName(arr: seq<Row>, first: Option<string>)
    requires forall j :: 0 <= j < |arr| && RowKey(arr[j]) == KeyName(first) ==> First(arr[j]) == first
    ensures Select(arr, First, first) == Select(arr, RowKey, KeyName(first))
    decreases |arr|
  {
    if |arr| > 0 {
      SelectByName(arr[..|arr| - 1], first);
    }
  }

  /** A name that only one spelling of a first element maps to collects the last elements of
      exactly the rows filed under it, in order. */
  lemma {:induction false} GroupArrCollects(arr: seq<Row>, i: nat)
    requires i < |arr|
    requires forall j :: 0 <= j < |arr| && RowKey(arr[j]) == RowKey(arr[i]) ==> First(arr[j]) == First(arr[i])
    ensures Get(GroupArr(arr), RowKey(arr[i])) == Some(MapSeq(Select(arr, RowKey, RowKey(arr[i])), Last))
  {
    var g := GroupBy(arr, First);
    var pairs := MapSeq(g, Named);
    var first := First(arr[i]);
    var k := RowKey(arr[i]);
    assert first in Keys(g) by {
      assert MapKeys(arr, First)[i] == first;
    }
    var m :| 0 <= m < |g| && Keys(g)[m] == first;
    forall n | m < n < |pairs| ensures pairs[n].0 != pairs[m].0 {
      assert g[n].0 != first;
      assert g[n].0 in MapKeys(arr, First) by {
        assert Keys(g)[n] == g[n].0;
      }
      var j :| 0 <= j < |arr| && MapKeys(arr, First)[j] == g[n].0;
    }
    LastValueAt(pairs, m);
    SelectByName(arr, first);
  }

  /** Two rows with different first elements make two groups of one row each. */
  lemma {:induction false} GroupByTwo(r1: Row, r2: Row)
    requires First(r1) != First(r2)
    ensures GroupBy([r1, r2], First) == [(First(r1), [r1]), (First(r2), [r2])]
  {
    var xs := [r1, r2];
    assert xs[..1] == [r1];
    GroupBySingle(r1);
    var g0 := [(First(r1), [r1])];
    assert Keys(g0) == [First(r1)];
    assert Find(g0, First(r2)) == None;
    assert GroupBy(xs, First) == AppendAt(g0, First(r2), r2);
  }

  lemma {:induction false} FromPairsMerges(ps: KeyedData)
    ensures FromPairs(ps) == Merge([], ps)
  {
  }

  lemma {:induction false} PutOverSingle(k: string, a: seq<Value>, b: seq<Value>)
    ensures Put([(k, a)], k, b) == [(k, b)]
  {
    assert Find([(k, a)], k) == Some(0);
  }

  /** A later pair under the same key replaces an earlier one. */
  lemma {:induction false} FromPairsOverride(k: string, a: seq<Value>, b: seq<Value>)
    ensures FromPairs([(k, a), (k, b)]) == [(k, b)]
  {
    var ps := [(k, a), (k, b)];
    assert ps[..1] == [(k, a)];
    FromPairsSingle(k, a);
    FromPairsMerges([(k, a)]);
    FromPairsMerges(ps);
    assert Merge([], ps) == Put(Merge([], [(k, a)]), k, b);
    PutOverSingle(k, a, b);
  }

  lemma {:induction false} NamedTwo(r1: Row, r2: Row)
    ensures MapSeq([(First(r1), [r1]), (First(r2), [r2])], Named) == [(RowKey(r1), [Last(r1)]), (RowKey(r2), [Last(r2)])]
  {
    assert MapSeq([r1], Last) == [Last(r1)];
    assert MapSeq([r2], Last) == [Last(r2)];
  }

  lemma {:induction false} GroupArrPairs(arr: seq<Row>)
    ensures GroupArr(arr) == FromPairs(MapSeq(GroupBy(arr, First), Named))
  {
  }

  /** Names are compared after down-casing, groups before: two rows whose first elements
      differ only in case make two groups under one name, and the later group replaces the
      earlier one's values. */
  lemma {:induction false} GroupArrCaseCollision(r1: Row, r2: Row)
    requires First(r1) != First(r2) && RowKey(r1) == RowKey(r2)
    ensures GroupArr([r1, r2]) == [(RowKey(r2), [Last(r2)])]
  {
    GroupByTwo(r1, r2);
    GroupArrPairs([r1, r2]);
    NamedTwo(r1, r2);
    FromPairsOverride(RowKey(r2), [Last(r1)], [Last(r2)]);
  }

  /** Meta tags `A` and `a` collide: only the second one's content survives, under `a`. */
  lemma {:induction false} GroupArrCaseCollisionExample()
    ensures GroupArr([["A", "1"], ["a", "2"]]) == [("a", [Str("2")])]
  {
    assert DowncaseChar('A') == 'a';
    assert RowKey(["A", "1"]) == RowKey(["a", "2"]) == "a";
    GroupArrCaseCollision(["A", "1"], ["a", "2"]);
  }

  // ---------------------------------------------------------------- headers and cookies

  /** The response headers as the browser reports them: each name with its raw value. */
  type Headers = Assoc<string, string>

  /** One header down-cased, its value split into lines. */
  function HeaderLines(h: (string, string)): (string, seq<string>) {
    (Downcase(h.0), Split(h.1, "\n"))
  }

  /** The headers' pairs before `to_h`. */
  function HeaderPairs(h: Headers): (ps: Assoc<string, seq<string>>)
    ensures Keys(ps) == MapSeq(Keys(h), Downcase)
  {
    MapSeq(h, HeaderLines)
  }

  lemma {:induction false} HeaderKeysDowncased(h: Headers)
    ensures forall k :: k in Keys(FromPairs(HeaderPairs(h))) ==> Downcase(k) == k
  {
    forall k | k in Keys(FromPairs(HeaderPairs(h))) ensures Downcase(k) == k {
      var j :| 0 <= j < |h| && MapSeq(Keys(h), Downcase)[j] == k;
      DowncaseIdempotent(h[j].0);
    }
  }

  /** `extract_headers`: no response gives no headers; otherwise each name down-cased with
      its value split into lines, and names equal up to case keep the later value. */
  function ExtractHeaders(response: Option<Headers>): (r: Assoc<string, seq<string>>)
    ensures response.None? ==> r == []
    ensures UniqueKeys(r)
    ensures response.Some? ==> Keys(r) == Distinct(MapSeq(Keys(response.value), Downcase))
    ensures forall k :: k in Keys(r) ==> Downcase(k) == k
  {
    match response
    case None => []
    case Some(h) =>
      HeaderKeysDowncased(h);
      FromPairs(HeaderPairs(h))
  }

  /** A header that no later header shares a name with up to case is stored under its
      down-cased name as its lines. */
  lemma {:induction false} HeaderLinesKept(h: Headers, i: nat)
    requires i < |h|
    requires forall j :: i < j < |h| ==> Downcase(h[j].0) != Downcase(h[i].0)
    ensures Get(ExtractHeaders(Some(h)), Downcase(h[i].0)) == Some(Split(h[i].1, "\n"))
  {
    LastValueAt(HeaderPairs(h), i);
  }

  /** Joining the stored lines gives the header's value back, unless it ends with a
      newline. */
  lemma {:induction false} HeaderValueRestored(h: Headers, i: nat)
    requires i < |h|
    requires forall j :: i < j < |h| ==> Downcase(h[j].0) != Downcase(h[i].0)
    requires !(|h[i].1| >= 1 && h[i].1[|h[i].1| - 1..] == "\n")
    ensures Get(ExtractHeaders(Some(h)), Downcase(h[i].0)).Some?
    ensures Join(Get(ExtractHeaders(Some(h)), Downcase(h[i].0)).value, "\n") == h[i].1
  {
    HeaderLinesKept(h, i);
    JoinSplit(h[i].1, "\n");
  }

  /** The rows the cookie lines give: each `set-cookie` line split at its first '='. */
  function CookieRows(headers: Assoc<string, seq<string>>): (rows: seq<Row>)
    ensures |rows| == |Get(headers, "set-cookie").GetOr([])|
  {
    MapSeq(Get(headers, "set-cookie").GetOr([]), (c: string) => SplitOnce(c, "="))
  }

  /** `extract_cookies`: the cookie lines grouped by down-cased cookie name; no `set-cookie`
      header gives no cookies. */
  function ExtractCookies(headers: Assoc<string, seq<string>>): (r: KeyedData)
    ensures "set-cookie" !in Keys(headers) ==> r == []
    ensures UniqueKeys(r)
    ensures |r| <= |Get(headers, "set-cookie").GetOr([])|
  {
    var rows := CookieRows(headers);
    DistinctNoLonger(MapKeys(rows, RowKey));
    GroupArr(rows)
  }

  lemma {:induction false} DistinctNoLonger<K(!new)>(ks: seq<K>)
    ensures |Distinct(ks)| <= |ks|
    decreases |ks|
  {
    if |ks| > 0 {
      DistinctNoLonger(ks[..|ks| - 1]);
    }
  }

  /** Two ways of writing a line as a name, '=', and the rest agree when neither name
      holds '='. */
  lemma {:induction false} SameNameBeforeFirst(a: string, b: string, x: string, y: string)
    requires a + "=" + x == b + "=" + y && !Contains(a, "=") && !Contains(b, "=")
    ensures a == b && x == y
  {
    var c := a + "=" + x;
    if |a| < |b| {
      assert OccursAt(b, "=", |a|) by {
        assert b[|a|] == c[|a|];
        assert b[|a|..|a| + 1] == [b[|a|]];
      }
    } else if |b| < |a| {
      assert OccursAt(a, "=", |b|) by {
        assert a[|b|] == c[|b|];
        assert a[|b|..|b| + 1] == [a[|b|]];
      }
    } else {
      assert a == c[..|a|] == b;
      assert x == c[|a| + 1..] == y;
    }
  }

  /** A cookie line `name=value` whose name holds no '=' splits into exactly its name and
      its value; the value may hold further '=' signs. */
  lemma {:induction false} CookieSplit(name: string, value: string)
    requires !Contains(name, "=")
    ensures SplitOnce(name + "=" + value, "=") == [name, value]
  {
    var c := name + "=" + value;
    assert OccursAt(c, "=", |name|) by {
      assert c[|name|..|name| + 1] == "=";
    }
    var parts := SplitOnce(c, "=");
    SameNameBeforeFirst(parts[0], name, parts[1], value);
  }

  /** A line without '=' is both the cookie's name and its value. */
  lemma {:induction false} CookieWithoutValue(c: string)
    requires c != "" && !Contains(c, "=")
    ensures SplitOnce(c, "=") == [c]
  {
  }

  lemma {:induction false} GroupBySingle(row: Row)
    ensures GroupBy([row], First) == [(First(row), [row])]
  {
    var g := GroupBy([row], First);
    assert MapKeys([row], First) == [First(row)];
    assert Keys(g) == [First(row)];
    assert g[0].1 == Select([row], First, First(row)) == [row] by {
      assert [row][..0] == [];
    }
    assert g[0].0 == Keys(g)[0];
  }

  lemma {:induction false} FromPairsSingle(k: string, v: seq<Value>)
    ensures FromPairs([(k, v)]) == [(k, v)]
  {
    var ps := [(k, v)];
    assert ps[..0] == [];
    assert Merge([], ps) == Put([], k, v);
    var empty: KeyedData := [];
    assert Find(empty, k) == None;
  }

  /** One row alone makes one group. */
  lemma {:induction false} GroupArrSingle(row: Row)
    ensures GroupArr([row]) == [(RowKey(row), [Last(row)])]
  {
    GroupBySingle(row);
    assert MapSeq([(First(row), [row])], Named) == [(RowKey(row), [Last(row)])] by {
      assert MapSeq([row], Last) == [Last(row)];
    }
    FromPairsSingle(RowKey(row), [Last(row)]);
  }

  /** The rows of a single `set-cookie` line `name=value`. */
  lemma {:induction false} SingleCookieRows(name: string, value: string)
    requires !Contains(name, "=")
    ensures CookieRows([("set-cookie", [name + "=" + value])]) == [[name, value]]
  {
    var headers := [("set-cookie", [name + "=" + value])];
    assert Get(headers, "set-cookie") == Some([name + "=" + value]) by {
      assert headers[0].0 == "set-cookie";
    }
    CookieSplit(name, value);
  }

  /** A single `set-cookie` line `name=value` gives one cookie, under the down-cased name,
      holding the value. */
  lemma {:induction false} SingleCookie(name: string, value: string)
    requires !Contains(name, "=")
    ensures ExtractCookies([("set-cookie", [name + "=" + value])]) == [(Downcase(name), [Str(value)])]
  {
    SingleCookieRows(name, value);
    GroupArrSingle([name, value]);
  }

  // ---------------------------------------------------------------- script globals

  /** What evaluating a script global gives back. */
  datatype JsValue = JsString(s: string) | JsNumber(n: int) | JsBoolean(b: bool) | JsNull | JsObject

  /** Ruby's truthiness: everything but nil and false. */
  predicate Truthy(v: JsValue) {
    v != JsNull && v != JsBoolean(false)
  }

  /** `sanitize_value`: strings and numbers are kept; anything else becomes whether it is
      non-nil. */
  function SanitizeValue(v: JsValue): (r: Value)
    ensures v.JsString? <==> r.Str?
    ensures v.JsString? ==> r.s == v.s
    ensures v.JsNumber? <==> r.Num?
    ensures v.JsNumber? ==> r.n == v.n
    ensures r.Bool? <==> !v.JsString? && !v.JsNumber?
    ensures r == Bool(false) <==> v == JsNull
    ensures r != Nil
  {
    match v
    case JsString(s) => Str(s)
    case JsNumber(n) => Num(n)
    case _ => Bool(v != JsNull)
  }

  /** The globals read so far: each technology's name with its keys and sanitised values. */
  type JsItems = Assoc<string, Assoc<string, Value>>

  /** `evaluate_and_add_js_variable` with the evaluation's outcome given (`None` when it
      raised): a truthy outcome is stored, sanitised, under the technology and key. */
  function AddJsVariable(items: JsItems, tech: string, key: string, evaluated: Option<JsValue>): (r: JsItems)
    ensures !(evaluated.Some? && Truthy(evaluated.value)) ==> r == items
    ensures evaluated.Some? && Truthy(evaluated.value) ==>
      Get(r, tech).Some? && Get(Get(r, tech).value, key) == Some(SanitizeValue(evaluated.value))
    ensures forall t :: t != tech ==> Get(r, t) == Get(items, t)
    ensures forall k :: k != key && Get(r, tech).Some? ==>
      Get(Get(r, tech).value, k) == Get(Get(items, tech).GetOr([]), k)
  {
    if evaluated.Some? && Truthy(evaluated.value) then
      Put(items, tech, Put(Get(items, tech).GetOr([]), key, SanitizeValue(evaluated.value)))
    else items
  }

  /** Every stored value reads as a hit for a pattern without a regex: a value that is neither
      a string nor a number is stored as `true`, never as nil or `false`. */
  lemma {:induction false} StoredValuesAreTrue(items: JsItems, tech: string, key: string, evaluated: Option<JsValue>)
    requires evaluated.Some? && Truthy(evaluated.value) && !evaluated.value.JsString? && !evaluated.value.JsNumber?
    ensures Get(Get(AddJsVariable(items, tech, key, evaluated), tech).value, key) == Some(Bool(true))
  {
  }

  /** One technology's globals as a keyed part: every value wrapped in a one-element list. */
  function Wrapped(vals: Assoc<string, Value>): (d: KeyedData)
    ensures Keys(d) == Keys(vals)
    ensures forall j :: 0 <= j < |vals| ==> d[j].1 == [vals[j].1]
    ensures Unwrapped(d) == vals
  {
    var d := seq(|vals|, j requires 0 <= j < |vals| => (vals[j].0, [vals[j].1]));
    assert Keys(d) == Keys(vals);
    assert Unwrapped(d) == vals;
    d
  }

  /** `format_js_data_arr_for_processing`: every technology keeps its name and keys, each
      value wrapped in a one-element list, ready to be read as that technology's `js` part. */
  function FormatJs(items: JsItems): (r: Assoc<string, KeyedData>)
    ensures Keys(r) == Keys(items)
    ensures forall i :: 0 <= i < |items| ==> Keys(r[i].1) == Keys(items[i].1)
  {
    var r := seq(|items|, i requires 0 <= i < |items| => (items[i].0, Wrapped(items[i].1)));
    assert Keys(r) == Keys(items);
    r
  }

  /** Each value back out of its one-element list. */
  function Unwrapped(d: KeyedData): Assoc<string, Value> {
    seq(|d|, j requires 0 <= j < |d| => (d[j].0, if |d[j].1| > 0 then d[j].1[0] else Nil))
  }

  /** Wrapping loses nothing: unwrapping every technology's part gives the globals back. */
  lemma {:induction false} FormatJsRoundTrip(items: JsItems)
    ensures MapSeq(FormatJs(items), (e: (string, KeyedData)) => (e.0, Unwrapped(e.1))) == items
  {
    var r := FormatJs(items);
    forall i | 0 <= i < |items| ensures Unwrapped(r[i].1) == items[i].1 {
      var w := r[i].1;
      assert forall j :: 0 <= j < |w| ==> w[j].0 == Keys(w)[j] == Keys(items[i].1)[j] == items[i].1[j].0;
    }
    assert forall i :: 0 <= i < |items| ==> r[i].0 == Keys(r)[i] == Keys(items)[i] == items[i].0;
  }

  /** Detection reads a technology's globals from the formatted data exactly as stored. */
  lemma {:induction false} FormatJsRead(items: JsItems, scalars: map<RuleParser.Field, Value>, scripts: Option<seq<Value>>,
                                         keyed: map<RuleParser.Field, KeyedData>, i: nat)
    requires i < |items| && UniqueKeys(items)
    ensures JsPart(Snapshot(scalars, scripts, keyed, Some(FormatJs(items))), items[i].0) == Success(Some(Wrapped(items[i].1)))
  {
    var r := FormatJs(items);
    assert forall a, b :: 0 <= a < b < |r| ==> r[a].0 == Keys(r)[a] == Keys(items)[a] == items[a].0 && r[b].0 == items[b].0;
    assert r[i].0 == Keys(r)[i] == Keys(items)[i] == items[i].0;
  }

  // ---------------------------------------------------------------- the URL scheme

  /** `change_url_scheme`: `http` becomes `https`; anything else becomes `http`. */
  function ChangeUrlScheme(scheme: string): (r: string)
    ensures r == "https" <==> scheme == "http"
    ensures r == "http" <==> scheme != "http"
  {
    if scheme == "http" then "https" else "http"
  }

  /** Changing the scheme twice returns to it exactly for `http` and `https`. */
  lemma {:induction false} ChangeUrlSchemeToggles(scheme: string)
    ensures ChangeUrlScheme(ChangeUrlScheme(scheme)) == scheme <==> scheme == "http" || scheme == "https"
  {
  }
}

=== FILE: version_template.dfy ===
/** Version templates: a pattern's `version` attribute names capture groups as `\1`, `\2`, …
    and may end in a ternary `\i?then:else`, which picks `then` when group `i` took part in the
    match and `else` when it did not. The regexes that find these are fixed, so they are
    modelled here as plain string operations. */
module VersionTemplate {
  import opened Wrappers
  import opened RubyString
  import opened Regex

  /** `\i`, the back-reference to group `i`: the regex `\\i` matches exactly this text. */
  function BackRef(i: nat): (b: string)
    ensures |b| >= 2 && b[0] == '\\' && AllDigits(b[1..])
  {
    "\\" + NatToString(i)
  }

  /** The longest prefix of `s` without `c`. */
  function Before(s: string, c: char): (r: string)
    ensures |r| <= |s| && r == s[..|r|]
    ensures forall k :: 0 <= k < |r| ==> r[k] != c
    ensures |r| < |s| ==> s[|r|] == c
  {
    if |s| == 0 || s[0] == c then [] else [s[0]] + Before(s[1..], c)
  }

  /** `Before` stops at the first `c`, or takes all of `s` when there is none. */
  lemma {:induction false} BeforeIsRun(s: string, c: char, n: nat)
    requires n <= |s| && (n < |s| ==> s[n] == c)
    requires forall k :: 0 <= k < n ==> s[k] != c
    ensures Before(s, c) == s[..n]
  {
    if n > 0 {
      BeforeIsRun(s[1..], c, n - 1);
      assert s[..n] == [s[0]] + s[1..][..n - 1];
    }
  }

  /** One match of `\\i(?:\?([^:]+):(.*))$`: where it starts, its two groups, and its text. */
  datatype Ternary = Ternary(start: nat, whenSet: string, whenUnset: string, whole: string)

  /** The ternary for group `i` matched at position `p`, if it matches there. `[^:]+` is
      greedy and must be followed by `:`, so it takes the whole colon-free run, which may not
      be empty or reach the end; `.*` stops at the first line feed, where `$` holds, as it
      does at the end of the string. */
  function TernaryAt(v: string, i: nat, p: nat): (r: Option<Ternary>)
    requires p <= |v|
    ensures r.Some? ==> r.value.start == p && Located(v, r)
    ensures r.Some? ==> OccursAt(v, BackRef(i) + "?", p)
  {
    var h := BackRef(i) + "?";
    if !(p + |h| <= |v| && v[p..p + |h|] == h) then None
    else
      var q := p + |h|;
      var t := Before(v[q..], ':');
      if |t| == 0 || q + |t| == |v| then None
      else
        var e := Before(v[q + |t| + 1..], '\n');
        assert v[q..q + |t|] == t;
        assert v[q + |t| + 1..q + |t| + 1 + |e|] == e;
        TernaryShape(v, p, h, t, e);
        Some(Ternary(p, t, e, h + t + ":" + e))
  }

  lemma {:induction false} TernaryShape(v: string, p: nat, h: string, t: string, e: string)
    requires p + |h| + |t| + 1 + |e| <= |v|
    requires v[p..p + |h|] == h && v[p + |h|..p + |h| + |t|] == t && v[p + |h| + |t|] == ':'
    requires v[p + |h| + |t| + 1..p + |h| + |t| + 1 + |e|] == e
    ensures OccursAt(v, h + t + ":" + e, p)
  {
    assert v[p..p + |h| + |t| + 1 + |e|] == h + t + ":" + e;
  }

  /** What a ternary found at `p` consists of: `\\i?`, a nonempty run without colons, a colon,
      and a run without line feeds. */
  lemma {:induction false} TernaryAtShape(v: string, i: nat, p: nat)
    requires p <= |v| && TernaryAt(v, i, p).Some?
    ensures var t := TernaryAt(v, i, p).value;
      t.whole == BackRef(i) + "?" + t.whenSet + ":" + t.whenUnset &&
      |t.whenSet| > 0 && (forall k :: 0 <= k < |t.whenSet| ==> t.whenSet[k] != ':') &&
      (forall k :: 0 <= k < |t.whenUnset| ==> t.whenUnset[k] != '\n')
  {
  }

  /** The first `q` in `p..n` at which `at` finds something. */
  function Leftmost<T>(n: nat, p: nat, at: nat -> Option<T>): (r: Option<(nat, T)>)
    requires p <= n
    ensures r.Some? ==> p <= r.value.0 <= n && at(r.value.0) == Some(r.value.1)
    ensures r.Some? ==> forall q :: p <= q < r.value.0 ==> at(q).None?
    ensures r.None? ==> forall q :: p <= q <= n ==> at(q).None?
    decreases n - p
  {
    match at(p)
    case Some(x) => Some((p, x))
    case None => if p == n then None else Leftmost(n, p + 1, at)
  }

  function TernaryAtOrNone(v: string, i: nat): (at: nat -> Option<Ternary>)
    ensures forall q :: 0 <= q <= |v| ==> at(q) == TernaryAt(v, i, q)
  {
    (q: nat) => if q <= |v| then TernaryAt(v, i, q) else None
  }

  /** `r.match(version)` for the ternary of group `i`: the leftmost position it matches at. */
  function FindTernary(v: string, i: nat): (r: Option<Ternary>)
    ensures Located(v, r)
    ensures r.Some? ==> r.value.start <= |v| && TernaryAt(v, i, r.value.start) == r
    ensures r.Some? ==> forall q :: 0 <= q < r.value.start ==> TernaryAt(v, i, q).None?
    ensures r.None? <==> forall q :: 0 <= q <= |v| ==> TernaryAt(v, i, q).None?
  {
    var at := TernaryAtOrNone(v, i);
    var m := Leftmost(|v|, 0, at);
    if m.None? then None
    else
      var t := m.value.1;
      assert TernaryAt(v, i, m.value.0) == Some(t);
      Some(t)
  }

  /** `found`, if any, is a nonempty text occurring in `v` at its start. */
  predicate Located(v: string, found: Option<Ternary>) {
    found.Some? ==> |found.value.whole| > 0 && OccursAt(v, found.value.whole, found.value.start)
  }

  /** The template with the ternary `found`, if any, replaced by the branch the capture
      selects (`version.sub(ternary[0], …)`: the first occurrence of the matched text);
      `base` when there is none. */
  function ChooseBranch(base: string, template: string, found: Option<Ternary>, capture: Option<string>): (r: string)
    requires Located(template, found)
    ensures found.None? ==> r == base
  {
    match found
    case None => base
    case Some(t) => Sub(template, t.whole, if capture.Some? then t.whenSet else t.whenUnset)
  }

  /** `resolve_version(version, match, i)`: the ternary resolved, the result stripped, then
      every `\i` replaced by the capture, or by nothing when the group did not take part. */
  function Resolve(template: string, capture: Option<string>, i: nat): string {
    Gsub(Strip(ChooseBranch(template, template, FindTernary(template, i), capture)), BackRef(i), capture.GetOr(""))
  }

  /** A template with neither a ternary nor a back-reference for `i` is only stripped. */
  lemma {:induction false} ResolvePlain(template: string, capture: Option<string>, i: nat)
    requires FindTernary(template, i).None? && !Contains(Strip(template), BackRef(i))
    ensures Resolve(template, capture, i) == Strip(template)
  {
    GsubAbsent(Strip(template), BackRef(i), capture.GetOr(""));
  }

  /** One step of a `version_for` loop: the template, the version resolved so far, the
      capture of group `i`, and `i`; it gives the version resolved after group `i`. */
  type Step = (string, string, Option<string>, nat) -> string

  /** `matches.captures.each.with_index`, starting at group `k + 1` with `resolved`. */
  function Loop(template: string, caps: Captures, k: nat, resolved: string, step: Step): string
    requires k <= |caps|
    decreases |caps| - k
  {
    if k == |caps| then resolved
    else Loop(template, caps, k + 1, step(template, resolved, caps[k], k + 1), step)
  }

  /** `processor.rb`'s step: it resolves the original template again, so whatever the
      earlier groups contributed is discarded. */
  function ClassStep(template: string, resolved: string, capture: Option<string>, i: nat): string {
    Resolve(template, capture, i)
  }

  /** `analysis.rb`'s step: it keeps resolving the accumulated version, except that a ternary
      for group `i` restarts from the original template with only that ternary replaced. */
  function LegacyStep(template: string, resolved: string, capture: Option<string>, i: nat): string {
    Gsub(Strip(ChooseBranch(resolved, template, FindTernary(template, i), capture)), BackRef(i), capture.GetOr(""))
  }

  /** The version of a match by the `processor.rb` loop. */
  function ClassVersion(template: string, caps: Captures): string {
    Loop(template, caps, 0, template, ClassStep)
  }

  /** The version of a match by the `analysis.rb` loop. */
  function LegacyVersion(template: string, caps: Captures): string {
    Loop(template, caps, 0, template, LegacyStep)
  }

  lemma {:induction false} ClassLoopKeepsLast(template: string, caps: Captures, k: nat, resolved: string)
    requires k < |caps|
    ensures Loop(template, caps, k, resolved, ClassStep) == Resolve(template, caps[|caps| - 1], |caps|)
    decreases |caps| - k
  {
    if k + 1 < |caps| {
      ClassLoopKeepsLast(template, caps, k + 1, ClassStep(template, resolved, caps[k], k + 1));
    }
  }

  /** `processor.rb`: with no groups the template comes back as it is; otherwise the result
      is the last group's resolution of the original template alone. */
  lemma {:induction false} ClassVersionIsLastGroup(template: string, caps: Captures)
    ensures |caps| == 0 ==> ClassVersion(template, caps) == template
    ensures |caps| > 0 ==> ClassVersion(template, caps) == Resolve(template, caps[|caps| - 1], |caps|)
  {
    if |caps| > 0 {
      ClassLoopKeepsLast(template, caps, 0, template);
    }
  }

  /** `analysis.rb`: a group whose ternary is found discards what earlier groups did. */
  lemma {:induction false} LegacyTernaryRestarts(template: string, r1: string, r2: string, capture: Option<string>, i: nat)
    requires FindTernary(template, i).Some?
    ensures LegacyStep(template, r1, capture, i) == LegacyStep(template, r2, capture, i)
  {
  }

  /** The two loops agree on a match with at most one group. */
  lemma {:induction false} VersionsAgreeOnOneGroup(template: string, caps: Captures)
    requires |caps| <= 1
    ensures LegacyVersion(template, caps) == ClassVersion(template, caps)
  {
    if |caps| == 1 {
      assert Loop(template, caps, 1, LegacyStep(template, template, caps[0], 1), LegacyStep)
          == LegacyStep(template, template, caps[0], 1);
      assert Loop(template, caps, 1, ClassStep(template, template, caps[0], 1), ClassStep)
          == ClassStep(template, template, caps[0], 1);
    }
  }

  lemma {:induction false} NoQuestionMarkAt(v: string, i: nat, q: nat)
    requires q <= |v| && forall k :: 0 <= k < |v| ==> v[k] != '?'
    ensures TernaryAt(v, i, q).None?
  {
    var h := BackRef(i) + "?";
    if q + |h| <= |v| {
      assert v[q..q + |h|][|h| - 1] != '?';
      assert h[|h| - 1] == '?';
    }
    assert !OccursAt(v, h, q);
  }

  /** A template without a question mark has no ternary. */
  lemma {:induction false} NoTernaryWithoutQuestionMark(v: string, i: nat)
    requires forall k :: 0 <= k < |v| ==> v[k] != '?'
    ensures FindTernary(v, i).None?
  {
    forall q: nat | q <= |v| ensures TernaryAt(v, i, q).None? {
      NoQuestionMarkAt(v, i, q);
    }
  }

  /** Without a ternary for group `i`, a legacy step resolves the accumulated version. */
  lemma {:induction false} LegacyStepPlain(template: string, resolved: string, capture: Option<string>, i: nat)
    requires FindTernary(template, i).None?
    ensures LegacyStep(template, resolved, capture, i) == Gsub(Strip(resolved), BackRef(i), capture.GetOr(""))
  {
  }

  lemma {:induction false} ExampleBackRefs()
    ensures BackRef(1) == ['\\', '1'] && BackRef(2) == ['\\', '2']
  {
    assert NatToString(1) == "1" && NatToString(2) == "2";
  }

  /** Group `i`'s back-reference occurring only at the end: `gsub` replaces just that one. */
  lemma {:induction false} ReplaceTrailingRef(head: string, i: nat, r: string)
    requires forall j: nat :: j < |head| ==> !OccursAt(head + BackRef(i), BackRef(i), j)
    ensures ReplaceAll(head + BackRef(i), BackRef(i), r) == head + r
  {
    var b := BackRef(i);
    var s := head + b + "";
    assert s == head + b;
    assert OccursAt(s, b, |head|);
    IndexOfIsFirst(s, b, |head|);
    assert !Contains("", b);
    ReplaceAllSingle(head, b, "", r);
  }

  /** `BackRef(1)` followed by a text without another one: replaced at the front only. */
  lemma {:induction false} ReplaceLeadingRef(tail: string, r: string)
    requires !Contains(tail, BackRef(1))
    ensures ReplaceAll(BackRef(1) + tail, BackRef(1), r) == r + tail
  {
    var b := BackRef(1);
    var s := "" + b + tail;
    assert s == b + tail;
    assert OccursAt(s, b, 0);
    IndexOfIsFirst(s, b, 0);
    ReplaceAllSingle("", b, tail, r);
  }

  lemma {:induction false} ExampleFirstSubstitution(v: string)
    requires v == BackRef(1) + "." + BackRef(2)
    ensures ReplaceAll(Strip(v), BackRef(1), "5") == "5." + BackRef(2)
  {
    ExampleBackRefs();
    var tail := "." + BackRef(2);
    assert v == BackRef(1) + tail;
    NoFirstRefInTail(tail);
    StripUnspaced(v);
    ReplaceLeadingRef(tail, "5");
  }

  lemma {:induction false} ExampleFirstGroup(v: string)
    requires v == BackRef(1) + "." + BackRef(2)
    ensures LegacyStep(v, v, Some("5"), 1) == "5." + BackRef(2)
  {
    ExampleBackRefs();
    assert forall k :: 0 <= k < |v| ==> v[k] != '?';
    NoTernaryWithoutQuestionMark(v, 1);
    LegacyStepPlain(v, v, Some("5"), 1);
    GsubPlain(Strip(v), BackRef(1), "5");
    ExampleFirstSubstitution(v);
  }

  lemma {:induction false} NoFirstRefInTail(tail: string)
    requires tail == "." + BackRef(2)
    ensures !Contains(tail, BackRef(1))
  {
    ExampleBackRefs();
    forall j: nat | j <= |tail| ensures !OccursAt(tail, BackRef(1), j) {
      if j + 2 <= |tail| {
        assert tail[j..j + 2][0] != '\\' || tail[j..j + 2][1] != '1';
      }
    }
  }

  lemma {:induction false} ExampleSecondSubstitution(head: string)
    requires head == "5." || head == BackRef(1) + "."
    ensures ReplaceAll(Strip(head + BackRef(2)), BackRef(2), "3") == head + "3"
  {
    ExampleBackRefs();
    var s := head + BackRef(2);
    forall j: nat | j < |head| ensures !OccursAt(s, BackRef(2), j) {
      assert s[j..j + 2][0] != '\\' || s[j..j + 2][1] != '2';
    }
    StripUnspaced(s);
    ReplaceTrailingRef(head, 2, "3");
  }

  lemma {:induction false} ExampleSecondGroup(v: string, head: string)
    requires v == BackRef(1) + "." + BackRef(2)
    requires head == "5." || head == BackRef(1) + "."
    ensures LegacyStep(v, head + BackRef(2), Some("3"), 2) == head + "3"
  {
    ExampleBackRefs();
    assert forall k :: 0 <= k < |v| ==> v[k] != '?';
    NoTernaryWithoutQuestionMark(v, 2);
    LegacyStepPlain(v, head + BackRef(2), Some("3"), 2);
    GsubPlain(Strip(head + BackRef(2)), BackRef(2), "3");
    ExampleSecondSubstitution(head);
  }

  /** A loop over two groups is two steps. */
  lemma {:induction false} LoopOfTwo(template: string, caps: Captures, step: Step)
    requires |caps| == 2
    ensures Loop(template, caps, 0, template, step)
         == step(template, step(template, template, caps[0], 1), caps[1], 2)
  {
    var first := step(template, template, caps[0], 1);
    assert Loop(template, caps, 1, first, step) == Loop(template, caps, 2, step(template, first, caps[1], 2), step);
  }

  /** Without ternaries, the `analysis.rb` loop over two groups substitutes the first
      group into the stripped template and then the second into the stripped result. */
  lemma {:induction false} LegacyOfTwoPlain(v: string, caps: Captures)
    requires |caps| == 2 && FindTernary(v, 1).None? && FindTernary(v, 2).None?
    ensures LegacyVersion(v, caps)
         == Gsub(Strip(Gsub(Strip(v), BackRef(1), caps[0].GetOr(""))), BackRef(2), caps[1].GetOr(""))
  {
    LoopOfTwo(v, caps, LegacyStep);
    var first := LegacyStep(v, v, caps[0], 1);
    LegacyStepPlain(v, v, caps[0], 1);
    LegacyStepPlain(v, first, caps[1], 2);
  }

  lemma {:induction false} ExampleLegacy(v: string, caps: Captures)
    requires v == BackRef(1) + "." + BackRef(2) && caps == [Some("5"), Some("3")]
    ensures LegacyVersion(v, caps) == "5.3"
  {
    var head := "5.";
    ExampleLegacyPlain(v, caps);
    ExampleFirstGsub(v, head);
    ExampleSecondGsub(head);
    ExampleFiveThree(head);
  }

  lemma {:induction false} ExampleFiveThree(head: string)
    requires head == "5."
    ensures head + "3" == "5.3"
  {
  }

  lemma {:induction false} ExampleLegacyPlain(v: string, caps: Captures)
    requires v == BackRef(1) + "." + BackRef(2) && caps == [Some("5"), Some("3")]
    ensures LegacyVersion(v, caps) == Gsub(Strip(Gsub(Strip(v), BackRef(1), "5")), BackRef(2), "3")
  {
    ExampleBackRefs();
    assert forall k :: 0 <= k < |v| ==> v[k] != '?';
    NoTernaryWithoutQuestionMark(v, 1);
    NoTernaryWithoutQuestionMark(v, 2);
    LegacyOfTwoPlain(v, caps);
  }

  lemma {:induction false} ExampleFirstGsub(v: string, head: string)
    requires v == BackRef(1) + "." + BackRef(2) && head == "5."
    ensures Gsub(Strip(v), BackRef(1), "5") == head + BackRef(2)
  {
    GsubPlain(Strip(v), BackRef(1), "5");
    ExampleFirstSubstitution(v);
  }

  lemma {:induction false} ExampleSecondGsub(head: string)
    requires head == "5." || head == BackRef(1) + "."
    ensures Gsub(Strip(head + BackRef(2)), BackRef(2), "3") == head + "3"
  {
    GsubPlain(Strip(head + BackRef(2)), BackRef(2), "3");
    ExampleSecondSubstitution(head);
  }

  lemma {:induction false} ExampleClass(v: string, caps: Captures)
    requires v == BackRef(1) + "." + BackRef(2) && caps == [Some("5"), Some("3")]
    ensures ClassVersion(v, caps) == BackRef(1) + "." + "3"
  {
    ExampleSecondGroup(v, BackRef(1) + ".");
    assert (BackRef(1) + ".") + BackRef(2) == v;
    ClassVersionIsLastGroup(v, caps);
    assert ClassVersion(v, caps) == Resolve(v, caps[1], 2) == LegacyStep(v, v, caps[1], 2);
  }

  /** The ternary branch is a replacement string, so its escapes are expanded: in
      `\1?\1:x` with group 1 set, the branch `\1` names a group the ternary's own
      match does not have and gives nothing, so the version is empty, not `5`. */
  lemma {:induction false} ExampleEscapedBranch(v: string)
    requires v == BackRef(1) + "?" + BackRef(1) + ":x"
    ensures Resolve(v, Some("5"), 1) == ""
  {
    var t := Ternary(0, BackRef(1), "x", v);
    ExampleEscapedTernary(v);
    FirstTernaryAtStart(v, 1);
    SubWhole(v, BackRef(1));
    ExpandMissingGroup(1, v);
    assert ChooseBranch(v, v, FindTernary(v, 1), Some("5")) == "";
    assert Strip("") == "";
    GsubAbsent("", BackRef(1), "5");
  }

  lemma {:induction false} ExampleEscapedTernary(v: string)
    requires v == BackRef(1) + "?" + BackRef(1) + ":x"
    ensures TernaryAt(v, 1, 0) == Some(Ternary(0, BackRef(1), "x", v))
  {
    ExampleBackRefs();
    var h := BackRef(1) + "?";
    assert v == ['\\', '1', '?', '\\', '1', ':', 'x'];
    assert v[0..3] == h;
    BeforeIsRun(v[3..], ':', 2);
    assert v[3..][..2] == BackRef(1);
    BeforeIsRun(v[6..], '\n', 1);
    assert v[6..][..1] == "x";
    assert h + BackRef(1) + ":" + "x" == v;
  }

  /** A ternary at the very start is the one `FindTernary` finds. */
  lemma {:induction false} FirstTernaryAtStart(v: string, i: nat)
    requires TernaryAt(v, i, 0).Some?
    ensures FindTernary(v, i) == TernaryAt(v, i, 0)
  {
  }

  /** `s.sub(s, r)`: the whole text is the match, with nothing before or after it. */
  lemma {:induction false} SubWhole(s: string, r: string)
    requires |s| > 0
    ensures Sub(s, s, r) == Expand(r, s, "", "")
  {
    SubFirst(s, s, r, 0);
    assert s[..0] == "" && s[|s|..] == "";
  }

  /** `\i` for a group the replacement's pattern does not have expands to nothing. */
  lemma {:induction false} ExpandMissingGroup(i: nat, matched: string)
    requires 1 <= i <= 9
    ensures Expand(BackRef(i), matched, "", "") == ""
  {
    var d := '0' + i as char;
    assert BackRef(i) == ['\\', d] && '1' <= d <= '9';
    assert BackRef(i)[2..] == "";
  }

  /** The two loops differ as soon as two groups both appear in the template: for the
      template `\1.\2` and groups `5` and `3`, `analysis.rb` gives `5.3` while
      `processor.rb` substitutes only the last group and gives `\1.3`. */
  lemma {:induction false} VersionsDivergeOnTwoGroups(v: string, caps: Captures)
    requires v == BackRef(1) + "." + BackRef(2) && caps == [Some("5"), Some("3")]
    ensures LegacyVersion(v, caps) == "5.3"
    ensures ClassVersion(v, caps) == BackRef(1) + "." + "3"
  {
    ExampleLegacy(v, caps);
    ExampleClass(v, caps);
  }
}

=== FILE: wrappers.dfy ===
/** Option and Result datatypes. `Result` is failure-compatible, so `:-` propagates
    the first failure exactly as a raised Ruby exception aborts the rest of a computation. */
module Wrappers {

  datatype Option<+T> = None | Some(value: T) {

    /** The encapsulated value, or `default` when there is none (Ruby's `x || default`). */
    function GetOr(default: T): T {
      match this
      case Some(v) => v
      case None => default
    }
  }

  datatype Result<+T, +E> = Success(value: T) | Failure(error: E) {

    predicate IsFailure() {
      Failure?
    }

    function PropagateFailure<U>(): Result<U, E>
      requires Failure?
    {
      Failure(error)
    }

    function Extract(): T
      requires Success?
    {
      value
    }
  }

  /** `xs.map { |x| f(x) }` where `f` may raise: the first failure, in order, aborts the rest. */
  function MapAll<A, B, E>(xs: seq<A>, f: A -> Result<B, E>): (r: Result<seq<B>, E>)
    ensures r.Success? <==> forall i :: 0 <= i < |xs| ==> f(xs[i]).Success?
    ensures r.Success? ==> |r.value| == |xs| && forall i :: 0 <= i < |xs| ==> f(xs[i]) == Success(r.value[i])
    ensures r.Failure? ==> exists i :: 0 <= i < |xs| && f(xs[i]) == Failure(r.error) && forall j :: 0 <= j < i ==> f(xs[j]).Success?
  {
    if |xs| == 0 then Success([])
    else
      var init := xs[..|xs| - 1];
      assert forall i :: 0 <= i < |init| ==> init[i] == xs[i];
      var ys :- MapAll(init, f);
      var y :- f(xs[|xs| - 1]);
      Success(ys + [y])
  }

  lemma {:induction false} MapAllSnoc<A, B, E>(xs: seq<A>, x: A, f: A -> Result<B, E>)
    requires MapAll(xs, f).Success? && f(x).Success?
    ensures MapAll(xs + [x], f) == Success(MapAll(xs, f).value + [f(x).value])
  {
    assert (xs + [x])[..|xs|] == xs;
  }
}
